=== FILE: README.md ===
# arc-content-report, modelled in Dafny

These scripts drive the Arc XP content APIs to produce and act on reports:
- they list the redirects and unpublished wire stories created in a date window;
- they check the HTTP status of redirect targets;
- they find the photos that no story, gallery or lightbox uses;
- they delete redirects, stories and photos, or expire photos, from those reports.

Most of the code is HTTP, CSV and logging. Once every remote call is an oracle, the rest is deterministic, and that is what this project models. It covers:
- the recursive bisection of a date window into pieces the search API can page through;
- the chunked, parallel fan-out of the processors;
- the paging loops;
- the status checker's de-duplication and merge-back;
- the per-item delete and expire calls with their counters;
- the three-stage photo analysis;
- the gating the two reporters apply.

Each remote call is a function parameter. They are:
- `probe`, the count request of the date builder;
- `server`, a search or deletion endpoint;
- `list` and `single`, the photo listing and lookup;
- `get`, the status request;
- `bench`, a benchmark throughput.

A thread pool is modelled as its units run one after another in submission order. Lemmas then show that the gathered multiset does not depend on the completion order. For the fetch pools this is `FanOut.CollectPermutation` and `FanOut.FlatMapPermutation`. For the deletion processors it is `DeleteProcessor.GatherPermutation`, which also shows that the counters do not depend on it. Instants are whole seconds, and Python dictionaries are maps.

An error record carries `str(e)` of the exception, as the processors store it. For a missing counter that is the key in quotes, such as `'stories_failed'`, and for an index past the end of a row it is `list index out of range`.

Where a script has a bug (see "## Findings"), its runs are modelled as written. The wire deletion runs take the counter names of the call (`AsWritten` or `Intended`), and the photo analysis takes the writer (`AsWrittenWriter` or `CorrectedWriter`). The corrected program is the same run with the other choice, stated by separately named lemmas.

The modules follow the repository:

- `daterange_builder.dfy` (`DateRanges`): `daterange_builder.py` and the reporters' range building
- `utils.dfy`, `text.dfy` (`Utils`, `Text`): `utils.py` helpers and the Python string operations the scripts use
- `records.dfy`, `wrappers.dfy`, `sessions.dfy` (`Records`, `Wrappers`, `Sessions`): JSON values, `stats` dictionaries, HTTP replies, CSV columns
- `fanout.dfy`, `worker_tuning.dfy` (`FanOut`, `WorkerTuning`): the chunked pools, `process_ranges_parallel`, `optimize_worker_count`
- `delete_processor.dfy` (`DeleteProcessor`): the two deletion processors
- `search_paging.dfy`, `wires_fetch.dfy`, `redirects_fetch.dfy` (`SearchPaging`, `WiresFetch`, `RedirectsFetch`): the search paging loops and the two range processors
- `status_checker.dfy` (`StatusChecker`): `redirects_report/status_checker.py`
- `delete_photos.dfy`, `delete_redirects.dfy`, `delete_wires.dfy` (`DeletePhotos`, `DeleteRedirects`, `DeleteWires`): the three deletion scripts
- `photo_query.dfy`, `photo_analysis.dfy` (`PhotoQuery`, `PhotoAnalysis`): `images_report/published_photo_analysis.py`
- `wires_report.dfy`, `redirects_report.dfy` (`WiresReport`, `RedirectsReport`): the two reporters

## Model

| member | source | states |
|---|---|---|
| DateRanges.TotalHits | daterange_builder.py:36-55 | A failed count request or a body without `count` reads as 0 hits; otherwise the reported count. |
| DateRanges.Midpoint | daterange_builder.py:90-95 | The midpoint lies within the range, strictly inside when the range spans more than a second, and rounds an odd half-second down. |
| DateRanges.SplitRange | daterange_builder.py:57-101 | The bisection always returns at least one piece, and at depth 10 it probes nothing. |
| DateRanges.SplitRangeTiles | daterange_builder.py:57-101 | The pieces tile the range exactly: the first starts at its start, the last ends at its end, and each ends where the next begins. There are at most `2^(10-depth)` pieces. At depth 10 the range comes back whole, unprobed. |
| DateRanges.SplitRangeLeaves | daterange_builder.py:69-82 | Every piece produced below depth 10 was probed at no more than 10,000 hits, so only depth-10 pieces can be oversized; an ordered range yields ordered pieces. |
| DateRanges.SplitRangeProbes | daterange_builder.py:69-101 | The probe is called once per split plus once per piece below depth 10, and the first call is for the whole range. |
| DateRanges.BuildOptimalRanges | daterange_builder.py:103-122 | The ranges tile the input, with between 1 and 1024 pieces; no check that start precedes end. |
| DateRanges.FailedProbeKeepsRange | daterange_builder.py:48-55 | Below depth 10, a failed count request keeps the range whole after exactly one probe. |
| DateRanges.WithinLimitKeepsRange | daterange_builder.py:76-82 | Below depth 10, a range of at most 10,000 hits is kept whole after exactly one probe. |
| DateRanges.AlwaysOversizedIsFullTree | daterange_builder.py:26-27 | A probe that always exceeds the limit yields exactly `2^(10-depth)` pieces after `2^(10-depth)-1` probes. |
| DateRanges.TwoHalvesExample | daterange_builder.py:80-101 | Counts 20000, 8000, 8000 give exactly two ranges, split at the midpoint, after three probes. |
| DateRanges.CreateDateRangesFromTuples | daterange_builder.py:133-160 | Every range produced from valid tuples is ordered. |
| DateRanges.CreateDateRangesAppend | daterange_builder.py:154-159 | Tuples are processed in order: two batches give the ranges of the first followed by those of the second. |
| DateRanges.CreateDateRangesSingle | daterange_builder.py:124-131 | A valid tuple contributes its optimal ranges; an invalid one (unparsable, or start not before end) contributes nothing. |
| DateRanges.CreateDateRangesEmptyIff | daterange_builder.py:154-160 | The result is empty exactly when no tuple is valid. |
| DateRanges.ReporterRanges | wires_report/identify_wires.py:50-58 | Either date empty gives no ranges; otherwise the builder's ranges. |
| Utils.ChunkList | utils.py:229-230 | Concatenating the chunks gives back the list. Every chunk is non-empty and at most `n` long, and all but the last are exactly `n` long. A negative `n` gives no chunks. |
| Utils.ChunkListCount | utils.py:229-230 | The number of chunks is `ceil(len / n)`, so there are none for an empty list. |
| Utils.FormatDateRange | utils.py:204-206 | The label is the start, `_to_`, then the end. |
| Utils.CreateOutputFilenameShape | utils.py:209-217 | The name is `{s}_to_{e}_{website}.{suffix}`, prefixed by `{prefix}_` exactly when the prefix is non-empty; the clock has no effect. |
| Utils.OrgFor | wires_report/parallel_processor.py:22 | The organisation gets the `sandbox.` prefix exactly outside production. |
| Text.Split | wires_report/identify_wires.py:161 | `split(',')` yields one more piece than there are separators, no piece contains the separator, and joining them back gives the input. |
| Text.SplitJoin | wires_report/identify_wires.py:161 | Splitting a comma-join of comma-free pieces gives the pieces back. |
| Text.Strip | wires_report/identify_wires.py:161 | `strip()` leaves no leading or trailing whitespace, whitespace being every character `str.isspace` accepts, Unicode separators included. |
| Text.StripSlice | wires_report/identify_wires.py:161 | `strip()` keeps one contiguous slice and removes only `str.isspace` whitespace around it. |
| Text.ScrubNonAlnum | wires_report/parallel_processor.py:180-181 | Every character outside `[A-Za-z0-9]` becomes `_`; the length and every letter and digit are kept. |
| Text.ScrubIdempotent | wires_report/parallel_processor.py:180-181 | Scrubbing twice is scrubbing once. |
| Text.ReplaceAll | images_report/published_photo_analysis.py:71 | `replace` leaves a string without the pattern unchanged. |
| Text.ReplaceAllLeftmost | images_report/published_photo_analysis.py:71 | When the pattern occurs, the string splits at its leftmost occurrence. The text before it is kept, the occurrence becomes the replacement, and replacing goes on in the text after it. |
| Text.RStripChar | redirects_report/status_checker.py:17 | `rstrip('/')` keeps a prefix with no trailing `/` and removes only `/`. |
| Text.NatToStringRoundTrip | redirects_report/status_checker.py:155 | `str` of a status code loses nothing: reading the digits back gives the number. |
| Records.GetOr | wires_report/parallel_processor.py:93-103 | `.get(key, default)` works only on an object and gives the value or the default. |
| Records.Bump | wires_report/delete_wires.py:81-89 | `stats[key] += d` raises when the key is missing; otherwise it moves that counter only. |
| Records.UpdateWith | wires_report/delete_wires.py:112-114 | `stats.update(other)`: the other's keys overwrite and every remaining key is kept. |
| Sessions.FirstColumn | wires_report/delete_wires.py:126-130 | `row[0]` of every row, in order, or an `IndexError` exactly when some row is empty. |
| Sessions.FirstTwoColumns | redirects_report/delete_redirects.py:116-121 | `(row[0], row[1])` of every row, in order, or an `IndexError` exactly when some row is shorter. |
| FanOut.CollectMember | images_report/parallel_processor.py:57-65 | A result is gathered exactly when some unit returned it; `None` and raised units contribute nothing. |
| FanOut.CollectLength | images_report/parallel_processor.py:57-65 | At most one result per unit. |
| FanOut.CollectPermutation | images_report/parallel_processor.py:57-65 | Any completion order gathers the same multiset of results. |
| FanOut.RunUnitsAppend | images_report/parallel_processor.py:49-55 | Running two lists of units in turn is running their concatenation. |
| FanOut.RunChunksFlat | images_report/parallel_processor.py:49-55 | Chunk after chunk runs every item exactly once, in order. |
| FanOut.RunInChunks | images_report/parallel_processor.py:49-55 | With a positive chunk size every item runs once, in order; a negative size runs nothing. |
| FanOut.ProcessParallel | images_report/parallel_processor.py:24-68 | `process_photos_parallel`: the results are the non-`None`, non-raising returns, at most one per input. |
| FanOut.ProcessRanges | wires_report/parallel_processor.py:119-154 | When every range raises, nothing is gathered. |
| FanOut.ProcessRangesContents | wires_report/parallel_processor.py:135-154 | A record is in the result exactly when some non-raising range returned it, and the multiset does not depend on the completion order. |
| FanOut.ProcessRangesIsFlatMap | redirects_report/identify_redirects_parallel_processor.py:117-136 | The result is the concatenation of the per-range lists, a raising range contributing `[]`. |
| FanOut.ChooseWorkers | images_report/parallel_processor.py:177-192 | The choice is a candidate or the default. With no positive throughput it is the default; otherwise it is the earliest candidate whose throughput no other exceeds. |
| WorkerTuning.FirstBestUnique | images_report/parallel_processor.py:187-189 | The strict `>` makes the choice unique: the earliest best candidate. |
| WorkerTuning.ItemSample | images_report/parallel_processor.py:177-178 | The benchmark sample is the given test items, else the first 10 items. |
| WorkerTuning.OptimizeItemWorkers | redirects_report/delete_redirects_parallel_processor.py:174-214 | One of 1, 2, 4, 8, 12, 16. It is 8 when no size shows throughput on the sample, else the earliest best size. |
| WorkerTuning.OptimizeRangeWorkers | wires_report/parallel_processor.py:230-259 | One of 1, 3, 5, 8, 10, benchmarked on the first 3 ranges. It is 5 when none shows throughput, else the earliest best size. |
| WorkerTuning.TieGoesToEarlierSize | wires_report/delete_wires_parallel_processor.py:196-213 | Equal throughput for 4 and 8 workers picks 4. |
| DeleteProcessor.Tally | redirects_report/delete_redirects_parallel_processor.py:82-89 | `deleted` increments the deleted counter, `failed`/`error` the failed counter, and any other status neither. |
| DeleteProcessor.Gather | redirects_report/delete_redirects_parallel_processor.py:79-99 | Gathering keeps the total and API-call counters and yields at most one result per unit. |
| DeleteProcessor.GatherCounts | redirects_report/delete_redirects_parallel_processor.py:82-99 | The counters equal the number of gathered results with each status, raised units counted as failed. |
| DeleteProcessor.GatherShape | wires_report/delete_wires_parallel_processor.py:77-98 | One result per unit that did not return `None`; a raised unit yields its error record; a returned record is kept. |
| DeleteProcessor.ProcessItems | redirects_report/delete_redirects_parallel_processor.py:63-77 | A zero chunk size, and only that, raises `ValueError` (`range() arg 3 must not be zero`) before any unit runs. Otherwise the total becomes the item count, API calls are untouched, and there are at most as many results as items; a negative size gathers nothing. |
| DeleteProcessor.ProcessItemsContract | wires_report/delete_wires_parallel_processor.py:63-99 | Results number the items minus the `None` returns, the counters match the result statuses, and every raise is an error record. |
| DeleteProcessor.GatherIsFlatMap | wires_report/delete_wires_parallel_processor.py:80-98 | Each completed unit contributes on its own: the results are the units' contributions one after the other, and each counter grows by the number of units that move it. |
| DeleteProcessor.GatherPermutation | wires_report/delete_wires_parallel_processor.py:80-98 | Two completion orders of the same units, as `as_completed` may hand them back, give the same counters and the same multiset of results. |
| DeleteProcessor.ProcessItemsAnyOrder | redirects_report/delete_redirects_parallel_processor.py:63-99 | Gathering the run's units in any completion order gives the counters of `ProcessItems` and the same multiset of results. |
| DeleteProcessor.CountsBounded | redirects_report/delete_redirects_parallel_processor.py:82-89 | No result is counted both as deleted and failed. |
| DeleteProcessor.SuccessRate | redirects_report/delete_redirects_parallel_processor.py:115-123 | 0 when nothing was processed; otherwise between 0 and 100, and 100 when everything was deleted. |
| DeleteProcessor.FreshRunRateBounded | wires_report/delete_wires_parallel_processor.py:114-122 | After a run on a fresh processor, deleted plus failed is at most the total and the rate is within 0 to 100. |
| DeleteProcessor.Benchmark | redirects_report/delete_redirects_parallel_processor.py:144-154 | A benchmark resets the counters first, so its outcome, including the zero-size `ValueError`, is that of a fresh processor. |
| DeleteProcessor.BenchmarkForgetsHistory | redirects_report/delete_redirects_parallel_processor.py:144-154 | Two processors with different histories benchmark the same items to the same counters. |
| DeleteProcessor.RedirectErrorRecord | redirects_report/delete_redirects_parallel_processor.py:90-99 | The error record holds `redirect_url`, `redirect_website`, `status: error` and `error`. |
| DeleteProcessor.StoryErrorRecord | wires_report/delete_wires_parallel_processor.py:90-98 | The error record holds `arc_id`, `status: error` and `error`. |
| DeleteProcessor.StatsDict | redirects_report/delete_redirects_parallel_processor.py:115-123 | The statistics handed back carry the four counters under the processor's key names. |
| DeleteProcessor.GatherAllRaised | wires_report/delete_wires_parallel_processor.py:80-98 | Units that all raised: each yields its error record in completion order, and each adds one to the failed count. |
| DeleteProcessor.GatherAllDeleted | wires_report/delete_wires_parallel_processor.py:80-88 | Units that all returned a `deleted` record: every record is kept in completion order and each adds one to the deleted count. |
| DeleteProcessor.EveryItemDeleted | wires_report/delete_wires_parallel_processor.py:63-112 | With every unit returning a `deleted` record, a fresh processor gathering in submission order returns one record per item in item order, for any positive chunk size, and counts total = deleted = items, failed = 0. |
| DeleteProcessor.GatherRecords | wires_report/delete_wires_parallel_processor.py:80-88 | Units that each returned their item's `deleted` record gather, in submission order, to those records, with total = deleted = items and failed = 0. |
| DeleteProcessor.EveryItemDeletedAnyOrder | wires_report/delete_wires_parallel_processor.py:63-98 | The same run in any completion order: the results are each item's record once, as a multiset, with total = deleted = items and failed = 0. |
| DeleteRedirects.DeleteSingleRedirectContract | redirects_report/delete_redirects.py:53-80 | A dry run sends nothing, counts a deletion and answers 200. A real call sends one `DELETE`, counts one API call when answered, and reports `deleted` exactly when the answer is ok. Each call moves exactly one counter, and an exception gives the `redirect_website` error record. |
| DeleteRedirects.DeleteSingleRedirect | redirects_report/delete_redirects.py:53-80 | A dry run sends nothing; a real call sends exactly the one `DELETE` of the redirect. With the counters in place it never raises. The counters and records are stated by `DeleteSingleRedirectContract`. |
| DeleteRedirects.DeleteRedirectsRun | redirects_report/delete_redirects.py:108-162 | Nothing happens exactly when there is no CSV and the URL or the website is missing. The path-not-a-file outcome happens exactly when a CSV path is given and is not a file. With readable two-column rows the run crashes exactly when the batch size is 0. The counters are stated by `CsvRunCounters` and `SingleItemPath`. |
| DeleteRedirects.DeleteRedirectsParallel | redirects_report/delete_redirects.py:82-105 | A zero batch size, and only that, lets the processor's `ValueError` escape. Otherwise the processor's counters overwrite the script's: the total is the item count and `api_calls` reads 0. |
| DeleteRedirects.CsvRunCounters | redirects_report/delete_redirects.py:113-128 | A CSV run processes the rows' `(row[0], row[1])` pairs; the total is the row count, `api_calls` is overwritten to 0, and `redirects_deleted` counts the `deleted` results. |
| DeleteRedirects.ShortRowCrashes | redirects_report/delete_redirects.py:120-121 | A row with fewer than two columns aborts the run with `IndexError` (`list index out of range`), whatever the batch size. |
| DeleteRedirects.ZeroBatchCrashes | redirects_report/delete_redirects_parallel_processor.py:65-68 | A CSV run of well-formed rows with batch size 0 ends in `ValueError` (`range() arg 3 must not be zero`). |
| DeleteRedirects.NoInputDoesNothing | redirects_report/delete_redirects.py:145-161 | Without a CSV, and without either the URL or the website, nothing is processed, whatever the batch size. |
| DeleteRedirects.SingleItemPath | redirects_report/delete_redirects.py:145-148 | A URL and a website give exactly one result and a total of 1, with at most one request, whatever the batch size. |
| DeleteRedirects.Summarize | redirects_report/delete_redirects.py:131-141 | Successful counts the `deleted` results and failed the rest; the rate is within 0 to 100 and is 0 without results. |
| DeleteWires.DeleteSingleStory | wires_report/delete_wires.py:52-91 | A dry run answers `deleted`/200; a real call sends at least one request. |
| DeleteWires.AsWrittenDeletionRaises | wires_report/delete_wires.py:44-91 | On a fresh instance a real deletion raises `KeyError('stories_failed')` even when both `DELETE`s succeed, after both were sent and three API calls counted. |
| DeleteWires.AsWrittenCallRaises | wires_report/delete_wires.py:52-91 | On counters without `stories_deleted` and `stories_failed`, a real call raises `KeyError('stories_failed')` whatever the server answers. It adds no counter. |
| DeleteWires.AsWrittenUnitsRaise | wires_report/delete_wires.py:104-110 | Handed to the processor, every real call of the script raises `KeyError('stories_failed')`. |
| DeleteWires.AsWrittenRunReportsErrors | wires_report/delete_wires.py:93-116 | Through the processor, gathering in submission order, that raise turns every story of a real run into an error record whose `error` is `'stories_failed'`, in item order. The counters read failed = total = stories and deleted = 0. |
| DeleteWires.AsWrittenRunReportsErrorsAnyOrder | wires_report/delete_wires_parallel_processor.py:80-98 | The same run in any completion order: one `'stories_failed'` error record per story as a multiset, failed = total = stories, deleted = 0. |
| DeleteWires.DeleteSingleStoryCorrected | wires_report/delete_wires.py:52-91 | With the script's own counter names: a dry run answers `deleted`/200, and a real call sends at least one request. |
| DeleteWires.DeleteSingleStoryCorrectedContract | wires_report/delete_wires.py:59-91 | The unpublish `DELETE` comes first, and the story `DELETE` follows exactly when it was answered. The outcome depends only on the second answer. Three API calls are counted when both were answered, and exactly one counter moves. |
| DeleteWires.DeleteStoriesParallel | wires_report/delete_wires.py:93-116 | A zero batch size, and only that, lets the processor's `ValueError` escape. Otherwise, with the script's call or the corrected one, the processor's counters overwrite the script's: the total is the story count and `api_calls` reads 0. |
| DeleteWires.CsvRunCounters | wires_report/delete_wires.py:123-137 | With either call, a CSV run processes `row[0]` of each row. The total is the row count, `api_calls` is overwritten to 0, and `stories_deleted` counts the `deleted` results. |
| DeleteWires.AsWrittenCsvRunFails | wires_report/delete_wires.py:123-137 | The script's real CSV run on a new instance gives, gathering in submission order, one error record per row, in row order, whose `error` is `'stories_failed'`. It ends with no deletion and one failure per row. |
| DeleteWires.EmptyRowCrashes | wires_report/delete_wires.py:129-130 | An empty row aborts the run with `IndexError` (`list index out of range`), whatever the batch size. |
| DeleteWires.ZeroBatchCrashes | wires_report/delete_wires_parallel_processor.py:65-68 | A CSV run with batch size 0, with either call, ends in `ValueError` (`range() arg 3 must not be zero`). |
| DeleteWires.SingleStoryDryRun | wires_report/delete_wires.py:54-57 | A dry run of the single-story path reports the story deleted with 200, counts it in `wires_deleted`, sets the total to 1 and sends nothing. |
| DeleteWires.DeleteStoryWith | wires_report/delete_wires.py:52-91 | A dry run sends nothing. A real call sends the unpublish `DELETE`, then the story `DELETE` unless the first one failed. With both counters it uses in place it never raises. The counters are stated by `DeleteSingleStoryCorrectedContract`. |
| DeleteWires.DeleteStoriesRun | wires_report/delete_wires.py:119-171 | Nothing happens exactly when there is neither a CSV nor an `arc_id`. The path-not-a-file outcome happens exactly when a CSV path is given and is not a file. With non-empty rows the run crashes exactly when the batch size is 0. The counters are stated by `CsvRunCounters` and the single-story lemmas. |
| DeleteWires.SingleStoryRealRunCrashes | wires_report/delete_wires.py:154-157 | The script's real single-story run on a new instance ends with the call's `KeyError('stories_failed')` escaping, whatever the server answers. |
| DeleteWires.SingleStoryPathCorrected | wires_report/delete_wires.py:154-157 | With the corrected call, an id gives exactly one result and a total of 1, with at most two requests. |
| DeletePhotos.Recover | images_report/delete_or_expire_photos.py:83-87 | The `except` branch counts one failure and returns the error record. |
| DeletePhotos.ExpiredBody | images_report/delete_or_expire_photos.py:107-110 | The body can be expired exactly when it is an object whose `additional_properties`, if present, is an object. |
| DeletePhotos.ExpiredBodyChangesOnlyExpiry | images_report/delete_or_expire_photos.py:107-110 | Only `additional_properties.expiration_date` and `published` change, and only when that key exists. Every other field is kept. |
| DeletePhotos.ExpiredBodyIdempotent | images_report/delete_or_expire_photos.py:107-110 | Expiring an expired body changes nothing more. |
| DeletePhotos.ExpireAfterGet | images_report/delete_or_expire_photos.py:96-137 | After the `GET`, a `PUT` is sent exactly when the `GET` succeeded with an expirable body, and `expired` is reported exactly when that `PUT` succeeded. |
| DeletePhotos.ExpireCounted | images_report/delete_or_expire_photos.py:102-137 | The same once the `GET` was counted: a record, counted once, never as deleted. |
| DeletePhotos.ExpireAfterPut | images_report/delete_or_expire_photos.py:114-131 | The `PUT` answer alone decides between `expired` and `failed`. |
| DeletePhotos.DeleteSinglePhotoContract | images_report/delete_or_expire_photos.py:60-87 | A dry run sends nothing and reports `deleted`. A real call sends one `DELETE`, counts an API call when answered, and reports `deleted` exactly when the answer is ok. The record is counted once under its status. |
| DeletePhotos.DeleteSinglePhoto | images_report/delete_or_expire_photos.py:60-87 | A dry run sends nothing; a real call sends exactly the photo's `DELETE`. With the counters in place it never raises. See `DeleteSinglePhotoContract`. |
| DeletePhotos.ExpireSinglePhotoContract | images_report/delete_or_expire_photos.py:89-137 | A dry run sends nothing, counts no API call and reports `expired`. A real call sends the `GET`, then a `PUT` of the expired body exactly when allowed. It reports `expired` exactly when the `PUT` succeeded. It counts one API call for an answered `GET` and one more for an answered `PUT`. |
| DeletePhotos.ProcessPhotoContract | images_report/delete_or_expire_photos.py:139-144 | Delete or expire: a record counted once, never raising, with the total and skipped counts untouched. |
| DeletePhotos.ExpireSinglePhoto | images_report/delete_or_expire_photos.py:89-137 | A dry run sends nothing. A real call sends the `GET` first and at most one more request, and nothing after the `GET` when its answer cannot be expired. With the counters in place it never raises. See `ExpireSinglePhotoContract`. |
| DeletePhotos.ProcessPhoto | images_report/delete_or_expire_photos.py:139-144 | A dry run sends nothing. A real run only appends one or two requests, and exactly the `DELETE` for a hard delete. With the counters in place it never raises. |
| DeletePhotos.DeleteArcIds | images_report/delete_or_expire_photos.py:174-227 | Nothing happens exactly when neither a CSV nor an image id is given. The path-not-a-file outcome happens exactly when a CSV path is given and is not a file. With non-empty rows the run crashes exactly when the batch size is 0. See `DeleteArcIdsCsv`, `DeleteArcIdsSinglePhoto` and `CsvRun`. |
| DeletePhotos.RunTally | images_report/delete_or_expire_photos.py:207-211 | Over many photos every unit returns a record, and the deleted, expired and failed counts grow by exactly the number of photos. |
| DeletePhotos.Basename | images_report/delete_or_expire_photos.py:151-153 | The base name is what follows the last `/`. |
| DeletePhotos.AnsIds | images_report/delete_or_expire_photos.py:158-166 | Every preserved id comes from some row's `ans_id`, and when all rows have one, all are read. |
| DeletePhotos.PreservedIds | images_report/delete_or_expire_photos.py:146-171 | A file name without the `photo_ids_to_delete_` marker gives no preserved ids, and so does a missing or unreadable preserved file. Every preserved id is some row's `ans_id` in the file at the replaced path. When the marker is present and every row has `ans_id`, all of them are preserved. |
| DeletePhotos.PreservedPathExample | images_report/delete_or_expire_photos.py:155-156 | The preserved file of `photo_ids_to_delete_1-2.csv` is `preserved_photo_ids_1-2.csv`. |
| DeletePhotos.Unpreserved | images_report/delete_or_expire_photos.py:186 | An id is kept exactly when it is in the input and not preserved. Every occurrence of an unpreserved id is kept, and every occurrence of a preserved one dropped. |
| DeletePhotos.UnpreservedInOrder | images_report/delete_or_expire_photos.py:186 | The kept ids are a subsequence of the input: their order is the file's. |
| DeletePhotos.UnpreservedNone | images_report/delete_or_expire_photos.py:186 | With nothing preserved the list is kept as it is. |
| DeletePhotos.CsvRun | images_report/delete_or_expire_photos.py:179-211 | The run crashes exactly when the batch size is 0, with `range() arg 3 must not be zero`. With a positive size, skipped is the input length minus the kept length, the total is the kept length, and there is one record per kept photo, each counted once. |
| DeletePhotos.RunKept | images_report/delete_or_expire_photos.py:190-211 | The processor's `range` raises exactly when the batch size is 0. With a positive size, the skipped count and the total are recorded as given, and the run yields one record per id and counts each photo once as deleted, expired or failed. |
| DeletePhotos.DeleteArcIdsCsv | images_report/delete_or_expire_photos.py:176-219 | A CSV path that is not a file processes nothing. An empty row raises `IndexError` (`list index out of range`), whatever the batch size. Otherwise the first column of every row goes through the CSV run. |
| DeletePhotos.ZeroBatchCrashes | images_report/parallel_processor.py:45-49 | A CSV run of non-empty rows with batch size 0 ends in `ValueError` (`range() arg 3 must not be zero`), whatever is preserved. |
| DeletePhotos.DeleteArcIdsSinglePhoto | images_report/delete_or_expire_photos.py:220-225 | With no CSV and an image id, the total is 1 and that photo alone is processed. Its one record is the result, counted once, with the skipped count untouched. |
| DeletePhotos.DeleteArcIdsNoInput | images_report/delete_or_expire_photos.py:226-227 | With neither a CSV nor an image id, nothing is processed. |
| DeletePhotos.Summarize | images_report/delete_or_expire_photos.py:213-215 | Successful plus failed results never exceed the results. |
| SearchPaging.MapRows | wires_report/parallel_processor.py:93-103 | Rows map in order, one record per row, and the first row that raises ends the page with the earlier records kept. |
| SearchPaging.MapRowsAll | wires_report/parallel_processor.py:93-103 | The whole page maps exactly when every row does. |
| SearchPaging.CountReached | wires_report/parallel_processor.py:108 | `from >= data.get("count", 0)`: a missing count reads as 0 and a non-numeric one raises. |
| SearchPaging.PageOf | wires_report/parallel_processor.py:67-113 | A page continues only below the 10,000 window, and a failed request ends the loop with nothing from it. |
| SearchPaging.PageContinues | wires_report/parallel_processor.py:105-109 | A full, mapped page below both the hit count and the window asks for the next one. |
| SearchPaging.FetchFrom | wires_report/parallel_processor.py:53-113 | Offsets step by 100; every page but the last continues and the last stops. |
| SearchPaging.FetchFromItems | wires_report/parallel_processor.py:93-103 | The records are those of the requested pages, concatenated in page order. |
| SearchPaging.FetchWithinWindow | redirects_report/identify_redirects_parallel_processor.py:51-96 | No request asks for offset 10,000 or more, so there are at most 100 requests. |
| SearchPaging.FirstPageStops | wires_report/parallel_processor.py:88-89 | A first page that stops the loop is the only request. |
| WiresFetch.NewProcessor | wires_report/parallel_processor.py:20-31 | `sandbox.` outside production, and no extra fields when none are given. |
| WiresFetch.ExtraFields | wires_report/parallel_processor.py:56-65 | The non-empty extras that are not defaults, with duplicates among them kept; no default or empty field. |
| WiresFetch.ExtraFieldsAppend | wires_report/parallel_processor.py:65 | The filter keeps order across concatenation. |
| WiresFetch.AllFields | wires_report/parallel_processor.py:56-66 | The five defaults in their order, then the extras. |
| WiresFetch.Nested | wires_report/parallel_processor.py:96-98 | `row.get(k, {}).get(f, "")` raises exactly when the nested value is not an object. |
| WiresFetch.WireRecord | wires_report/parallel_processor.py:93-103 | A row maps exactly when it is readable. The record has the seven columns, with id, dates and nested fields copied and the processor's website and environment. |
| WiresFetch.FetchWiresForRangeContract | wires_report/parallel_processor.py:37-117 | At most 100 requests at offsets 0, 100, … below 10,000; the records are the pages' in order, each stamped with website and environment. |
| WiresFetch.ProcessRangesParallelContents | wires_report/parallel_processor.py:119-154 | A record is in the result exactly when some range fetched it; any completion order gives the same multiset. |
| WiresFetch.ExportFilename | wires_report/parallel_processor.py:173-187 | `""` exactly for no data. Otherwise the file name of the returned path: with filters it is `{s}_{e}_{scrubbed q}_{website}.csv`; otherwise the shared output-filename rule applies. |
| WiresFetch.ExportFilenameIgnoresPrefix | wires_report/parallel_processor.py:178-182 | With filters the prefix is ignored, and filters differing only in non-alphanumerics name the same file. |
| RedirectsFetch.NewProcessor | redirects_report/identify_redirects_parallel_processor.py:20-30 | `sandbox.` outside production. |
| RedirectsFetch.RangeRequest | redirects_report/identify_redirects_parallel_processor.py:49-60 | No field list; the offset and website as given. |
| RedirectsFetch.RedirectRecord | redirects_report/identify_redirects_parallel_processor.py:76-86 | A row maps exactly when it has `_id` and `created_date`. Missing URLs become `""`, the status column starts empty, and website and environment come from the processor. |
| RedirectsFetch.FetchRedirectsForRangeContract | redirects_report/identify_redirects_parallel_processor.py:36-100 | At most 100 requests at offsets 0, 100, … below 10,000; the rows are the pages' in order, all unchecked. |
| RedirectsFetch.ProcessRangesParallelContents | redirects_report/identify_redirects_parallel_processor.py:102-136 | A row is in the result exactly when some range fetched it, every row is unchecked, and any completion order gives the same multiset. |
| RedirectsFetch.ExportFilename | redirects_report/identify_redirects_parallel_processor.py:138-161 | `""` for no data, otherwise the file name of the returned path, by the shared output-filename rule. |
| StatusChecker.NormalizeDomain | redirects_report/status_checker.py:17 | The stored domain is a prefix of the given one with no trailing `/`. |
| StatusChecker.FullUrl | redirects_report/status_checker.py:46 | A URL starting with `http` is used as is; anything else is appended to the domain. |
| StatusChecker.CheckSingleStatus | redirects_report/status_checker.py:36-59 | The result is keyed by the URL as given, and without a session it is `error`. |
| StatusChecker.Task | redirects_report/status_checker.py:76-82 | A task succeeds exactly for a string URL, and then pairs it with its own status. |
| StatusChecker.CheckUrlsBatch | redirects_report/status_checker.py:61-95 | One pair per URL, in order, with a raised task giving `("unknown", "error")`. |
| StatusChecker.CheckUrlsBatchAppend | redirects_report/status_checker.py:61-95 | A batch of a concatenation is the concatenation of the batches. |
| StatusChecker.CheckBatchesFlat | redirects_report/status_checker.py:113-123 | Batching does not change the results. |
| StatusChecker.Dedup | redirects_report/status_checker.py:111 | `dict.fromkeys` keeps the same elements, without repetition, never more. |
| StatusChecker.DedupDistinct | redirects_report/status_checker.py:111 | A list without repetitions is its own de-duplication. |
| StatusChecker.DedupFirstSeen | redirects_report/status_checker.py:111 | `dict.fromkeys` keeps first-seen order: in the result, an earlier element first occurs earlier in the input. |
| StatusChecker.DedupIdempotent | redirects_report/status_checker.py:111 | De-duplicating twice changes nothing. |
| StatusChecker.ToDict | redirects_report/status_checker.py:126 | `dict(pairs)` has exactly the keys of the pairs. |
| StatusChecker.ToDictLast | redirects_report/status_checker.py:126 | A key's value is that of its last pair. |
| StatusChecker.CheckAllUrls | redirects_report/status_checker.py:97-133 | The result is an error exactly when some URL is unhashable (`TypeError`, checked first) or the batch size is 0 (`ValueError` from `chunk_list`). |
| StatusChecker.CheckAllUrlsUnbatched | redirects_report/status_checker.py:110-126 | The statuses are the dictionary of one batch over the distinct URLs. |
| StatusChecker.CheckAllUrlsStrings | redirects_report/status_checker.py:97-133 | With string URLs, each URL gets exactly one entry: the status of its own request. |
| StatusChecker.NonStringUrlIsUnknownError | redirects_report/status_checker.py:85-90 | A non-string URL is reported as `unknown`/`error`. |
| StatusChecker.StatusText | redirects_report/status_checker.py:152-155 | `str(status)`: a code's decimal digits, `timeout`, `error`, or `""` when the URL was not checked. |
| StatusChecker.UpdateWithStatuses | redirects_report/status_checker.py:136-159 | Same length and order; each row is a copy with only `check_404_or_200` set; an unhashable URL raises. |
| StatusChecker.UrlsToCheck | redirects_report/status_checker.py:175 | Exactly the truthy `canonical_url` values of the rows. |
| StatusChecker.CheckRedirectStatuses | redirects_report/status_checker.py:175-180 | With no URL to check, the rows come back unchanged. |
| StatusChecker.CheckRedirectStatusesRows | redirects_report/status_checker.py:161-203 | Each row gets the status of the request for its own URL, resolved against the normalised domain, or `""` without a URL; nothing else changes. |
| PhotoQuery.PhotoParams | images_report/published_photo_analysis.py:128-173 | Always `published=true` first. `sourceType=wires` exactly for the wires listing; the upload dates exactly when both are positive; `source` exactly when given and the wires listing is off. |
| PhotoQuery.PhotoUrl | images_report/published_photo_analysis.py:128-173 | The URL is the photo search endpoint followed by `?` and a non-empty query. Which parameters the query holds is stated by `PhotoParams`. |
| PhotoQuery.PhotoParamsScenarios | tests/test_image_report_optional_dates.py:29-58 | The parameter lists of the documented option combinations. |
| PhotoQuery.PhotoIds | images_report/published_photo_analysis.py:207 | `[*]._id` gives nothing for a non-list and never `null`. |
| PhotoQuery.IdsOf | images_report/published_photo_analysis.py:207 | An id is projected exactly when some object element has it non-null. |
| PhotoQuery.ListFrom | images_report/published_photo_analysis.py:181-232 | Offsets step by 100 from the start offset, with at most 1001 requests. |
| PhotoQuery.ListFromStep | images_report/published_photo_analysis.py:202-224 | A non-empty ok page short of the reported total, below the page cap, puts its ids ahead of the listing from the next offset, 100 further on. |
| PhotoQuery.ListFromStop | images_report/published_photo_analysis.py:202-228 | A page that fails, is empty, reaches the reported total or hits the page cap is the last one requested; unless something raised, its ids are all the listing holds from it. |
| PhotoQuery.ListFromIds | images_report/published_photo_analysis.py:202-224 | A listing that ends normally is the pages' ids in order, and every page but the last was non-empty. |
| PhotoQuery.ListFromStartBounded | images_report/published_photo_analysis.py:184-228 | From the first page there are at most 1001 requests, 100 apart. |
| PhotoQuery.QueryPhotos | images_report/published_photo_analysis.py:176-232 | The candidates are the listing's ids with one API call per request; an escaped error aborts. |
| PhotoQuery.QuerySinglePhoto | images_report/published_photo_analysis.py:109-126 | An ok JSON answer gives the id as sole candidate; an error status gives none; an exception aborts. |
| PhotoQuery.ValidateArgs | images_report/published_photo_analysis.py:595-604 | Refused exactly for a source id together with the wires listing, or one date without the other and without an image id. |
| PhotoQuery.MainSettings | images_report/published_photo_analysis.py:614-627 | Dates become milliseconds only when both are given, else 0; the sandbox prefixes the organisation. |
| PhotoQuery.ValidateArgsCases | tests/test_image_report_optional_dates.py:102-163 | The valid combinations of the option tests pass. |
| PhotoQuery.ValidateArgsRefusals | tests/test_image_report_optional_dates.py:102-163 | A lone date, or a source id with the wires listing, is refused. |
| PhotoAnalysis.RemoveFirst | images_report/published_photo_analysis.py:351 | `list.remove` drops the first occurrence and only it. |
| PhotoAnalysis.Probe | images_report/published_photo_analysis.py:251-321 | A check hands back the photo with its location exactly when it found it. |
| PhotoAnalysis.Hits | images_report/published_photo_analysis.py:338-350 | Every hit is a photo the check found, with what it reported. |
| PhotoAnalysis.StageGathersHits | images_report/published_photo_analysis.py:331-346 | A stage's pool gathers exactly the hits. |
| PhotoAnalysis.HitsCount | images_report/published_photo_analysis.py:338-350 | A check finds every occurrence of a photo it finds at all, and no other. |
| PhotoAnalysis.Step | images_report/published_photo_analysis.py:350-358 | A hit still listed is removed once, becomes a preserved row with the source id, and counts; otherwise nothing changes. |
| PhotoAnalysis.Absorb | images_report/published_photo_analysis.py:349-358 | Lengths are conserved, rows are only appended, and the counter grows by the rows added. |
| PhotoAnalysis.AbsorbConserves | images_report/published_photo_analysis.py:349-358 | Photos move from the list to the preserved rows, none lost or invented. |
| PhotoAnalysis.AbsorbCount | images_report/published_photo_analysis.py:349-358 | A photo's occurrences fall by how often it was found, never below zero. |
| PhotoAnalysis.AbsorbRows | images_report/published_photo_analysis.py:352-357 | Each added row carries the source id and what a hit reported. |
| PhotoAnalysis.RunStage | images_report/published_photo_analysis.py:331-360 | A stage conserves lengths and counts exactly the rows it adds. |
| PhotoAnalysis.StageCount | images_report/published_photo_analysis.py:331-360 | After a stage, a photo the check finds is gone, and any other is left as often as before. |
| PhotoAnalysis.StageConserves | images_report/published_photo_analysis.py:331-360 | A stage moves photos from the list into the preserved rows. |
| PhotoAnalysis.StageRows | images_report/published_photo_analysis.py:350-358 | A row a stage adds names a photo its check found there. |
| PhotoAnalysis.NextStage | images_report/published_photo_analysis.py:362-363 | The later stages do nothing once the list is empty. |
| PhotoAnalysis.Analyze | images_report/published_photo_analysis.py:324-411 | Nothing for an empty list and an error for a zero batch size. Otherwise to-delete plus preserved equals the candidates, and the stage counters add up to the preserved count. |
| PhotoAnalysis.AnalyzeConserves | images_report/published_photo_analysis.py:349-409 | The to-delete list and the preserved rows split the candidates as a multiset. |
| PhotoAnalysis.AnalyzeDeletesExactlyUnused | images_report/published_photo_analysis.py:349-409 | A photo is to be deleted exactly when no check finds it, and then every occurrence is. |
| PhotoAnalysis.AnalyzePreservedRows | images_report/published_photo_analysis.py:349-406 | Preserved rows of each stage come from that stage's check and carry the source id. |
| PhotoAnalysis.OrgForFilename | images_report/published_photo_analysis.py:71 | An organisation without `sandbox.` is named as is. |
| PhotoAnalysis.OrgForFilenameSandbox | images_report/published_photo_analysis.py:71 | A sandbox organisation loses its leftmost `sandbox.`. The text before it is kept, and the rest is named the same way. |
| PhotoAnalysis.OrgForFilenameSandboxPrefix | images_report/published_photo_analysis.py:71 | `sandbox.` in front of a name without another one gives that name. |
| PhotoAnalysis.DateSuffix | images_report/published_photo_analysis.py:418-424 | Today's date for a single photo, `{start}-{end}.csv` when both dates filter, else `all_dates.csv`. |
| PhotoAnalysis.NameSuffix | images_report/published_photo_analysis.py:425-426 | `sandbox_` in front exactly for a sandbox organisation. |
| PhotoAnalysis.WriteFile | images_report/published_photo_analysis.py:432-463 | One branch writes preserved rows and the other ids. A header only goes into an empty preserved file. A file left empty is removed. |
| PhotoAnalysis.WriteCsvFilesAsWritten | images_report/published_photo_analysis.py:428-463 | Each file's branch is chosen by whether its path contains `preserved`. |
| PhotoAnalysis.WriteCsvFiles | images_report/published_photo_analysis.py:413-464 | The preserved report gets the preserved rows, the other the ids to delete, and each file with rows is kept. |
| PhotoAnalysis.AsWrittenPreservedOrgLosesDeletions | images_report/published_photo_analysis.py:428-456 | For an organisation named `preserved…`, the as-written writer writes the ids to delete nowhere; the corrected one writes them. |
| PhotoAnalysis.Candidates | images_report/published_photo_analysis.py:498-506 | The single photo when an id is given, else the listing of the built URL from the offset. |
| PhotoAnalysis.AsWrittenAgreesOtherwise | images_report/published_photo_analysis.py:413-464 | When the id file's path does not contain `preserved`, the script's writer writes what the corrected one writes. |
| PhotoAnalysis.WriteReports | images_report/published_photo_analysis.py:509 | Two files are written. They are the corrected files unless the script's writer meets an id-file path containing `preserved`. |
| PhotoAnalysis.Doit | images_report/published_photo_analysis.py:498-511 | A listing error aborts. The total is the candidate count, and to-delete plus preserved equals it. Files are written exactly when there were candidates. With the script's writer they are the corrected files unless the id file's path contains `preserved`. |
| WiresReport.NewReporter | wires_report/identify_wires.py:18-47 | No extra fields when none are given. |
| WiresReport.ProcessDateRanges | wires_report/identify_wires.py:61-75 | No ranges give no records. A record is returned exactly when some range fetched it, and it is stamped. Optimisation runs exactly when enabled with more than 3 ranges, on the first 3. |
| WiresReport.GenerateReport | wires_report/identify_wires.py:88-125 | Summary: total is the record count and ranges the range count. A file is named exactly when there are records. The additional query is the filters. A missing date gives nothing. |
| WiresReport.Cleaned | wires_report/identify_wires.py:161 | Only non-empty stripped pieces remain. |
| WiresReport.CleanedKeepsClean | wires_report/identify_wires.py:161 | Clean pieces pass through unchanged. |
| WiresReport.ParseExtraFields | wires_report/identify_wires.py:161 | `""` gives `[]`; every field is non-empty and stripped. |
| WiresReport.ParseExtraFieldsJoin | wires_report/identify_wires.py:161 | Parsing a comma-join gives the cleaned pieces. |
| WiresReport.ParseExtraFieldsRoundTrip | tests/test_wires_report_cli.py:181-211 | Clean field names survive joining and parsing back. |
| WiresReport.MainReporter | wires_report/identify_wires.py:161-174 | The extra fields are the parsed option. `--auto-optimize-workers` is never passed to the reporter, so optimisation is always on. |
| RedirectsReport.ProcessDateRanges | redirects_report/identify_redirects.py:67-81 | No ranges give no rows. A row is returned exactly when some range fetched it, and it is unchecked. Optimisation runs exactly when enabled with more than 3 ranges. |
| RedirectsReport.CheckStatuses | redirects_report/identify_redirects.py:84-95 | Rows are unchanged unless checking is requested and a domain is known, or when there is no URL to check. |
| RedirectsReport.CheckStatusesRows | redirects_report/identify_redirects.py:84-95 | When checked, every row carries the status of its own URL and nothing else changes. |
| RedirectsReport.GenerateReport | redirects_report/identify_redirects.py:108-147 | Summary: total is the row count and ranges the range count. A file is named exactly when there are rows. `status_checking_enabled` is the flag even when no domain skipped the check. Only a checker error fails. |
| RedirectsReport.ParseDo404Or200 | redirects_report/identify_redirects.py:164-165 | Only 0 and 1 are accepted, and 1 turns checking on. |
| RedirectsReport.MainReporter | redirects_report/identify_redirects.py:183-196 | The reporter gets the converted flag, the website domain and the auto-optimise flag as given. |

## Left out

- Remote calls are oracles. HTTP, retries, timeouts, the `ratelimit` decorators, `RateLimiter` and `time.sleep` are not modelled.
- Thread pools, the asyncio loop and its semaphore are not modelled. Units run in submission order. `FanOut.CollectPermutation`, `FanOut.FlatMapPermutation` and `DeleteProcessor.GatherPermutation` show that the gathered multisets, and the deletion counters, do not depend on completion order.
- Timing, `PerformanceBenchmark`, psutil and the items-per-second floats are left out. A benchmark is an abstract throughput `bench(workers, sample)`.
- Logging, `print`, CSV and pandas writing, directory creation and path joining are left out. A report file is modelled by what is appended to it and whether it is kept.
- `images_report/create_lightbox_cache.py` and the SQLite lookup behind the lightbox check are left out. That check is an oracle.
- The reference and fulltext checks are oracles, so their API calls and the `str(set(...))` website text are not modelled.
- Date parsing and formatting (`fromisoformat`, `strftime`, `strptime`, local time) is an oracle over integer-second instants.
- The reporters take the date builder as the oracle `build`. `DateRanges` models what the builder does.
- The reporters import processors from `.identify_wires_parallel_processor` and `.parallel_processor`, which are not part of this model. This model uses `wires_report/parallel_processor.py` and `redirects_report/identify_redirects_parallel_processor.py` in their place.
- `start_time`, `processing_time` and `format_duration` are left out of every statistics dictionary.
- Argparse mechanics and exit codes are left out. Only the checks and conversions `main` performs are modelled.
- Utils.ChunkList: a chunk size of 0, on which `range` raises, is excluded by its precondition rather than modelled as an error. Its callers model that case as the `ValueError`: `StatusChecker.CheckAllUrls`, `PhotoAnalysis.Analyze`, `DeleteProcessor.ProcessItems` and the three deletion runs.
- FanOut.ProcessParallel: like `ChunkList`, it requires a non-zero chunk size. Its callers, `DeletePhotos.RunKept` and `PhotoAnalysis.Analyze`, model the zero size as the `ValueError` first.
- DateRanges.TotalHits: the count reply is either `Answered(Option<int>)` or `RequestFailed`. So a `count` that is present but not an integer, or is `null`, cannot be represented; the script would raise `TypeError` at the `<=` (`daterange_builder.py:80`). Nor can a JSON body that is not an object, on which `.get` raises `AttributeError` (`daterange_builder.py:52`).
- StatusChecker.CheckRedirectStatusesRows: stated for rows whose URLs are all strings. Non-string URLs are covered by `NonStringUrlIsUnknownError` and `CheckAllUrls`.
- StatusChecker.CheckSingleStatus: the request itself, with its timeout and exception mapping, is the oracle `get`. Only the keying by the original URL and the missing-session error are stated.
- PhotoQuery.PhotoUrl: built from the parameter list rather than as the four template strings. The parameters appear in the templates' order, and the contracts are stated on `PhotoParams`.
- DeleteWires.DeleteSingleStory: as written, its contract states only the dry run and the request count; the raise is stated by `AsWrittenDeletionRaises`.
- DeletePhotos.Summarize: states only the bound, because a result can be neither successful nor failed.
- DateRanges.CreateDateRangesFromTuples: the builder of each tuple is the same `probe`. The per-call `DateRangeBuilder` construction is not modelled.
- DateRanges.SplitRange: bounds are naive whole-second instants. The script formats the midpoint without a UTC offset and without fractional seconds (`daterange_builder.py:92-95`). So with a bound ending in `Z` or carrying an offset, a second split subtracts a naive from an aware datetime and raises `TypeError`. The model has no such error, and it does not model fractional-second bounds.
- DateRanges.BuildOptimalRanges: inherits the `SplitRange` gap for timezone-aware and fractional-second bounds.
- DateRanges.CreateDateRangesFromTuples: `validate_date_range` catches only `ValueError` (`daterange_builder.py:124-131`). A tuple that mixes an aware and a naive bound raises `TypeError` at the comparison instead of being skipped. The `parse` oracle cannot produce that case, so it is not modelled.
- PhotoQuery.PhotoParams: the script splices the source id into the URL template with an f-string, then calls `.format` on the result (`images_report/published_photo_analysis.py:146`, `154`, `163-172`). A source id containing `{` or `}` is read as a format field: it raises, or it substitutes the organisation or a date. The model keeps the source id verbatim.
- DeleteProcessor.EveryItemDeleted: the per-index order holds for the model's submission-order schedule only. `as_completed` gives no order, and `EveryItemDeletedAnyOrder` states what holds for every order: the counters and the multiset of records.
- DeleteWires.AsWrittenRunReportsErrors: the per-index order holds for the model's submission-order schedule only. `AsWrittenRunReportsErrorsAnyOrder` states the counters and the multiset of error records for every completion order.
- DeleteWires.AsWrittenCsvRunFails: row order is the model's submission-order schedule. For any completion order, the counters and the multiset of error records are those of `AsWrittenRunReportsErrorsAnyOrder`.
- DeletePhotos.ExpireCounted: a `GET` body that is not JSON records the fixed text `JSONDecodeError`. The script records `str(e)`, the decoder's message with its position, which depends on the decoder and the body text, and neither is modelled.
- WiresFetch.ExportFilename: the script returns `os.path.join(output_dir, filename)`. The model returns the file name only, because path joining is left out.
- RedirectsFetch.ExportFilename: likewise, it returns the file name and leaves out the `output_dir` join.
- WiresReport.GenerateReport and RedirectsReport.GenerateReport: the export's `output_dir` join and the CSV contents are left out. Only the name is stated.

## Findings

| source | as written | input that shows it | evidently intended | confidence | as-written member | corrected member |
|---|---|---|---|---|---|---|
| wires_report/delete_wires.py:80-91 | A real deletion bumps `stories_deleted` or `stories_failed`. The instance only creates `wires_deleted` and `wires_failed`, so the bump raises `KeyError`, and so does the bump in the `except` branch. | A fresh instance, not a dry run, where both `DELETE`s answer 200 | Bump `wires_deleted` / `wires_failed`, return the `deleted` record | not executed | DeleteWires.AsWrittenDeletionRaises | DeleteWires.DeleteSingleStoryCorrectedContract |
| images_report/published_photo_analysis.py:430-456 | The branch is chosen by `"preserved" in file_name`, and the file name includes the organisation. For an organisation whose name contains `preserved`, the to-delete file takes the preserved branch. | Organisation `preservedmedia`, photos to delete, none preserved | The to-delete file always receives the ids to delete | not executed | PhotoAnalysis.AsWrittenPreservedOrgLosesDeletions | PhotoAnalysis.WriteCsvFiles |

=== FILE: daterange_builder.dfy ===
/**
 The date-range builder: a search window is halved recursively until every
 piece holds at most `MaxRecords` hits according to a count probe, or the
 recursion reaches `MaxRecursionDepth`.

 Instants are whole seconds. The count request to the search API is the
 oracle `probe`; its reply is read the way the builder reads it (a failed
 request or a missing `count` field is 0).
 */
module DateRanges {
  import opened Wrappers

  /** The search API will not page past this many hits. */
  const MaxRecords: int := 10000
  /** Recursion stops splitting at this depth. */
  const MaxRecursionDepth: nat := 10

  /** Seconds since the epoch. */
  type Instant = int

  /** A `(start_date, end_date)` pair. */
  datatype Range = Range(start: Instant, end: Instant)

  /** What the count request produced: a JSON body with or without `count`, or a request error. */
  datatype CountReply = Answered(count: Option<int>) | RequestFailed

  /** A piece of the final split together with the depth at which it was produced. */
  datatype Leaf = Leaf(range: Range, depth: nat)

  /** The pieces, left to right, and the ranges the probe was asked about, in call order. */
  datatype Split = Split(leaves: seq<Leaf>, probes: seq<Range>)

  /** `get_total_hits`: the reported count, 0 when the request failed or the field is missing. */
  function TotalHits(reply: CountReply): (n: int)
    ensures reply.Answered? && reply.count.Some? ==> n == reply.count.value
    ensures !(reply.Answered? && reply.count.Some?) ==> n == 0
  {
    match reply
    case RequestFailed => 0
    case Answered(c) => c.GetOr(0)
  }

  /**
   `start + (end - start) / 2` rendered with whole seconds: the half-second of an
   odd span is dropped, which is rounding toward minus infinity (Dafny's `/` by 2).
   */
  function Midpoint(r: Range): (m: Instant)
    ensures r.start <= r.end ==> r.start <= m <= r.end
    ensures r.start < r.end - 1 ==> r.start < m < r.end
    ensures 2 * (m - r.start) <= r.end - r.start < 2 * (m - r.start) + 2
  {
    r.start + (r.end - r.start) / 2
  }

  function Pow2(n: nat): (p: nat)
    ensures p >= 1
  {
    if n == 0 then 1 else 2 * Pow2(n - 1)
  }

  /** Most pieces a split started at `depth` can produce. */
  function LeafBudget(depth: nat): nat {
    if depth >= MaxRecursionDepth then 1 else Pow2(MaxRecursionDepth - depth)
  }

  function Ranges(leaves: seq<Leaf>): (rs: seq<Range>)
    ensures |rs| == |leaves|
    ensures forall k :: 0 <= k < |leaves| ==> rs[k] == leaves[k].range
  {
    seq(|leaves|, k requires 0 <= k < |leaves| => leaves[k].range)
  }

  lemma RangesAppend(a: seq<Leaf>, b: seq<Leaf>)
    ensures Ranges(a + b) == Ranges(a) + Ranges(b)
  {
  }

  lemma LeafBudgetHalves(depth: nat)
    requires depth < MaxRecursionDepth
    ensures LeafBudget(depth) == 2 * LeafBudget(depth + 1)
  {
  }

  /** Each piece ends where the next one starts. */
  predicate Contiguous(rs: seq<Range>) {
    forall i, j :: 0 <= i < |rs| && 0 <= j < |rs| && j == i + 1 ==> rs[i].end == rs[j].start
  }

  /** The pieces tile `r`: contiguous, starting at `r.start` and ending at `r.end`. */
  predicate Tiles(rs: seq<Range>, r: Range) {
    |rs| > 0 && rs[0].start == r.start && rs[|rs| - 1].end == r.end && Contiguous(rs)
  }

  /** Number of pieces produced below the maximum depth (each of them was probed). */
  function Shallow(leaves: seq<Leaf>): (n: nat)
    ensures n <= |leaves|
  {
    if |leaves| == 0 then 0
    else (if leaves[0].depth < MaxRecursionDepth then 1 else 0) + Shallow(leaves[1..])
  }

  lemma {:induction false} ShallowAppend(a: seq<Leaf>, b: seq<Leaf>)
    ensures Shallow(a + b) == Shallow(a) + Shallow(b)
    decreases |a|
  {
    if |a| == 0 {
      assert a + b == b;
    } else {
      assert (a + b)[0] == a[0];
      assert (a + b)[1..] == a[1..] + b;
      ShallowAppend(a[1..], b);
    }
  }

  /** Two tilings of adjacent ranges concatenate to a tiling of their union. */
  lemma TilesAppend(a: seq<Range>, b: seq<Range>, s: Instant, m: Instant, e: Instant)
    requires Tiles(a, Range(s, m)) && Tiles(b, Range(m, e))
    ensures Tiles(a + b, Range(s, e))
  {
    var c := a + b;
    forall i, j | 0 <= i < j < |c| && j == i + 1
      ensures c[i].end == c[j].start
    {
      if j < |a| {
        assert c[i] == a[i] && c[j] == a[j];
      } else if j == |a| {
        assert c[i] == a[|a| - 1] && c[j] == b[0];
      } else {
        assert c[i] == b[i - |a|] && c[j] == b[j - |a|];
      }
    }
  }

  /**
   `split_range(start, end, depth)`. At the depth limit the range is returned
   as it is without a probe; otherwise it is probed once, returned as it is
   when within the limit, and else split at the midpoint with both halves
   handled one level deeper, first half first.
   */
  function SplitRange(probe: Range -> CountReply, r: Range, depth: nat): (res: Split)
    ensures |res.leaves| > 0
    ensures depth >= MaxRecursionDepth ==> res.probes == []
  {
    SplitFrom(probe, Leaf(r, depth))
  }

  /**
   The recursion of `split_range` on the range and its depth packed as one
   value, so that a literal depth alone never unfolds the whole split tree
   in the verifier.
   */
  function SplitFrom(probe: Range -> CountReply, at: Leaf): (res: Split)
    ensures |res.leaves| > 0
    ensures at.depth >= MaxRecursionDepth ==> res.probes == []
    decreases MaxRecursionDepth - at.depth
  {
    var r := at.range;
    if at.depth >= MaxRecursionDepth then
      Split([at], [])
    else if TotalHits(probe(r)) <= MaxRecords then
      Split([at], [r])
    else
      var m := Midpoint(r);
      var first := SplitFrom(probe, Leaf(Range(r.start, m), at.depth + 1));
      var second := SplitFrom(probe, Leaf(Range(m, r.end), at.depth + 1));
      Split(first.leaves + second.leaves, [r] + first.probes + second.probes)
  }

  /** One level of an oversized split: the halves' pieces and probes, after the probe of `r`. */
  lemma SplitRangeUnfold(probe: Range -> CountReply, r: Range, depth: nat)
    requires depth < MaxRecursionDepth && TotalHits(probe(r)) > MaxRecords
    ensures SplitRange(probe, r, depth)
            == Split(SplitRange(probe, Range(r.start, Midpoint(r)), depth + 1).leaves
                     + SplitRange(probe, Range(Midpoint(r), r.end), depth + 1).leaves,
                     [r] + SplitRange(probe, Range(r.start, Midpoint(r)), depth + 1).probes
                     + SplitRange(probe, Range(Midpoint(r), r.end), depth + 1).probes)
  {
  }

  /** At the depth limit the range comes back whole, without a probe. */
  lemma SplitRangeAtLimit(probe: Range -> CountReply, r: Range, depth: nat)
    requires depth >= MaxRecursionDepth
    ensures SplitRange(probe, r, depth) == Split([Leaf(r, depth)], [])
  {
  }

  /**
   The pieces tile the range, there are at most `2^(10 - depth)` of them,
   and at the depth limit the range comes back whole without a probe.
   */
  lemma {:induction false} SplitRangeTiles(probe: Range -> CountReply, r: Range, depth: nat)
    ensures Tiles(Ranges(SplitRange(probe, r, depth).leaves), r)
    ensures |SplitRange(probe, r, depth).leaves| <= LeafBudget(depth)
    ensures depth >= MaxRecursionDepth ==> SplitRange(probe, r, depth) == Split([Leaf(r, depth)], [])
    decreases MaxRecursionDepth - depth
  {
    if depth < MaxRecursionDepth && TotalHits(probe(r)) > MaxRecords {
      var m := Midpoint(r);
      var first := SplitRange(probe, Range(r.start, m), depth + 1).leaves;
      var second := SplitRange(probe, Range(m, r.end), depth + 1).leaves;
      SplitRangeUnfold(probe, r, depth);
      SplitRangeTiles(probe, Range(r.start, m), depth + 1);
      SplitRangeTiles(probe, Range(m, r.end), depth + 1);
      RangesAppend(first, second);
      TilesAppend(Ranges(first), Ranges(second), r.start, m, r.end);
      LeafBudgetHalves(depth);
    }
  }

  /** Every piece produced below the depth limit was probed and found within `MaxRecords`. */
  predicate LeavesWithinLimit(probe: Range -> CountReply, leaves: seq<Leaf>, depth: nat) {
    forall k :: 0 <= k < |leaves| ==>
      depth <= leaves[k].depth
      && (leaves[k].depth < MaxRecursionDepth ==> TotalHits(probe(leaves[k].range)) <= MaxRecords)
  }

  /**
   Only pieces at the depth limit can be oversized; each piece of an ordered
   range is ordered.
   */
  lemma {:induction false} SplitRangeLeaves(probe: Range -> CountReply, r: Range, depth: nat)
    ensures var leaves := SplitRange(probe, r, depth).leaves;
            LeavesWithinLimit(probe, leaves, depth)
            && (r.start <= r.end ==> forall l :: l in leaves ==> l.range.start <= l.range.end)
    decreases MaxRecursionDepth - depth
  {
    var res := SplitRange(probe, r, depth);
    if depth >= MaxRecursionDepth {
      assert res.leaves == [Leaf(r, depth)];
    } else if TotalHits(probe(r)) <= MaxRecords {
      assert res.leaves == [Leaf(r, depth)];
    } else {
      var m := Midpoint(r);
      var first := SplitRange(probe, Range(r.start, m), depth + 1).leaves;
      var second := SplitRange(probe, Range(m, r.end), depth + 1).leaves;
      assert res.leaves == first + second;
      SplitRangeLeaves(probe, Range(r.start, m), depth + 1);
      SplitRangeLeaves(probe, Range(m, r.end), depth + 1);
      var leaves := first + second;
      forall k | 0 <= k < |leaves|
        ensures depth <= leaves[k].depth
        ensures leaves[k].depth < MaxRecursionDepth ==> TotalHits(probe(leaves[k].range)) <= MaxRecords
      {
        if k < |first| { assert leaves[k] == first[k]; } else { assert leaves[k] == second[k - |first|]; }
      }
    }
  }

  /**
   The probe is called once per inner node of the split tree and once per
   piece below the depth limit, starting with the whole range.
   */
  lemma {:induction false} SplitRangeProbes(probe: Range -> CountReply, r: Range, depth: nat)
    ensures var res := SplitRange(probe, r, depth);
            |res.probes| == |res.leaves| - 1 + Shallow(res.leaves)
            && (depth < MaxRecursionDepth ==> |res.probes| > 0 && res.probes[0] == r)
    decreases MaxRecursionDepth - depth
  {
    var res := SplitRange(probe, r, depth);
    if depth >= MaxRecursionDepth {
      assert res.leaves == [Leaf(r, depth)];
    } else if TotalHits(probe(r)) <= MaxRecords {
      assert res == Split([Leaf(r, depth)], [r]);
      assert Shallow(res.leaves) == 1;
    } else {
      var m := Midpoint(r);
      var first := SplitRange(probe, Range(r.start, m), depth + 1);
      var second := SplitRange(probe, Range(m, r.end), depth + 1);
      assert res == Split(first.leaves + second.leaves, [r] + first.probes + second.probes);
      SplitRangeProbes(probe, Range(r.start, m), depth + 1);
      SplitRangeProbes(probe, Range(m, r.end), depth + 1);
      ShallowAppend(first.leaves, second.leaves);
    }
  }

  /** `build_optimal_ranges`: the split from depth 0, without any check that start precedes end. */
  function BuildOptimalRanges(probe: Range -> CountReply, r: Range): (rs: seq<Range>)
    ensures Tiles(rs, r)
    ensures 1 <= |rs| <= Pow2(MaxRecursionDepth)
  {
    SplitRangeTiles(probe, r, 0);
    Ranges(SplitRange(probe, r, 0).leaves)
  }

  /** Below the depth limit, a failed count request reads as 0 hits and the range is kept whole after one probe. */
  lemma FailedProbeKeepsRange(probe: Range -> CountReply, r: Range, depth: nat)
    requires depth < MaxRecursionDepth
    requires probe(r) == RequestFailed
    ensures SplitRange(probe, r, depth) == Split([Leaf(r, depth)], [r])
  {
  }

  /** Below the depth limit, a range of at most `MaxRecords` hits is kept whole after one probe. */
  lemma WithinLimitKeepsRange(probe: Range -> CountReply, r: Range, depth: nat)
    requires depth < MaxRecursionDepth
    requires TotalHits(probe(r)) <= MaxRecords
    ensures SplitRange(probe, r, depth) == Split([Leaf(r, depth)], [r])
  {
  }

  /** An oversized range whose halves split into `n` pieces each, after `n - 1` probes each, splits into `2n` after `2n - 1`. */
  lemma OversizedStep(probe: Range -> CountReply, r: Range, depth: nat, n: nat)
    requires depth < MaxRecursionDepth && TotalHits(probe(r)) > MaxRecords
    requires |SplitRange(probe, Range(r.start, Midpoint(r)), depth + 1).leaves| == n
    requires |SplitRange(probe, Range(Midpoint(r), r.end), depth + 1).leaves| == n
    requires |SplitRange(probe, Range(r.start, Midpoint(r)), depth + 1).probes| == n - 1
    requires |SplitRange(probe, Range(Midpoint(r), r.end), depth + 1).probes| == n - 1
    ensures |SplitRange(probe, r, depth).leaves| == 2 * n
    ensures |SplitRange(probe, r, depth).probes| == 2 * n - 1
  {
    SplitRangeUnfold(probe, r, depth);
  }

  /**
   With a probe that always reports more than `MaxRecords`, the split is the
   full binary tree: exactly `2^(10 - depth)` pieces after `2^(10 - depth) - 1`
   probes.
   */
  lemma {:induction false} AlwaysOversizedIsFullTree(probe: Range -> CountReply, r: Range, depth: nat)
    requires depth <= MaxRecursionDepth
    requires forall q :: TotalHits(probe(q)) > MaxRecords
    ensures |SplitRange(probe, r, depth).leaves| == Pow2(MaxRecursionDepth - depth)
    ensures |SplitRange(probe, r, depth).probes| == Pow2(MaxRecursionDepth - depth) - 1
    decreases MaxRecursionDepth - depth
  {
    if depth < MaxRecursionDepth {
      var m := Midpoint(r);
      AlwaysOversizedIsFullTree(probe, Range(r.start, m), depth + 1);
      AlwaysOversizedIsFullTree(probe, Range(m, r.end), depth + 1);
      OversizedStep(probe, r, depth, Pow2(MaxRecursionDepth - (depth + 1)));
    } else {
      SplitRangeAtLimit(probe, r, depth);
    }
  }

  /**
   A 30-day window reported at 20000 hits whose halves report 8000 each
   becomes exactly two ranges, split at day 15, after three probes.
   */
  lemma TwoHalvesExample()
    ensures var probe := (q: Range) => if q == Range(0, 2592000) then Answered(Some(20000)) else Answered(Some(8000));
            var res := SplitRange(probe, Range(0, 2592000), 0);
            Ranges(res.leaves) == [Range(0, 1296000), Range(1296000, 2592000)] && |res.probes| == 3
  {
    var probe := (q: Range) => if q == Range(0, 2592000) then Answered(Some(20000)) else Answered(Some(8000));
    var first := SplitRange(probe, Range(0, 1296000), 1);
    var second := SplitRange(probe, Range(1296000, 2592000), 1);
    assert first == Split([Leaf(Range(0, 1296000), 1)], [Range(0, 1296000)]);
    assert second == Split([Leaf(Range(1296000, 2592000), 1)], [Range(1296000, 2592000)]);
  }

  /**
   `validate_date_range`: both strings parse (the oracle `parse` returns `None`
   where `datetime.fromisoformat` raises `ValueError`) and start precedes end.
   */
  predicate ValidDateRange(parse: string -> Option<Instant>, startDate: string, endDate: string) {
    parse(startDate).Some? && parse(endDate).Some? && parse(startDate).value < parse(endDate).value
  }

  /**
   `create_date_ranges_from_tuples`: invalid tuples are skipped and the splits
   of the valid ones are appended in input order.
   */
  function CreateDateRangesFromTuples(parse: string -> Option<Instant>, probe: Range -> CountReply,
                                      tuples: seq<(string, string)>): (rs: seq<Range>)
    ensures forall k :: 0 <= k < |rs| ==> rs[k].start <= rs[k].end
    decreases |tuples|
  {
    if |tuples| == 0 then []
    else
      var prefix := CreateDateRangesFromTuples(parse, probe, tuples[..|tuples| - 1]);
      var (s, e) := tuples[|tuples| - 1];
      if ValidDateRange(parse, s, e) then
        var r := Range(parse(s).value, parse(e).value);
        SplitRangeLeaves(probe, r, 0);
        var leaves := SplitRange(probe, r, 0).leaves;
        assert forall k :: 0 <= k < |leaves| ==> leaves[k] in leaves;
        prefix + BuildOptimalRanges(probe, r)
      else prefix
  }

  /** Processing two batches of tuples one after the other concatenates their ranges. */
  lemma {:induction false} CreateDateRangesAppend(parse: string -> Option<Instant>, probe: Range -> CountReply,
                                                  a: seq<(string, string)>, b: seq<(string, string)>)
    ensures CreateDateRangesFromTuples(parse, probe, a + b)
         == CreateDateRangesFromTuples(parse, probe, a) + CreateDateRangesFromTuples(parse, probe, b)
    decreases |b|
  {
    if |b| == 0 {
      assert a + b == a;
    } else {
      var b' := b[..|b| - 1];
      assert (a + b)[..|a + b| - 1] == a + b';
      assert (a + b)[|a + b| - 1] == b[|b| - 1];
      CreateDateRangesAppend(parse, probe, a, b');
    }
  }

  /** A single tuple contributes its split when valid and nothing otherwise. */
  lemma CreateDateRangesSingle(parse: string -> Option<Instant>, probe: Range -> CountReply, s: string, e: string)
    ensures ValidDateRange(parse, s, e) ==>
              CreateDateRangesFromTuples(parse, probe, [(s, e)]) == BuildOptimalRanges(probe, Range(parse(s).value, parse(e).value))
    ensures !ValidDateRange(parse, s, e) ==> CreateDateRangesFromTuples(parse, probe, [(s, e)]) == []
  {
    assert [(s, e)][..0] == [];
  }

  /** The result is empty exactly when no tuple is valid. */
  lemma {:induction false} CreateDateRangesEmptyIff(parse: string -> Option<Instant>, probe: Range -> CountReply,
                                                    tuples: seq<(string, string)>)
    ensures CreateDateRangesFromTuples(parse, probe, tuples) == []
        <==> forall k :: 0 <= k < |tuples| ==> !ValidDateRange(parse, tuples[k].0, tuples[k].1)
    decreases |tuples|
  {
    if |tuples| > 0 {
      var init := tuples[..|tuples| - 1];
      CreateDateRangesEmptyIff(parse, probe, init);
      assert forall k :: 0 <= k < |init| ==> init[k] == tuples[k];
    }
  }

  /**
   The reporters' `build_optimal_date_ranges`: no ranges unless both date
   strings are given, else what the builder returns for them (`build`, the
   bisection above applied to the parsed strings).
   */
  function ReporterRanges(build: (string, string) -> seq<(string, string)>, startDate: string, endDate: string)
    : (r: seq<(string, string)>)
    ensures startDate == "" || endDate == "" ==> r == []
    ensures startDate != "" && endDate != "" ==> r == build(startDate, endDate)
  {
    if startDate == "" || endDate == "" then [] else build(startDate, endDate)
  }
}

=== FILE: delete_photos.dfy ===
/**
 The photo deletion / expiration script. Each photo is either hard deleted
 (`DELETE`) or expired (`GET` the photo, set an expiration date in the past
 and unpublish it in its `additional_properties`, `PUT` it back). A CSV run
 first drops the ids listed in the matching "preserved" CSV, then runs the
 rest through the images processor, which keeps every non-`None` result and
 drops raising units.

 The HTTP client is the oracle `server`; the preserved CSV is read through
 the oracle `readPreserved`.
 */
module DeletePhotos {
  import opened Wrappers
  import opened Records
  import opened FanOut
  import opened Text
  import opened Sessions

  /** The counters a new script instance starts with (its `start_time` is left out). */
  const InitialStats: Stats := map[TotalPhotosProcessed := 0, PhotosDeleted := 0, PhotosExpired := 0,
                                   PhotosFailed := 0, PhotosSkipped := 0, ApiCalls := 0]

  /** The expiration date written into expired photos. */
  const Expiration := "2000-01-01T00:00:00Z"

  /** `PHOTO_API_URL.format(org, photo_id)`. */
  function PhotoUrl(org: string, photoId: string): string {
    "https://api." + org + ".arcpublishing.com/photo/api/v2/photos/" + photoId + "/"
  }

  /** The counters are present, as on a new instance. */
  predicate HasCounters(st: Stats) {
    TotalPhotosProcessed in st && PhotosDeleted in st && PhotosExpired in st && PhotosFailed in st && PhotosSkipped in st && ApiCalls in st
  }

  /** The record of a request that got an answer (or was simulated). */
  function Answered(photoId: string, status: string, code: int): (d: Dict)
    ensures Status(d) == Some(status)
  {
    map["photo_id" := Str(photoId), "status" := Str(status), "response" := Int(code)]
  }

  /** The record of a call that raised. */
  function Errored(photoId: string, message: string): (d: Dict)
    ensures Status(d) == Some("error")
  {
    map["photo_id" := Str(photoId), "status" := Str("error"), "error" := Str(message)]
  }

  /** The `except` branch of both calls: count a failure and return an error record. */
  function Recover(s: Session, photoId: string, message: string): (c: Call)
    ensures c.session.sent == s.sent
    ensures HasCounters(s.stats) ==>
              c == Call(Session(s.stats[PhotosFailed := s.stats[PhotosFailed] + 1], s.sent),
                        Returned(Some(Errored(photoId, message))))
  {
    match Bump(s.stats, PhotosFailed, 1)
    case None => Call(s, Raised(MissingKey(PhotosFailed)))
    case Some(st) => Call(Session(st, s.sent), Returned(Some(Errored(photoId, message))))
  }

  /** Bumps `key` and returns `record`, or recovers from the `KeyError`. */
  function Finish(s: Session, key: Counter, photoId: string, record: Dict): (c: Call)
    ensures c.session.sent == s.sent
    ensures HasCounters(s.stats) && key in s.stats ==>
              c == Call(Session(s.stats[key := s.stats[key] + 1], s.sent), Returned(Some(record)))
  {
    match Bump(s.stats, key, 1)
    case None => Recover(s, photoId, MissingKey(key))
    case Some(st) => Call(Session(st, s.sent), Returned(Some(record)))
  }

  /**
   `delete_single_photo`. A dry run counts a deletion and sends nothing;
   otherwise one `DELETE` is sent, counted as an API call when answered, and
   its status decides between `photos_deleted` and `photos_failed`.
   */
  function DeleteSinglePhoto(server: Request -> Reply, org: string, dryRun: bool, s: Session, photoId: string): (c: Call)
    ensures dryRun ==> c.session.sent == s.sent
    ensures !dryRun ==> c.session.sent == s.sent + [Request(DELETE, PhotoUrl(org, photoId), None)]
    ensures c.outcome.Raised? ==> !HasCounters(s.stats)
  {
    if dryRun then
      match Bump(s.stats, PhotosDeleted, 1)
      case None => Call(s, Raised(MissingKey(PhotosDeleted)))
      case Some(st) => Call(Session(st, s.sent), Returned(Some(Answered(photoId, "deleted", 200))))
    else
      var req := Request(DELETE, PhotoUrl(org, photoId), None);
      var s1 := Send(s, req);
      match server(req)
      case Exception(msg) => Recover(s1, photoId, msg)
      case Response(code, _) =>
        match Bump(s1.stats, ApiCalls, 1)
        case None => Recover(s1, photoId, MissingKey(ApiCalls))
        case Some(st) =>
          if IsOk(code) then Finish(Session(st, s1.sent), PhotosDeleted, photoId, Answered(photoId, "deleted", code))
          else Finish(Session(st, s1.sent), PhotosFailed, photoId, Answered(photoId, "failed", code))
  }

  /**
   The body `PUT` back by an expiration: `photo_ans.get("additional_properties", {})`
   raises on a body that is not an object; a missing key yields a detached
   `{}`, so the body goes back unchanged; an object value is updated in place
   with the expiration date and `published: false`; any other value rejects
   the item assignment.
   */
  function ExpiredBody(photo: Value): (r: Result<Value>)
    ensures r.Ok? <==> photo.Obj? && ("additional_properties" in photo.fields ==> photo.fields["additional_properties"].Obj?)
  {
    match photo
    case Obj(m) =>
      if "additional_properties" in m then
        match m["additional_properties"]
        case Obj(p) =>
          Ok(Obj(m["additional_properties" := Obj(p["expiration_date" := Str(Expiration)]["published" := Bool(false)])]))
        case Arr(_) => Err("list indices must be integers or slices, not str")
        case props => Err("'" + TypeName(props) + "' object does not support item assignment")
      else Ok(photo)
    case _ => Err("'" + TypeName(photo) + "' object has no attribute 'get'")
  }

  /**
   What expiring changes: only `additional_properties`, where only
   `expiration_date` and `published` are set; every other field and property
   is kept.
   */
  lemma ExpiredBodyChangesOnlyExpiry(photo: Value)
    requires ExpiredBody(photo).Ok?
    ensures var b := ExpiredBody(photo).value;
            b.Obj? && b.fields.Keys == photo.fields.Keys
            && (forall k :: k in photo.fields && k != "additional_properties" ==> b.fields[k] == photo.fields[k])
            && ("additional_properties" in photo.fields ==>
                  var p := photo.fields["additional_properties"].fields;
                  var q := b.fields["additional_properties"];
                  q.Obj? && q.fields.Keys == p.Keys + {"expiration_date", "published"}
                  && q.fields["expiration_date"] == Str(Expiration) && q.fields["published"] == Bool(false)
                  && (forall k :: k in p && k != "expiration_date" && k != "published" ==> q.fields[k] == p[k]))
  {
  }

  /** Expiring an expired body changes nothing more. */
  lemma ExpiredBodyIdempotent(photo: Value)
    requires ExpiredBody(photo).Ok?
    ensures ExpiredBody(ExpiredBody(photo).value) == ExpiredBody(photo)
  {
    var b := ExpiredBody(photo).value;
    if "additional_properties" in photo.fields {
      var p := photo.fields["additional_properties"].fields;
      var p1 := p["expiration_date" := Str(Expiration)]["published" := Bool(false)];
      assert p1["expiration_date" := Str(Expiration)]["published" := Bool(false)] == p1;
      assert b.fields["additional_properties" := Obj(p1)] == b.fields;
    }
  }

  /** The photo `GET` of an expiration. */
  function GetRequest(org: string, photoId: string): Request {
    Request(GET, PhotoUrl(org, photoId), None)
  }

  /** A `GET` answer that leads to a `PUT`: ok, JSON, and a body that can be expired. */
  predicate PutAllowed(reply: Reply) {
    reply.Response? && IsOk(reply.statusCode) && reply.json.Some? && ExpiredBody(reply.json.value).Ok?
  }

  /** The `PUT` of the expired body. */
  function PutRequest(org: string, photoId: string, reply: Reply): Request
    requires PutAllowed(reply)
  {
    Request(PUT, PhotoUrl(org, photoId), Some(ExpiredBody(reply.json.value).value))
  }

  /** The API calls an expiration counts once the `GET` got `reply`: one more when a `PUT` followed and was answered. */
  function PutCalls(server: Request -> Reply, org: string, photoId: string, reply: Reply): (n: nat)
    ensures n <= 1
    ensures n == 1 <==> PutAllowed(reply) && server(PutRequest(org, photoId, reply)).Response?
  {
    if PutAllowed(reply) && server(PutRequest(org, photoId, reply)).Response? then 1 else 0
  }

  /**
   `expire_single_photo`. A dry run counts an expiration and sends nothing.
   Otherwise the photo is fetched and `ExpireAfterGet` goes on from its answer.
   */
  function ExpireSinglePhoto(server: Request -> Reply, org: string, dryRun: bool, s: Session, photoId: string): (c: Call)
    ensures dryRun ==> c.session.sent == s.sent
    ensures var get := GetRequest(org, photoId);
            !dryRun ==> |s.sent| + 1 <= |c.session.sent| <= |s.sent| + 2 && c.session.sent[..|s.sent| + 1] == s.sent + [get]
    ensures var get := GetRequest(org, photoId);
            !dryRun && !PutAllowed(server(get)) ==> c.session.sent == s.sent + [get]
    ensures c.outcome.Raised? ==> !HasCounters(s.stats)
  {
    if dryRun then
      match Bump(s.stats, PhotosExpired, 1)
      case None => Call(s, Raised(MissingKey(PhotosExpired)))
      case Some(st) => Call(Session(st, s.sent), Returned(Some(Answered(photoId, "expired", 200))))
    else
      var get := GetRequest(org, photoId);
      ExpireAfterGet(server, org, photoId, server(get), Send(s, get))
  }

  /**
   A call that settled: it returned a record with a status, counted once
   under that status, never as deleted.
   */
  predicate SettledExpiry(before: Stats, c: Call)
    requires HasCounters(before)
  {
    && c.outcome.Returned? && c.outcome.value.Some? && Status(c.outcome.value.value).Some?
    && HasCounters(c.session.stats)
    && CountedOnce(before, c.session.stats, CounterFor(Status(c.outcome.value.value).value))
    && Status(c.outcome.value.value).value != "deleted"
  }

  /**
   The expiration once the `GET` was answered: the answer counts an API call;
   a failed `GET` counts a failure; an ok one whose body is not JSON or cannot
   be expired raises into `Recover`; otherwise the expired body is `PUT`.
   */
  function ExpireAfterGet(server: Request -> Reply, org: string, photoId: string, reply: Reply, s1: Session): (c: Call)
    ensures |s1.sent| <= |c.session.sent| <= |s1.sent| + 1 && c.session.sent[..|s1.sent|] == s1.sent
    ensures !PutAllowed(reply) ==> c.session.sent == s1.sent
    ensures HasCounters(s1.stats) ==>
              SettledExpiry(s1.stats, c)
              && c.session.stats[ApiCalls] == s1.stats[ApiCalls] + (if reply.Response? then 1 else 0) + PutCalls(server, org, photoId, reply)
              && c.session.sent == s1.sent + (if PutAllowed(reply) then [PutRequest(org, photoId, reply)] else [])
              && (Status(c.outcome.value.value) == Some("expired") <==>
                    PutAllowed(reply) && server(PutRequest(org, photoId, reply)).Response?
                    && IsOk(server(PutRequest(org, photoId, reply)).statusCode))
  {
    match reply
    case Exception(msg) => Recover(s1, photoId, msg)
    case Response(code, json) =>
      match Bump(s1.stats, ApiCalls, 1)
      case None => Recover(s1, photoId, MissingKey(ApiCalls))
      case Some(st) => ExpireCounted(server, org, photoId, reply, Session(st, s1.sent))
  }

  /** The expiration once the `GET` answer was counted. */
  function ExpireCounted(server: Request -> Reply, org: string, photoId: string, reply: Reply, s2: Session): (c: Call)
    requires reply.Response?
    ensures |s2.sent| <= |c.session.sent| <= |s2.sent| + 1 && c.session.sent[..|s2.sent|] == s2.sent
    ensures !PutAllowed(reply) ==> c.session.sent == s2.sent
    ensures HasCounters(s2.stats) ==>
              SettledExpiry(s2.stats, c)
              && c.session.stats[ApiCalls] == s2.stats[ApiCalls] + PutCalls(server, org, photoId, reply)
              && c.session.sent == s2.sent + (if PutAllowed(reply) then [PutRequest(org, photoId, reply)] else [])
              && (Status(c.outcome.value.value) == Some("expired") <==>
                    PutAllowed(reply) && server(PutRequest(org, photoId, reply)).Response?
                    && IsOk(server(PutRequest(org, photoId, reply)).statusCode))
  {
    if !IsOk(reply.statusCode) then
      FailedSettles(s2, photoId, reply.statusCode);
      Finish(s2, PhotosFailed, photoId, Answered(photoId, "failed", reply.statusCode))
    else if reply.json.None? then
      RecoverSettles(s2, photoId, "JSONDecodeError");
      Recover(s2, photoId, "JSONDecodeError")
    else if ExpiredBody(reply.json.value).Err? then
      RecoverSettles(s2, photoId, ExpiredBody(reply.json.value).error);
      Recover(s2, photoId, ExpiredBody(reply.json.value).error)
    else
      var put := PutRequest(org, photoId, reply);
      ExpireAfterPut(server(put), Send(s2, put), photoId)
  }

  /** A recovered expiration settles as one `error` record counted as failed, sending nothing. */
  lemma RecoverSettles(s: Session, photoId: string, message: string)
    ensures HasCounters(s.stats) ==>
              var c := Recover(s, photoId, message);
              SettledExpiry(s.stats, c) && c.session.sent == s.sent && Status(c.outcome.value.value) == Some("error")
              && c.session.stats[ApiCalls] == s.stats[ApiCalls]
  {
  }

  /** A failed answer settles as one `failed` record counted as failed, sending nothing. */
  lemma FailedSettles(s: Session, photoId: string, code: int)
    ensures HasCounters(s.stats) ==>
              var c := Finish(s, PhotosFailed, photoId, Answered(photoId, "failed", code));
              SettledExpiry(s.stats, c) && c.session.sent == s.sent && Status(c.outcome.value.value) == Some("failed")
              && c.session.stats[ApiCalls] == s.stats[ApiCalls]
  {
  }

  /** The tail of an expiration once the `PUT` was sent: its answer decides between expired and failed. */
  function ExpireAfterPut(reply: Reply, s3: Session, photoId: string): (c: Call)
    ensures c.session.sent == s3.sent
    ensures HasCounters(s3.stats) ==>
              SettledExpiry(s3.stats, c) && c.session.sent == s3.sent
              && c.session.stats[ApiCalls] == s3.stats[ApiCalls] + (if reply.Response? then 1 else 0)
              && (Status(c.outcome.value.value) == Some("expired") <==> reply.Response? && IsOk(reply.statusCode))
  {
    match reply
    case Exception(msg) => Recover(s3, photoId, msg)
    case Response(putCode, _) =>
      match Bump(s3.stats, ApiCalls, 1)
      case None => Recover(s3, photoId, MissingKey(ApiCalls))
      case Some(st3) =>
        if IsOk(putCode) then Finish(Session(st3, s3.sent), PhotosExpired, photoId, Answered(photoId, "expired", putCode))
        else Finish(Session(st3, s3.sent), PhotosFailed, photoId, Answered(photoId, "failed", putCode))
  }

  /** `process_photo`: hard delete or expire. */
  function ProcessPhoto(server: Request -> Reply, org: string, hardDelete: bool, dryRun: bool, s: Session, photoId: string): (c: Call)
    ensures dryRun ==> c.session.sent == s.sent
    ensures !dryRun ==> |s.sent| < |c.session.sent| <= |s.sent| + 2 && c.session.sent[..|s.sent|] == s.sent
    ensures !dryRun && hardDelete ==> c.session.sent == s.sent + [Request(DELETE, PhotoUrl(org, photoId), None)]
    ensures c.outcome.Raised? ==> !HasCounters(s.stats)
  {
    if hardDelete then DeleteSinglePhoto(server, org, dryRun, s, photoId)
    else ExpireSinglePhoto(server, org, dryRun, s, photoId)
  }

  /** The counter a result's status is counted in. */
  function CounterFor(status: string): Counter {
    if status == "deleted" then PhotosDeleted
    else if status == "expired" then PhotosExpired
    else PhotosFailed
  }

  /**
   From `before` to `after`, exactly the counter `key` among deleted,
   expired and failed moved, by one, and the total and skipped counts are
   untouched.
   */
  predicate CountedOnce(before: Stats, after: Stats, key: Counter)
    requires HasCounters(before) && HasCounters(after)
  {
    && after[PhotosDeleted] == before[PhotosDeleted] + (if key == PhotosDeleted then 1 else 0)
    && after[PhotosExpired] == before[PhotosExpired] + (if key == PhotosExpired then 1 else 0)
    && after[PhotosFailed] == before[PhotosFailed] + (if key == PhotosFailed then 1 else 0)
    && after[TotalPhotosProcessed] == before[TotalPhotosProcessed]
    && after[PhotosSkipped] == before[PhotosSkipped]
  }

  /** The deleted, expired and failed counts together. */
  function Handled(st: Stats): int
    requires HasCounters(st)
  {
    st[PhotosDeleted] + st[PhotosExpired] + st[PhotosFailed]
  }

  /**
   With its counters in place a deletion never raises, returns a record and
   counts it once under its status. A dry run sends nothing; a real one sends
   one `DELETE`, counts an API call exactly when it was answered, and reports
   `deleted` exactly when the answer was ok.
   */
  lemma DeleteSinglePhotoContract(server: Request -> Reply, org: string, dryRun: bool, s: Session, photoId: string)
    requires HasCounters(s.stats)
    ensures var c := DeleteSinglePhoto(server, org, dryRun, s, photoId);
            var req := Request(DELETE, PhotoUrl(org, photoId), None);
            c.outcome.Returned? && c.outcome.value.Some? && Status(c.outcome.value.value).Some?
            && HasCounters(c.session.stats)
            && CountedOnce(s.stats, c.session.stats, CounterFor(Status(c.outcome.value.value).value))
            && Status(c.outcome.value.value).value != "expired"
            && (dryRun ==> c.session.sent == s.sent && Status(c.outcome.value.value) == Some("deleted")
                           && c.session.stats[ApiCalls] == s.stats[ApiCalls])
            && (!dryRun ==> c.session.sent == s.sent + [req]
                            && c.session.stats[ApiCalls] == s.stats[ApiCalls] + (if server(req).Response? then 1 else 0)
                            && (Status(c.outcome.value.value) == Some("deleted") <==>
                                  server(req).Response? && IsOk(server(req).statusCode)))
  {
  }

  /**
   With its counters in place an expiration never raises, returns a record
   and counts it once under its status, never as deleted. A dry run sends
   nothing. A real one always sends the `GET`; it sends a `PUT`, whose body is
   the expired `GET` body, exactly when the `GET` was answered ok with a body
   that can be expired; it reports `expired` exactly when that `PUT` was
   answered ok. A dry run counts no API call; a real one counts one for an
   answered `GET` and one more for an answered `PUT`.
   */
  lemma ExpireSinglePhotoContract(server: Request -> Reply, org: string, dryRun: bool, s: Session, photoId: string)
    requires HasCounters(s.stats)
    ensures var c := ExpireSinglePhoto(server, org, dryRun, s, photoId);
            var reply := server(GetRequest(org, photoId));
            SettledExpiry(s.stats, c)
            && (dryRun ==> c.session.sent == s.sent && Status(c.outcome.value.value) == Some("expired")
                           && c.session.stats[ApiCalls] == s.stats[ApiCalls])
            && (!dryRun ==> c.session.stats[ApiCalls] == s.stats[ApiCalls] + (if reply.Response? then 1 else 0)
                                                          + PutCalls(server, org, photoId, reply))
            && (!dryRun && !PutAllowed(reply) ==>
                  c.session.sent == s.sent + [GetRequest(org, photoId)] && Status(c.outcome.value.value) != Some("expired"))
            && (!dryRun && PutAllowed(reply) ==>
                  var put := PutRequest(org, photoId, reply);
                  c.session.sent == s.sent + [GetRequest(org, photoId), put]
                  && (Status(c.outcome.value.value) == Some("expired") <==> server(put).Response? && IsOk(server(put).statusCode)))
  {
    if !dryRun {
      var get := GetRequest(org, photoId);
      assert ExpireSinglePhoto(server, org, dryRun, s, photoId) == ExpireAfterGet(server, org, photoId, server(get), Send(s, get));
    }
  }

  /** `process_photo` with the counters in place: a record, counted once, never raising. */
  lemma ProcessPhotoContract(server: Request -> Reply, org: string, hardDelete: bool, dryRun: bool, s: Session, photoId: string)
    requires HasCounters(s.stats)
    ensures var c := ProcessPhoto(server, org, hardDelete, dryRun, s, photoId);
            c.outcome.Returned? && c.outcome.value.Some? && HasCounters(c.session.stats)
            && Handled(c.session.stats) == Handled(s.stats) + 1
            && c.session.stats[TotalPhotosProcessed] == s.stats[TotalPhotosProcessed]
            && c.session.stats[PhotosSkipped] == s.stats[PhotosSkipped]
  {
    if hardDelete {
      DeleteSinglePhotoContract(server, org, dryRun, s, photoId);
    } else {
      ExpireSinglePhotoContract(server, org, dryRun, s, photoId);
    }
  }

  /** The unit handed to the images processor. */
  function Unit(server: Request -> Reply, org: string, hardDelete: bool, dryRun: bool): (Session, string) -> (Session, Outcome<Dict>) {
    AsUnit((s: Session, id: string) => ProcessPhoto(server, org, hardDelete, dryRun, s, id))
  }

  /**
   Run over many photos, every unit returns a record and the deleted,
   expired and failed counts grow by exactly the number of photos.
   */
  lemma {:induction false} RunTally(server: Request -> Reply, org: string, hardDelete: bool, dryRun: bool,
                                    s: Session, ids: seq<string>)
    requires HasCounters(s.stats)
    ensures var r := RunUnits(Unit(server, org, hardDelete, dryRun), s, ids);
            HasCounters(r.state.stats)
            && Handled(r.state.stats) == Handled(s.stats) + |ids|
            && r.state.stats[TotalPhotosProcessed] == s.stats[TotalPhotosProcessed]
            && r.state.stats[PhotosSkipped] == s.stats[PhotosSkipped]
            && (forall k :: 0 <= k < |ids| ==> r.outcomes[k].Returned? && r.outcomes[k].value.Some?)
    decreases |ids|
  {
    if |ids| > 0 {
      var unit := Unit(server, org, hardDelete, dryRun);
      ProcessPhotoContract(server, org, hardDelete, dryRun, s, ids[0]);
      var (s1, o) := unit(s, ids[0]);
      RunTally(server, org, hardDelete, dryRun, s1, ids[1..]);
      var rest := RunUnits(unit, s1, ids[1..]);
      assert RunUnits(unit, s, ids) == Run(rest.state, [o] + rest.outcomes);
    }
  }

  /** `os.path.basename`: what follows the last `/`. */
  function Basename(path: string): (r: string)
    ensures '/' !in r
    ensures |r| <= |path| && r == path[|path| - |r|..]
    ensures |r| < |path| ==> path[|path| - |r| - 1] == '/'
  {
    if |path| == 0 || path[|path| - 1] == '/' then ""
    else Basename(path[..|path| - 1]) + [path[|path| - 1]]
  }

  /** The preserved CSV as the reader finds it. */
  datatype PreservedFile = Missing | Unreadable | Table(rows: seq<map<string, string>>)

  /**
   The `ans_id` column, row by row; a row without it raises `KeyError`,
   which is caught after the ids of the earlier rows were added.
   */
  function AnsIds(rows: seq<map<string, string>>): (ids: set<string>)
    ensures forall id :: id in ids ==> exists k :: 0 <= k < |rows| && "ans_id" in rows[k] && rows[k]["ans_id"] == id
    ensures (forall k :: 0 <= k < |rows| ==> "ans_id" in rows[k]) ==>
              forall k :: 0 <= k < |rows| ==> rows[k]["ans_id"] in ids
  {
    if |rows| == 0 || "ans_id" !in rows[0] then {}
    else {rows[0]["ans_id"]} + AnsIds(rows[1..])
  }

  const DeleteMarker := "photo_ids_to_delete_"
  const PreservedMarker := "preserved_photo_ids_"

  /**
   `get_preserved_photo_ids`: the CSV path must name a
   `photo_ids_to_delete_…` file; the preserved file is found by replacing that
   marker everywhere in the full path, directories included.
   */
  function PreservedIds(readPreserved: string -> PreservedFile, csvPath: string): (ids: set<string>)
    ensures !Contains(Basename(csvPath), DeleteMarker) ==> ids == {}
    ensures !readPreserved(PreservedPath(csvPath)).Table? ==> ids == {}
    ensures forall id :: id in ids ==>
              exists k :: 0 <= k < |readPreserved(PreservedPath(csvPath)).rows|
                          && "ans_id" in readPreserved(PreservedPath(csvPath)).rows[k]
                          && readPreserved(PreservedPath(csvPath)).rows[k]["ans_id"] == id
    ensures Contains(Basename(csvPath), DeleteMarker) && readPreserved(PreservedPath(csvPath)).Table? ==>
              var rows := readPreserved(PreservedPath(csvPath)).rows;
              (forall k :: 0 <= k < |rows| ==> "ans_id" in rows[k]) ==>
                forall k :: 0 <= k < |rows| ==> rows[k]["ans_id"] in ids
  {
    if Contains(Basename(csvPath), DeleteMarker) then
      match readPreserved(PreservedPath(csvPath))
      case Table(rows) => AnsIds(rows)
      case _ => {}
    else {}
  }

  /** The preserved file's path: the delete marker replaced by the preserved marker. */
  function PreservedPath(csvPath: string): string {
    ReplaceAll(csvPath, DeleteMarker, PreservedMarker)
  }

  /** The preserved file of `photo_ids_to_delete_1-2.csv` is `preserved_photo_ids_1-2.csv`. */
  lemma PreservedPathExample()
    ensures ReplaceAll("photo_ids_to_delete_1-2.csv", DeleteMarker, PreservedMarker) == "preserved_photo_ids_1-2.csv"
  {
    var tail := "1-2.csv";
    ReplaceAllFront(DeleteMarker, PreservedMarker, tail);
    assert "photo_ids_to_delete_1-2.csv" == DeleteMarker + tail;
  }

  /**
   The ids not preserved, in their order: every occurrence of an id that is
   not preserved is kept, every occurrence of a preserved one dropped.
   */
  function Unpreserved(ids: seq<string>, preserved: set<string>): (r: seq<string>)
    ensures |r| <= |ids|
    ensures forall id :: id in r <==> id in ids && id !in preserved
    ensures forall id :: multiset(r)[id] == if id in preserved then 0 else multiset(ids)[id]
  {
    if |ids| == 0 then []
    else
      assert multiset(ids) == multiset([ids[0]]) + multiset(ids[1..]) by {
        assert ids == [ids[0]] + ids[1..];
      }
      (if ids[0] in preserved then [] else [ids[0]]) + Unpreserved(ids[1..], preserved)
  }

  /** `a` is `b` with some elements left out, the rest in their order. */
  predicate SubsequenceOf(a: seq<string>, b: seq<string>)
    decreases |b|
  {
    |a| == 0 || (|b| > 0 && if a[0] == b[0] then SubsequenceOf(a[1..], b[1..]) else SubsequenceOf(a, b[1..]))
  }

  /** The kept ids keep the order they had in the file. */
  lemma {:induction false} UnpreservedInOrder(ids: seq<string>, preserved: set<string>)
    ensures SubsequenceOf(Unpreserved(ids, preserved), ids)
    decreases |ids|
  {
    if |ids| > 0 {
      UnpreservedInOrder(ids[1..], preserved);
      var rest := Unpreserved(ids[1..], preserved);
      if ids[0] in preserved {
        assert Unpreserved(ids, preserved) == rest;
        SkipHead(rest, ids);
      } else {
        assert Unpreserved(ids, preserved) == [ids[0]] + rest;
        assert ([ids[0]] + rest)[1..] == rest;
      }
    }
  }

  /** A subsequence of the tail is a subsequence of the whole. */
  lemma {:induction false} SkipHead(a: seq<string>, b: seq<string>)
    requires |b| > 0 && SubsequenceOf(a, b[1..])
    ensures SubsequenceOf(a, b)
    decreases |b|, 1
  {
    if |a| > 0 && a[0] == b[0] {
      // `a[1..]` is a subsequence of `b[1..]` because `a` is.
      SubsequenceTail(a, b[1..]);
    }
  }

  /** Dropping the first element keeps a subsequence. */
  lemma {:induction false} SubsequenceTail(a: seq<string>, b: seq<string>)
    requires |a| > 0 && SubsequenceOf(a, b)
    ensures SubsequenceOf(a[1..], b)
    decreases |b|, 2
  {
    if a[0] == b[0] {
      if |a[1..]| > 0 {
        SkipHead(a[1..], b);
      }
    } else {
      SubsequenceTail(a, b[1..]);
      if |a[1..]| > 0 {
        SkipHead(a[1..], b);
      }
    }
  }

  /** Nothing is skipped when nothing is preserved. */
  lemma {:induction false} UnpreservedNone(ids: seq<string>, preserved: set<string>)
    requires forall k :: 0 <= k < |ids| ==> ids[k] !in preserved
    ensures Unpreserved(ids, preserved) == ids
    decreases |ids|
  {
    if |ids| > 0 {
      UnpreservedNone(ids[1..], preserved);
    }
  }

  /** What a run of `delete_arcids` ends with; `Crashed` holds `str(e)` of the exception that escaped. */
  datatype RunEnd =
    | Processed(session: Session, results: seq<Dict>)
    | NotAFile
    | NoInput
    | Crashed(message: string)

  /**
   `delete_arcids`. A CSV path wins: `rows` is `None` when the path is not a
   file, and each row contributes its first column (`row[0]` raises
   `IndexError` on an empty row). The preserved ids are dropped, their number
   is recorded as skipped and the rest as the total, and the rest is
   processed. Without a CSV, an image id selects the single-photo path.
   */
  function DeleteArcIds(server: Request -> Reply, readPreserved: string -> PreservedFile, org: string,
                        hardDelete: bool, dryRun: bool, batchSize: int, s: Session,
                        csvPath: string, rows: Option<seq<seq<string>>>, imageId: string): (r: RunEnd)
    ensures r.NoInput? <==> |csvPath| == 0 && |imageId| == 0
    ensures r.NotAFile? <==> |csvPath| > 0 && rows.None?
    ensures |csvPath| > 0 && rows.Some? && FirstColumn(rows.value).Some? ==>
              (r.Crashed? <==> batchSize == 0) && (r.Crashed? ==> r.message == ZeroStep)
  {
    if |csvPath| > 0 then
      match rows
      case None => NotAFile
      case Some(rs) =>
        match FirstColumn(rs)
        case None => Crashed(IndexOutOfRange)
        case Some(ids) => CsvRun(server, readPreserved, org, hardDelete, dryRun, batchSize, s, csvPath, ids)
    else if |imageId| > 0 then
      var c := ProcessPhoto(server, org, hardDelete, dryRun, Session(s.stats[TotalPhotosProcessed := 1], s.sent), imageId);
      match c.outcome
      case Raised(msg) => Crashed(msg)
      case Returned(r) => Processed(c.session, if r.Some? then [r.value] else [])
    else NoInput
  }

  /**
   The single-photo path of `delete_arcids`: with no CSV and an image id, the
   total is set to one and that photo alone is processed, giving its one
   record, counted once; nothing is skipped.
   */
  lemma DeleteArcIdsSinglePhoto(server: Request -> Reply, readPreserved: string -> PreservedFile, org: string,
                                hardDelete: bool, dryRun: bool, batchSize: int, s: Session, rows: Option<seq<seq<string>>>, imageId: string)
    requires |imageId| > 0 && HasCounters(s.stats)
    ensures var r := DeleteArcIds(server, readPreserved, org, hardDelete, dryRun, batchSize, s, "", rows, imageId);
            var c := ProcessPhoto(server, org, hardDelete, dryRun, Session(s.stats[TotalPhotosProcessed := 1], s.sent), imageId);
            r.Processed? && r.results == [c.outcome.value.value]
            && HasCounters(r.session.stats)
            && r.session.stats[TotalPhotosProcessed] == 1
            && r.session.stats[PhotosSkipped] == s.stats[PhotosSkipped]
            && Handled(r.session.stats) == Handled(s.stats) + 1
  {
    var s0 := Session(s.stats[TotalPhotosProcessed := 1], s.sent);
    ProcessPhotoContract(server, org, hardDelete, dryRun, s0, imageId);
  }

  /** Neither a CSV nor an image id: nothing is processed and nothing is sent. */
  lemma DeleteArcIdsNoInput(server: Request -> Reply, readPreserved: string -> PreservedFile, org: string,
                            hardDelete: bool, dryRun: bool, batchSize: int, s: Session, rows: Option<seq<seq<string>>>)
    ensures DeleteArcIds(server, readPreserved, org, hardDelete, dryRun, batchSize, s, "", rows, "") == NoInput
  {
  }

  /**
   The CSV path of `delete_arcids`: a path that is not a file processes
   nothing; an empty row raises `IndexError` before anything is sent;
   otherwise the first column of every row goes through `CsvRun`.
   */
  lemma DeleteArcIdsCsv(server: Request -> Reply, readPreserved: string -> PreservedFile, org: string,
                        hardDelete: bool, dryRun: bool, batchSize: int, s: Session,
                        csvPath: string, rows: Option<seq<seq<string>>>, imageId: string)
    requires |csvPath| > 0
    ensures var r := DeleteArcIds(server, readPreserved, org, hardDelete, dryRun, batchSize, s, csvPath, rows, imageId);
            && (rows.None? ==> r == NotAFile)
            && (rows.Some? && (exists k :: 0 <= k < |rows.value| && |rows.value[k]| == 0) ==> r == Crashed(IndexOutOfRange))
            && (rows.Some? && (forall k :: 0 <= k < |rows.value| ==> |rows.value[k]| > 0) ==>
                  r == CsvRun(server, readPreserved, org, hardDelete, dryRun, batchSize, s, csvPath,
                              seq(|rows.value|, k requires 0 <= k < |rows.value| => rows.value[k][0])))
  {
    if rows.Some? && forall k :: 0 <= k < |rows.value| ==> |rows.value[k]| > 0 {
      var ids := FirstColumn(rows.value).value;
      assert ids == seq(|rows.value|, k requires 0 <= k < |rows.value| => rows.value[k][0]);
    }
  }

  /**
   A CSV run with a zero batch size reads every row and records the skipped
   photos and the total, then stops at the processor's `range` with
   `ValueError`, whatever the preserved list holds.
   */
  lemma ZeroBatchCrashes(server: Request -> Reply, readPreserved: string -> PreservedFile, org: string,
                         hardDelete: bool, dryRun: bool, s: Session, csvPath: string, rs: seq<seq<string>>, imageId: string)
    requires |csvPath| > 0
    requires forall k :: 0 <= k < |rs| ==> |rs[k]| >= 1
    ensures DeleteArcIds(server, readPreserved, org, hardDelete, dryRun, 0, s, csvPath, Some(rs), imageId) == Crashed(ZeroStep)
  {
  }

  /**
   The CSV part of `delete_arcids` once the ids are read: the preserved ids
   are dropped, their number is recorded as skipped and the rest as the
   total, and the rest is processed. With the counters in place, every photo
   that is not preserved yields one record and is counted once as deleted,
   expired or failed; unlike in the other deletion scripts, nothing
   overwrites these counters afterwards. A zero batch size makes the
   `ValueError` of `range` escape the run.
   */
  function CsvRun(server: Request -> Reply, readPreserved: string -> PreservedFile, org: string,
                  hardDelete: bool, dryRun: bool, batchSize: int, s: Session, csvPath: string, ids: seq<string>): (r: RunEnd)
    ensures r.Crashed? <==> batchSize == 0
    ensures r.Crashed? ==> r.message == ZeroStep
    ensures var kept := Unpreserved(ids, PreservedIds(readPreserved, csvPath));
            batchSize > 0 && HasCounters(s.stats) ==>
              r.Processed? && |r.results| == |kept| && HasCounters(r.session.stats)
              && r.session.stats[PhotosSkipped] == |ids| - |kept|
              && r.session.stats[TotalPhotosProcessed] == |kept|
              && Handled(r.session.stats) == Handled(s.stats) + |kept|
  {
    var kept := Unpreserved(ids, PreservedIds(readPreserved, csvPath));
    RunKept(server, org, hardDelete, dryRun, batchSize, s, |ids| - |kept|, kept)
  }

  /**
   The ids left after the preserved ones are dropped: `skipped` and their
   number are recorded, then they are processed, one record and one count
   per photo. A zero batch size raises `ValueError` in the processor before
   any photo is processed.
   */
  function RunKept(server: Request -> Reply, org: string, hardDelete: bool, dryRun: bool, batchSize: int,
                   s: Session, skipped: int, kept: seq<string>): (r: RunEnd)
    ensures r.Crashed? <==> batchSize == 0
    ensures r.Crashed? ==> r.message == ZeroStep
    ensures batchSize > 0 && HasCounters(s.stats) ==>
              r.Processed? && |r.results| == |kept| && HasCounters(r.session.stats)
              && r.session.stats[PhotosSkipped] == skipped
              && r.session.stats[TotalPhotosProcessed] == |kept|
              && Handled(r.session.stats) == Handled(s.stats) + |kept|
  {
    if batchSize == 0 then Crashed(ZeroStep)
    else
      var s0 := Session(s.stats[PhotosSkipped := skipped][TotalPhotosProcessed := |kept|], s.sent);
      var unit := Unit(server, org, hardDelete, dryRun);
      var (s1, results) := ProcessParallel(unit, s0, kept, batchSize);
      if batchSize > 0 && HasCounters(s.stats) then
        RunTally(server, org, hardDelete, dryRun, s0, kept);
        CollectCount(RunUnits(unit, s0, kept).outcomes);
        Processed(s1, results)
      else Processed(s1, results)
  }

  /** The processing summary: deleted or expired results, and failed or error results. */
  datatype Summary = Summary(successful: nat, failed: nat)

  function Summarize(results: seq<Dict>): (sm: Summary)
    ensures sm.successful + sm.failed <= |results|
  {
    if |results| == 0 then Summary(0, 0)
    else
      var rest := Summarize(results[1..]);
      var st := Status(results[0]);
      if st == Some("deleted") || st == Some("expired") then Summary(rest.successful + 1, rest.failed)
      else if st == Some("failed") || st == Some("error") then Summary(rest.successful, rest.failed + 1)
      else rest
  }

  /** `main` refuses to start unless an image id or a CSV file is given. */
  predicate ArgumentsAccepted(imageId: string, csvPath: string) {
    |imageId| > 0 || |csvPath| > 0
  }
}

=== FILE: delete_processor.dfy ===
/**
 The two deletion processors (redirects and stories). They run a delete
 unit per item through the chunked fan-out, keep every non-`None` result,
 turn a raising unit into an `error` record for its item, and count
 `deleted` and `failed`/`error` results in their own `stats`.

 Both processors are the same program over different item types, counter
 names and error records; the model is written once, generic in the item
 type, with the error record as a parameter.
 */
module DeleteProcessor {
  import opened Wrappers
  import opened Records
  import opened FanOut

  /** The counters of a processor's `stats` (its `start_time` is left out). */
  datatype Counters = Counters(total: int, deleted: int, failed: int, apiCalls: int)

  /** The counters of a new processor, and after `benchmark_performance` resets them. */
  const Fresh := Counters(0, 0, 0, 0)

  /** A result counts as deleted when its status is `"deleted"`. */
  predicate IsDeleted(d: Dict) {
    Status(d) == Some("deleted")
  }

  /** A result counts as failed when its status is `"failed"` or `"error"`. */
  predicate IsFailed(d: Dict) {
    Status(d) == Some("failed") || Status(d) == Some("error")
  }

  function CountWhere(results: seq<Dict>, p: Dict -> bool): (n: nat)
    ensures n <= |results|
    decreases |results|
  {
    if |results| == 0 then 0 else (if p(results[0]) then 1 else 0) + CountWhere(results[1..], p)
  }

  lemma {:induction false} CountWhereAppend(a: seq<Dict>, b: seq<Dict>, p: Dict -> bool)
    ensures CountWhere(a + b, p) == CountWhere(a, p) + CountWhere(b, p)
    decreases |a|
  {
    if |a| == 0 {
      assert a + b == b;
    } else {
      assert (a + b)[0] == a[0];
      assert (a + b)[1..] == a[1..] + b;
      CountWhereAppend(a[1..], b, p);
    }
  }

  /** The counter a returned record moves: `deleted`, `failed`/`error`, or none for any other status. */
  function Tally(c: Counters, d: Dict): (c1: Counters)
    ensures c1.total == c.total && c1.apiCalls == c.apiCalls
    ensures c1.deleted == c.deleted + (if IsDeleted(d) then 1 else 0)
    ensures c1.failed == c.failed + (if IsFailed(d) then 1 else 0)
  {
    if IsDeleted(d) then c.(deleted := c.deleted + 1)
    else if IsFailed(d) then c.(failed := c.failed + 1)
    else c
  }

  /** What a processor returns and the counters it leaves. */
  datatype Processed = Processed(counters: Counters, results: seq<Dict>)

  /**
   Handling of completed units, in completion order: a returned record is kept
   and counted by its status, `None` is dropped, and a raised unit becomes
   `errorRecord(item, message)` and counts as failed.
   */
  function Gather<I>(errorRecord: (I, string) -> Dict, c: Counters, done: seq<(I, Outcome<Dict>)>): (p: Processed)
    ensures p.counters.total == c.total && p.counters.apiCalls == c.apiCalls
    ensures |p.results| <= |done|
    decreases |done|
  {
    if |done| == 0 then Processed(c, [])
    else
      var (item, outcome) := done[0];
      match outcome
      case Returned(None) => Gather(errorRecord, c, done[1..])
      case Returned(Some(d)) =>
        var rest := Gather(errorRecord, Tally(c, d), done[1..]);
        Processed(rest.counters, [d] + rest.results)
      case Raised(msg) =>
        var rest := Gather(errorRecord, c.(failed := c.failed + 1), done[1..]);
        Processed(rest.counters, [errorRecord(item, msg)] + rest.results)
  }

  /** An error record has status `"error"`. */
  ghost predicate ErrorRecords<I(!new)>(errorRecord: (I, string) -> Dict) {
    forall i: I, m: string :: Status(errorRecord(i, m)) == Some("error")
  }

  /**
   The counters agree with the results: `deleted` grows by the number of
   results whose status is `"deleted"` and `failed` by the number whose
   status is `"failed"` or `"error"`; any other status moves neither.
   */
  lemma {:induction false} GatherCounts<I(!new)>(errorRecord: (I, string) -> Dict, c: Counters, done: seq<(I, Outcome<Dict>)>)
    requires ErrorRecords(errorRecord)
    ensures var p := Gather(errorRecord, c, done);
            p.counters.deleted == c.deleted + CountWhere(p.results, IsDeleted)
            && p.counters.failed == c.failed + CountWhere(p.results, IsFailed)
    decreases |done|
  {
    if |done| > 0 {
      var (item, outcome) := done[0];
      match outcome
      case Returned(None) =>
        GatherCounts(errorRecord, c, done[1..]);
      case Returned(Some(d)) =>
        GatherCounts(errorRecord, Tally(c, d), done[1..]);
        var rest := Gather(errorRecord, Tally(c, d), done[1..]);
        assert ([d] + rest.results)[1..] == rest.results;
      case Raised(msg) =>
        GatherCounts(errorRecord, c.(failed := c.failed + 1), done[1..]);
        var rest := Gather(errorRecord, c.(failed := c.failed + 1), done[1..]);
        assert ([errorRecord(item, msg)] + rest.results)[1..] == rest.results;
    }
  }

  /** Number of units that returned `None`. */
  function NoneCount<I>(done: seq<(I, Outcome<Dict>)>): (n: nat)
    ensures n <= |done|
    decreases |done|
  {
    if |done| == 0 then 0 else (if done[0].1 == Returned(None) then 1 else 0) + NoneCount(done[1..])
  }

  /** One result per unit except the units that returned `None`; a raised unit yields its error record. */
  lemma {:induction false} GatherShape<I>(errorRecord: (I, string) -> Dict, c: Counters, done: seq<(I, Outcome<Dict>)>)
    ensures |Gather(errorRecord, c, done).results| == |done| - NoneCount(done)
    ensures forall k :: 0 <= k < |done| && done[k].1.Raised? ==>
              errorRecord(done[k].0, done[k].1.message) in Gather(errorRecord, c, done).results
    ensures forall k :: 0 <= k < |done| && done[k].1.Returned? && done[k].1.value.Some? ==>
              done[k].1.value.value in Gather(errorRecord, c, done).results
    decreases |done|
  {
    if |done| > 0 {
      var (item, outcome) := done[0];
      var c1 := match outcome
                case Returned(Some(d)) => Tally(c, d)
                case Returned(None) => c
                case Raised(_) => c.(failed := c.failed + 1);
      GatherShape(errorRecord, c1, done[1..]);
      forall k | 1 <= k < |done|
        ensures done[k] == done[1..][k - 1]
      {
      }
    }
  }

  /** Pairs each item with how its unit finished. */
  function Zip<I, R>(items: seq<I>, outcomes: seq<Outcome<R>>): (z: seq<(I, Outcome<R>)>)
    requires |items| == |outcomes|
    ensures |z| == |items|
    ensures forall k :: 0 <= k < |z| ==> z[k] == (items[k], outcomes[k])
  {
    seq(|items|, k requires 0 <= k < |items| => (items[k], outcomes[k]))
  }

  /**
   `process_redirects_parallel` / `process_stories_parallel` on a processor
   whose counters are `c`: the total becomes the number of items, the units
   run chunk by chunk, and the completed units are gathered. A zero chunk
   size makes `range` raise `ValueError` before any unit runs, and the
   exception leaves the processor.
   */
  function ProcessItems<S, I>(unit: (S, I) -> (S, Outcome<Dict>), s: S, c: Counters,
                              items: seq<I>, chunkSize: int, errorRecord: (I, string) -> Dict): (r: Result<(S, Processed)>)
    ensures r.Err? <==> chunkSize == 0
    ensures r.Err? ==> r.error == ZeroStep
    ensures r.Ok? ==> r.value.1.counters.total == |items| && r.value.1.counters.apiCalls == c.apiCalls
    ensures chunkSize > 0 ==> |r.value.1.results| <= |items|
    ensures chunkSize < 0 ==> r.value.1.results == [] && r.value.1.counters == c.(total := |items|)
  {
    if chunkSize == 0 then Err(ZeroStep)
    else
      var run := RunInChunks(unit, s, items, chunkSize);
      var done := if chunkSize > 0 then Zip(items, run.outcomes) else [];
      Ok((run.state, Gather(errorRecord, c.(total := |items|), done)))
  }

  /**
   The processor's promise: one result per item that did not return `None`,
   every raise turned into an error record, and the counters matching the
   statuses of the results.
   */
  lemma ProcessItemsContract<S, I(!new)>(unit: (S, I) -> (S, Outcome<Dict>), s: S, c: Counters,
                                   items: seq<I>, chunkSize: int, errorRecord: (I, string) -> Dict)
    requires chunkSize > 0
    requires ErrorRecords(errorRecord)
    ensures var outcomes := RunUnits(unit, s, items).outcomes;
            var p := ProcessItems(unit, s, c, items, chunkSize, errorRecord).value.1;
            |p.results| == |items| - NoneCount(Zip(items, outcomes))
            && p.counters.deleted == c.deleted + CountWhere(p.results, IsDeleted)
            && p.counters.failed == c.failed + CountWhere(p.results, IsFailed)
            && (forall k :: 0 <= k < |items| && outcomes[k].Raised? ==> errorRecord(items[k], outcomes[k].message) in p.results)
  {
    var outcomes := RunUnits(unit, s, items).outcomes;
    var done := Zip(items, outcomes);
    GatherShape(errorRecord, c.(total := |items|), done);
    GatherCounts(errorRecord, c.(total := |items|), done);
  }

  /** What one completed unit adds to the results: its record, nothing for `None`, or its error record. */
  function Contribution<I>(errorRecord: (I, string) -> Dict, x: (I, Outcome<Dict>)): seq<Dict> {
    match x.1
    case Returned(None) => []
    case Returned(Some(d)) => [d]
    case Raised(msg) => [errorRecord(x.0, msg)]
  }

  function Contributions<I>(errorRecord: (I, string) -> Dict): ((I, Outcome<Dict>)) -> seq<Dict> {
    x => Contribution(errorRecord, x)
  }

  /** The unit, once, when it moves `deleted`. */
  function DeletedMark<I>(x: (I, Outcome<Dict>)): seq<(I, Outcome<Dict>)> {
    if x.1.Returned? && x.1.value.Some? && IsDeleted(x.1.value.value) then [x] else []
  }

  /** The unit, once, when it moves `failed`: a `failed`/`error` record or a raise. */
  function FailedMark<I>(x: (I, Outcome<Dict>)): seq<(I, Outcome<Dict>)> {
    if x.1.Raised? || (x.1.value.Some? && !IsDeleted(x.1.value.value) && IsFailed(x.1.value.value)) then [x] else []
  }

  /**
   Gathering is a sum over the completed units, each contributing on its own:
   the results are the units' contributions one after the other, and each
   counter grows by the number of units that move it.
   */
  lemma {:induction false} GatherIsFlatMap<I>(errorRecord: (I, string) -> Dict, c: Counters, done: seq<(I, Outcome<Dict>)>)
    ensures Gather(errorRecord, c, done).results == FlatMap(Contributions(errorRecord), done)
    ensures Gather(errorRecord, c, done).counters
            == c.(deleted := c.deleted + |FlatMap(DeletedMark, done)|, failed := c.failed + |FlatMap(FailedMark, done)|)
    decreases |done|
  {
    if |done| > 0 {
      var c1 := match done[0].1
                case Returned(Some(d)) => Tally(c, d)
                case Returned(None) => c
                case Raised(_) => c.(failed := c.failed + 1);
      GatherIsFlatMap(errorRecord, c1, done[1..]);
    }
  }

  /**
   `as_completed` hands the units back in an order the source leaves open.
   Any two completion orders of the same units give the same counters and
   the same results, up to order.
   */
  lemma GatherPermutation<I>(errorRecord: (I, string) -> Dict, c: Counters,
                             done: seq<(I, Outcome<Dict>)>, completed: seq<(I, Outcome<Dict>)>)
    requires multiset(done) == multiset(completed)
    ensures Gather(errorRecord, c, completed).counters == Gather(errorRecord, c, done).counters
    ensures multiset(Gather(errorRecord, c, completed).results) == multiset(Gather(errorRecord, c, done).results)
  {
    GatherIsFlatMap(errorRecord, c, done);
    GatherIsFlatMap(errorRecord, c, completed);
    FlatMapPermutation(Contributions(errorRecord), done, completed);
    FlatMapPermutation(DeletedMark, done, completed);
    FlatMapPermutation(FailedMark, done, completed);
    assert |FlatMap(DeletedMark, done)| == |multiset(FlatMap(DeletedMark, done))|;
    assert |FlatMap(DeletedMark, completed)| == |multiset(FlatMap(DeletedMark, completed))|;
    assert |FlatMap(FailedMark, done)| == |multiset(FlatMap(FailedMark, done))|;
    assert |FlatMap(FailedMark, completed)| == |multiset(FlatMap(FailedMark, completed))|;
  }

  /**
   The processor gathered in any completion order of its units: the
   counters are those of `ProcessItems` and the results the same multiset.
   */
  lemma ProcessItemsAnyOrder<S, I>(unit: (S, I) -> (S, Outcome<Dict>), s: S, c: Counters,
                                   items: seq<I>, chunkSize: int, errorRecord: (I, string) -> Dict,
                                   completed: seq<(I, Outcome<Dict>)>)
    requires chunkSize > 0
    requires multiset(completed) == multiset(Zip(items, RunUnits(unit, s, items).outcomes))
    ensures var p := ProcessItems(unit, s, c, items, chunkSize, errorRecord).value.1;
            var q := Gather(errorRecord, c.(total := |items|), completed);
            q.counters == p.counters && multiset(q.results) == multiset(p.results)
  {
    GatherPermutation(errorRecord, c.(total := |items|), Zip(items, RunUnits(unit, s, items).outcomes), completed);
  }

  /** With fresh counters, at most one count per result, so deleted plus failed never exceeds the total. */
  lemma {:induction false} CountsBounded(results: seq<Dict>)
    ensures CountWhere(results, IsDeleted) + CountWhere(results, IsFailed) <= |results|
    decreases |results|
  {
    if |results| > 0 {
      CountsBounded(results[1..]);
    }
  }

  /**
   `success_rate` of `get_statistics`: deleted over total, as a percentage,
   and 0 instead of a division by zero when nothing was processed.
   */
  function SuccessRate(c: Counters): (rate: real)
    ensures c.total <= 0 ==> rate == 0.0
    ensures c.total > 0 && 0 <= c.deleted <= c.total ==> 0.0 <= rate <= 100.0
    ensures c.total > 0 && c.deleted == c.total ==> rate == 100.0
  {
    if c.total > 0 then
      assert 0 <= c.deleted <= c.total ==> 0.0 <= c.deleted as real / c.total as real * 100.0 <= 100.0 by {
        if 0 <= c.deleted <= c.total {
          PercentBounded(c.deleted, c.total);
        }
      }
      c.deleted as real / c.total as real * 100.0
    else 0.0
  }

  /** A part of a positive whole, as a percentage, lies between 0 and 100, and is 100 for the whole. */
  lemma PercentBounded(part: int, whole: int)
    requires 0 <= part <= whole && whole > 0
    ensures 0.0 <= part as real / whole as real * 100.0 <= 100.0
    ensures part == whole ==> part as real / whole as real * 100.0 == 100.0
  {
    var q := part as real / whole as real;
    assert q * whole as real == part as real;
    assert 0.0 <= q <= 1.0;
  }

  /** A run on a fresh processor has a success rate between 0 and 100. */
  lemma FreshRunRateBounded<S, I(!new)>(unit: (S, I) -> (S, Outcome<Dict>), s: S, items: seq<I>,
                                  chunkSize: int, errorRecord: (I, string) -> Dict)
    requires chunkSize > 0
    requires ErrorRecords(errorRecord)
    ensures var p := ProcessItems(unit, s, Fresh, items, chunkSize, errorRecord).value.1;
            0 <= p.counters.deleted && p.counters.deleted + p.counters.failed <= p.counters.total
            && 0.0 <= SuccessRate(p.counters) <= 100.0
  {
    ProcessItemsContract(unit, s, Fresh, items, chunkSize, errorRecord);
    var p := ProcessItems(unit, s, Fresh, items, chunkSize, errorRecord).value.1;
    CountsBounded(p.results);
  }

  /**
   `benchmark_performance` resets the counters before processing, so its
   counters do not depend on anything the processor did before.
   */
  function Benchmark<S, I>(unit: (S, I) -> (S, Outcome<Dict>), s: S, previous: Counters,
                           items: seq<I>, chunkSize: int, errorRecord: (I, string) -> Dict): (r: Result<(S, Processed)>)
    ensures r == ProcessItems(unit, s, Fresh, items, chunkSize, errorRecord)
    ensures r.Ok? ==> r.value.1.counters.apiCalls == 0
  {
    ProcessItems(unit, s, Fresh, items, chunkSize, errorRecord)
  }

  /** Any two processors benchmark the same items to the same counters. */
  lemma BenchmarkForgetsHistory<S, I>(unit: (S, I) -> (S, Outcome<Dict>), s: S, a: Counters, b: Counters,
                                      items: seq<I>, chunkSize: int, errorRecord: (I, string) -> Dict)
    ensures Benchmark(unit, s, a, items, chunkSize, errorRecord) == Benchmark(unit, s, b, items, chunkSize, errorRecord)
  {
  }

  /** Error record of the redirects processor for an item `(redirect_url, redirect_website)`. */
  function RedirectErrorRecord(item: (string, string), message: string): (d: Dict)
    ensures Status(d) == Some("error")
    ensures d.Keys == {"redirect_url", "redirect_website", "status", "error"}
  {
    map["redirect_url" := Str(item.0), "redirect_website" := Str(item.1),
        "status" := Str("error"), "error" := Str(message)]
  }

  /** Error record of the stories processor for an `arc_id`. */
  function StoryErrorRecord(arcId: string, message: string): (d: Dict)
    ensures Status(d) == Some("error")
    ensures d.Keys == {"arc_id", "status", "error"}
  {
    map["arc_id" := Str(arcId), "status" := Str("error"), "error" := Str(message)]
  }

  /** The stats dictionary a processor hands to `stats.update`, under its own key names. */
  function StatsDict(c: Counters, totalKey: Counter, deletedKey: Counter, failedKey: Counter): (st: Stats)
    requires |{totalKey, deletedKey, failedKey, ApiCalls}| == 4
    ensures st.Keys == {totalKey, deletedKey, failedKey, ApiCalls}
    ensures st[totalKey] == c.total && st[deletedKey] == c.deleted && st[failedKey] == c.failed
    ensures st[ApiCalls] == c.apiCalls
  {
    map[totalKey := c.total, deletedKey := c.deleted, failedKey := c.failed, ApiCalls := c.apiCalls]
  }

  /** Gathering units that all returned a `deleted` record keeps every record, in order, and counts each as deleted. */
  lemma {:induction false} GatherAllDeleted<I>(errorRecord: (I, string) -> Dict, c: Counters, done: seq<(I, Outcome<Dict>)>)
    requires forall k :: 0 <= k < |done| ==> done[k].1.Returned? && done[k].1.value.Some? && IsDeleted(done[k].1.value.value)
    ensures var p := Gather(errorRecord, c, done);
            |p.results| == |done|
            && p.counters == c.(deleted := c.deleted + |done|)
            && forall k :: 0 <= k < |done| ==> p.results[k] == done[k].1.value.value
    decreases |done|
  {
    if |done| > 0 {
      var d := done[0].1.value.value;
      var rest := done[1..];
      assert forall k :: 0 <= k < |rest| ==> rest[k] == done[k + 1];
      GatherAllDeleted(errorRecord, Tally(c, d), rest);
      var r := Gather(errorRecord, Tally(c, d), rest);
      assert Tally(c, d) == c.(deleted := c.deleted + 1);
      assert Gather(errorRecord, c, done) == Processed(r.counters, [d] + r.results);
    }
  }

  /** Gathering units that all raised gives one error record per unit, in order, each counted as failed. */
  lemma {:induction false} GatherAllRaised<I>(errorRecord: (I, string) -> Dict, c: Counters, done: seq<(I, Outcome<Dict>)>)
    requires forall k :: 0 <= k < |done| ==> done[k].1.Raised?
    ensures var p := Gather(errorRecord, c, done);
            |p.results| == |done|
            && p.counters == c.(failed := c.failed + |done|)
            && forall k :: 0 <= k < |done| ==> p.results[k] == errorRecord(done[k].0, done[k].1.message)
    decreases |done|
  {
    if |done| > 0 {
      var rest := done[1..];
      assert forall k :: 0 <= k < |rest| ==> rest[k] == done[k + 1];
      var c1 := c.(failed := c.failed + 1);
      GatherAllRaised(errorRecord, c1, rest);
      var r := Gather(errorRecord, c1, rest);
      assert Gather(errorRecord, c, done) == Processed(r.counters, [errorRecord(done[0].0, done[0].1.message)] + r.results);
    }
  }

  /**
   When every unit leaves the state alone and returns a `deleted` record, a
   fresh processor returns one record per item, in item order, whatever the
   chunk size, and counts every item as deleted and none as failed.
   */
  lemma EveryItemDeleted<S, I>(unit: (S, I) -> (S, Outcome<Dict>), record: I -> Dict, s: S, items: seq<I>,
                               chunkSize: int, errorRecord: (I, string) -> Dict)
    requires chunkSize > 0
    requires forall t: S, i: I :: unit(t, i) == (t, Returned(Some(record(i))))
    requires forall i: I :: IsDeleted(record(i))
    ensures var p := ProcessItems(unit, s, Fresh, items, chunkSize, errorRecord).value.1;
            |p.results| == |items|
            && p.counters == Counters(|items|, |items|, 0, 0)
            && forall k :: 0 <= k < |items| ==> p.results[k] == record(items[k]) && IsDeleted(p.results[k])
  {
    var f: I -> Outcome<Dict> := (i: I) => Returned(Some(record(i)));
    RunUnitsStateless(unit, f, s, items);
    var outcomes := RunUnits(unit, s, items).outcomes;
    var done := Zip(items, outcomes);
    assert forall k :: 0 <= k < |done| ==> done[k].1 == f(items[k]);
    GatherAllDeleted(errorRecord, Fresh.(total := |items|), done);
  }

  /** Each item's record, in item order. */
  function RecordsOf<I>(record: I -> Dict, items: seq<I>): (r: seq<Dict>)
    ensures |r| == |items| && forall k :: 0 <= k < |items| ==> r[k] == record(items[k])
  {
    seq(|items|, k requires 0 <= k < |items| => record(items[k]))
  }

  /** Units that each returned their item's `deleted` record gather, in submission order, to those records. */
  lemma GatherRecords<I>(errorRecord: (I, string) -> Dict, record: I -> Dict, items: seq<I>, outcomes: seq<Outcome<Dict>>)
    requires |outcomes| == |items|
    requires forall k :: 0 <= k < |items| ==> outcomes[k] == Returned(Some(record(items[k])))
    requires forall i: I :: IsDeleted(record(i))
    ensures Gather(errorRecord, Fresh.(total := |items|), Zip(items, outcomes))
            == Processed(Counters(|items|, |items|, 0, 0), RecordsOf(record, items))
  {
    var done := Zip(items, outcomes);
    GatherAllDeleted(errorRecord, Fresh.(total := |items|), done);
    assert Gather(errorRecord, Fresh.(total := |items|), done).results == RecordsOf(record, items);
  }

  /**
   `EveryItemDeleted` for any completion order: every item's record is
   returned once, and every item is counted as deleted.
   */
  lemma EveryItemDeletedAnyOrder<S, I>(unit: (S, I) -> (S, Outcome<Dict>), record: I -> Dict, s: S, items: seq<I>,
                                       errorRecord: (I, string) -> Dict, completed: seq<(I, Outcome<Dict>)>)
    requires forall t: S, i: I :: unit(t, i) == (t, Returned(Some(record(i))))
    requires forall i: I :: IsDeleted(record(i))
    requires multiset(completed) == multiset(Zip(items, RunUnits(unit, s, items).outcomes))
    ensures var q := Gather(errorRecord, Fresh.(total := |items|), completed);
            q.counters == Counters(|items|, |items|, 0, 0)
            && multiset(q.results) == multiset(RecordsOf(record, items))
  {
    var f: I -> Outcome<Dict> := (i: I) => Returned(Some(record(i)));
    RunUnitsStateless(unit, f, s, items);
    var outcomes := RunUnits(unit, s, items).outcomes;
    GatherRecords(errorRecord, record, items, outcomes);
    GatherPermutation(errorRecord, Fresh.(total := |items|), Zip(items, outcomes), completed);
  }
}

=== FILE: delete_redirects.dfy ===
/**
 The redirect deletion script: one Draft API `DELETE` per redirect, either
 for a single `(redirect_url, website)` pair or for every row of a CSV file
 run through the redirects deletion processor.

 The HTTP client is the oracle `server`; the script's `stats` dictionary is
 threaded through explicitly, and every request sent is recorded.
 */
module DeleteRedirects {
  import opened Wrappers
  import opened Records
  import opened FanOut
  import opened Utils
  import opened Sessions
  import DeleteProcessor

  /** The counters a new script instance starts with (its `start_time` is left out). */
  const InitialStats: Stats := map[TotalRedirectsProcessed := 0, RedirectsDeleted := 0,
                                   RedirectsFailed := 0, ApiCalls := 0]

  /** `DRAFT_API_URL.format(org, website, redirect_url)`. */
  function RedirectUrl(org: string, website: string, redirectUrl: string): string {
    "https://api." + org + ".arcpublishing.com/draft/v1/redirect/" + website + "/" + redirectUrl
  }

  /** The record of a deletion that got an HTTP answer (or was simulated). */
  function Answered(redirectUrl: string, website: string, status: string, code: int): Dict {
    map["redirect_url" := Str(redirectUrl), "website" := Str(website), "status" := Str(status), "response" := Int(code)]
  }

  /** The record of a deletion that raised: note the key `redirect_website`, not `website`. */
  function Errored(redirectUrl: string, website: string, message: string): Dict {
    map["redirect_url" := Str(redirectUrl), "redirect_website" := Str(website), "status" := Str("error"), "error" := Str(message)]
  }

  /** The `except` branch: count a failure (which itself raises if the key is missing) and return the error record. */
  function Recover(s: Session, redirectUrl: string, website: string, message: string): Call {
    match Bump(s.stats, RedirectsFailed, 1)
    case None => Call(s, Raised(MissingKey(RedirectsFailed)))
    case Some(st) => Call(Session(st, s.sent), Returned(Some(Errored(redirectUrl, website, message))))
  }

  /**
   `delete_single_redirect`. A dry run counts a deletion and sends nothing.
   Otherwise one `DELETE` is sent; an answer counts an API call and then a
   deletion (ok) or a failure (not ok); an exception, from the client or from
   a missing counter, is turned into an error record.
   */
  function DeleteSingleRedirect(server: Request -> Reply, org: string, dryRun: bool, s: Session,
                                redirectUrl: string, website: string): (c: Call)
    ensures dryRun ==> c.session.sent == s.sent
    ensures !dryRun ==> c.session.sent == s.sent + [Request(DELETE, RedirectUrl(org, website, redirectUrl), None)]
    ensures c.outcome.Raised? ==> !HasCounters(s.stats)
  {
    if dryRun then
      match Bump(s.stats, RedirectsDeleted, 1)
      case None => Call(s, Raised(MissingKey(RedirectsDeleted)))
      case Some(st) => Call(Session(st, s.sent), Returned(Some(Answered(redirectUrl, website, "deleted", 200))))
    else
      var req := Request(DELETE, RedirectUrl(org, website, redirectUrl), None);
      var sent := Send(s, req);
      match server(req)
      case Exception(msg) => Recover(sent, redirectUrl, website, msg)
      case Response(code, _) =>
        match Bump(sent.stats, ApiCalls, 1)
        case None => Recover(sent, redirectUrl, website, MissingKey(ApiCalls))
        case Some(st) =>
          var counted := Session(st, sent.sent);
          var key := if IsOk(code) then RedirectsDeleted else RedirectsFailed;
          var status := if IsOk(code) then "deleted" else "failed";
          match Bump(st, key, 1)
          case None => Recover(counted, redirectUrl, website, MissingKey(key))
          case Some(st2) => Call(Session(st2, sent.sent), Returned(Some(Answered(redirectUrl, website, status, code))))
  }

  /** All four counters exist, as on a new instance. */
  predicate HasCounters(st: Stats) {
    TotalRedirectsProcessed in st && RedirectsDeleted in st && RedirectsFailed in st && ApiCalls in st
  }

  /**
   With its counters in place a call never raises and moves exactly one of
   `redirects_deleted` / `redirects_failed` by one, matching the status it
   returns. A dry run sends nothing; a real call sends exactly one `DELETE` to
   the redirect's URL and counts one API call exactly when the server answered.
   */
  lemma DeleteSingleRedirectContract(server: Request -> Reply, org: string, dryRun: bool, s: Session,
                                     redirectUrl: string, website: string)
    requires HasCounters(s.stats)
    ensures var c := DeleteSingleRedirect(server, org, dryRun, s, redirectUrl, website);
            var st := c.session.stats;
            var req := Request(DELETE, RedirectUrl(org, website, redirectUrl), None);
            c.outcome.Returned? && c.outcome.value.Some?
            && HasCounters(st)
            && (DeleteProcessor.IsDeleted(c.outcome.value.value) ==>
                  st[RedirectsDeleted] == s.stats[RedirectsDeleted] + 1
                  && st[RedirectsFailed] == s.stats[RedirectsFailed])
            && (!DeleteProcessor.IsDeleted(c.outcome.value.value) ==>
                  st[RedirectsFailed] == s.stats[RedirectsFailed] + 1
                  && st[RedirectsDeleted] == s.stats[RedirectsDeleted])
            && (dryRun ==> c.session.sent == s.sent && DeleteProcessor.IsDeleted(c.outcome.value.value)
                           && c.outcome.value.value["response"] == Int(200)
                           && st[ApiCalls] == s.stats[ApiCalls])
            && (!dryRun ==> c.session.sent == s.sent + [req]
                            && st[ApiCalls] == s.stats[ApiCalls] + (if server(req).Response? then 1 else 0)
                            && (server(req).Exception? ==> c.outcome.value.value == Errored(redirectUrl, website, server(req).message))
                            && (server(req).Response? ==> (DeleteProcessor.IsDeleted(c.outcome.value.value) <==> IsOk(server(req).statusCode))))
  {
  }

  /** The delete unit handed to the processor: `delete_func(item[0], item[1])` on the script's session. */
  function Unit(server: Request -> Reply, org: string, dryRun: bool): (Session, (string, string)) -> (Session, Outcome<Dict>) {
    AsUnit((s: Session, item: (string, string)) => DeleteSingleRedirect(server, org, dryRun, s, item.0, item.1))
  }

  /**
   `delete_redirects_parallel`: a new processor runs the units, and the
   script's `stats.update(...)` then overwrites every counter the processor
   also keeps. A zero batch size raises `ValueError` out of the processor
   before anything is sent, and no counter is updated.
   */
  function DeleteRedirectsParallel(server: Request -> Reply, org: string, dryRun: bool, batchSize: int,
                                   s: Session, items: seq<(string, string)>): (r: Result<(Session, seq<Dict>)>)
    ensures r.Err? <==> batchSize == 0
    ensures r.Err? ==> r.error == ZeroStep
    ensures r.Ok? ==> HasCounters(r.value.0.stats)
                      && r.value.0.stats[TotalRedirectsProcessed] == |items|
                      && r.value.0.stats[ApiCalls] == 0
  {
    match DeleteProcessor.ProcessItems(Unit(server, org, dryRun), s, DeleteProcessor.Fresh, items, batchSize,
                                       DeleteProcessor.RedirectErrorRecord)
    case Err(e) => Err(e)
    case Ok((s1, p)) =>
      var processorStats := DeleteProcessor.StatsDict(p.counters, TotalRedirectsProcessed, RedirectsDeleted,
                                                      RedirectsFailed);
      Ok((Session(UpdateWith(s1.stats, processorStats), s1.sent), p.results))
  }

  /** What a run of `delete_redirects` ends with; `Crashed` holds `str(e)` of the exception that escaped. */
  datatype RunEnd =
    | Processed(session: Session, results: seq<Dict>)
    | NotAFile
    | NoInput
    | Crashed(message: string)

  /**
   `delete_redirects`. A CSV path wins: `rows` is `None` when the path is not
   a file; every row must have two columns (`row[1]` raises `IndexError`
   otherwise) and becomes `(row[0], row[1])`. Without a CSV, a URL and a
   website select the single-item path; with neither, nothing happens. The
   `ValueError` of a zero batch size escapes the run.
   */
  function DeleteRedirectsRun(server: Request -> Reply, org: string, dryRun: bool, batchSize: int, s: Session,
                              csvPath: string, rows: Option<seq<seq<string>>>,
                              redirectUrl: string, website: string): (r: RunEnd)
    ensures r.NoInput? <==> |csvPath| == 0 && (|redirectUrl| == 0 || |website| == 0)
    ensures r.NotAFile? <==> |csvPath| > 0 && rows.None?
    ensures |csvPath| > 0 && rows.Some? && FirstTwoColumns(rows.value).Some? ==>
              (r.Crashed? <==> batchSize == 0) && (r.Crashed? ==> r.message == ZeroStep)
  {
    if |csvPath| > 0 then
      match rows
      case None => NotAFile
      case Some(rs) =>
        match FirstTwoColumns(rs)
        case None => Crashed(IndexOutOfRange)
        case Some(items) =>
          var s1 := Session(s.stats[TotalRedirectsProcessed := |items|], s.sent);
          match DeleteRedirectsParallel(server, org, dryRun, batchSize, s1, items)
          case Err(e) => Crashed(e)
          case Ok((s2, results)) => Processed(s2, results)
    else if |redirectUrl| > 0 && |website| > 0 then
      var s1 := Session(s.stats[TotalRedirectsProcessed := 1], s.sent);
      var c := DeleteSingleRedirect(server, org, dryRun, s1, redirectUrl, website);
      match c.outcome
      case Raised(msg) => Crashed(msg)
      case Returned(r) => Processed(c.session, if r.Some? then [r.value] else [])
    else NoInput
  }

  /**
   After a CSV run the script's counters are the processor's, not the sum of
   both: `api_calls` reads 0 whatever was sent, the total is the row count,
   and `redirects_deleted` is the number of `deleted` results.
   */
  lemma CsvRunCounters(server: Request -> Reply, org: string, dryRun: bool, batchSize: int, s: Session,
                       csvPath: string, rs: seq<seq<string>>)
    requires batchSize > 0 && |csvPath| > 0
    requires forall k :: 0 <= k < |rs| ==> |rs[k]| >= 2
    ensures var r := DeleteRedirectsRun(server, org, dryRun, batchSize, s, csvPath, Some(rs), "", "");
            r.Processed?
            && r.session.stats[TotalRedirectsProcessed] == |rs|
            && r.session.stats[ApiCalls] == 0
            && r.session.stats[RedirectsDeleted] == DeleteProcessor.CountWhere(r.results, DeleteProcessor.IsDeleted)
  {
    var items := FirstTwoColumns(rs).value;
    var s1 := Session(s.stats[TotalRedirectsProcessed := |items|], s.sent);
    DeleteProcessor.ProcessItemsContract(Unit(server, org, dryRun), s1, DeleteProcessor.Fresh, items, batchSize,
                                         DeleteProcessor.RedirectErrorRecord);
  }

  /** A CSV row with fewer than two columns aborts the run. */
  lemma ShortRowCrashes(server: Request -> Reply, org: string, dryRun: bool, batchSize: int, s: Session,
                        csvPath: string, rs: seq<seq<string>>, k: nat)
    requires |csvPath| > 0
    requires k < |rs| && |rs[k]| < 2
    ensures DeleteRedirectsRun(server, org, dryRun, batchSize, s, csvPath, Some(rs), "", "") == Crashed(IndexOutOfRange)
  {
  }

  /**
   A CSV run with a zero batch size reads every row, then stops at the
   processor's `range` with `ValueError`, whatever the URL and website.
   */
  lemma ZeroBatchCrashes(server: Request -> Reply, org: string, dryRun: bool, s: Session,
                         csvPath: string, rs: seq<seq<string>>, redirectUrl: string, website: string)
    requires |csvPath| > 0
    requires forall k :: 0 <= k < |rs| ==> |rs[k]| >= 2
    ensures DeleteRedirectsRun(server, org, dryRun, 0, s, csvPath, Some(rs), redirectUrl, website) == Crashed(ZeroStep)
  {
  }

  /** Without a CSV path, URL or website, nothing is sent and no counter moves. */
  lemma NoInputDoesNothing(server: Request -> Reply, org: string, dryRun: bool, batchSize: int, s: Session,
                           redirectUrl: string, website: string)
    requires redirectUrl == "" || website == ""
    ensures DeleteRedirectsRun(server, org, dryRun, batchSize, s, "", None, redirectUrl, website) == NoInput
  {
  }

  /** The single-item path processes one redirect and records a total of 1. */
  lemma SingleItemPath(server: Request -> Reply, org: string, dryRun: bool, batchSize: int, s: Session,
                       redirectUrl: string, website: string)
    requires HasCounters(s.stats)
    requires |redirectUrl| > 0 && |website| > 0
    ensures var r := DeleteRedirectsRun(server, org, dryRun, batchSize, s, "", None, redirectUrl, website);
            r.Processed? && |r.results| == 1 && r.session.stats[TotalRedirectsProcessed] == 1
            && |r.session.sent| <= |s.sent| + 1
  {
    var s1 := Session(s.stats[TotalRedirectsProcessed := 1], s.sent);
    DeleteSingleRedirectContract(server, org, dryRun, s1, redirectUrl, website);
  }

  /** The summary printed after a CSV run: deleted results, the rest as failed, and a guarded rate. */
  datatype Summary = Summary(successful: nat, failed: nat, successRate: real)

  function Summarize(results: seq<Dict>): (sm: Summary)
    ensures sm.successful + sm.failed == |results|
    ensures sm.successful == DeleteProcessor.CountWhere(results, DeleteProcessor.IsDeleted)
    ensures 0.0 <= sm.successRate <= 100.0
    ensures |results| == 0 ==> sm.successRate == 0.0
  {
    var ok := DeleteProcessor.CountWhere(results, DeleteProcessor.IsDeleted);
    var rate := if |results| > 0 then DeleteProcessor.PercentBounded(ok, |results|); ok as real / |results| as real * 100.0 else 0.0;
    Summary(ok, |results| - ok, rate)
  }

  /** `main` refuses to start unless a URL and a website, or a CSV file, are given. */
  predicate ArgumentsAccepted(redirectUrl: string, website: string, csvPath: string) {
    (|redirectUrl| > 0 && |website| > 0) || |csvPath| > 0
  }
}

=== FILE: delete_wires.dfy ===
/**
 The wire story deletion script: a story is unpublished (`DELETE` of its
 published revision) and then deleted (`DELETE` of the story), for one
 `arc_id` or for every row of a CSV file run through the stories deletion
 processor.

 The per-story call is written once over the names of the two counters it
 bumps after the second `DELETE`. As written, the script bumps
 `stories_deleted` / `stories_failed`, which its own counters do not hold;
 `DeleteSingleStory` is that program, and `DeleteSingleStoryCorrected` bumps
 `wires_deleted` / `wires_failed` as the dry run and the initial counters
 suggest. The run paths take the counter names too: the script is the run
 over `AsWritten`, and the run over `Intended` is the corrected program.
 */
module DeleteWires {
  import opened Wrappers
  import opened Records
  import opened FanOut
  import opened Sessions
  import opened Utils
  import DeleteProcessor

  /** The counters a new script instance starts with (its `start_time` is left out). */
  const InitialStats: Stats := map[TotalWiresProcessed := 0, WiresDeleted := 0,
                                   WiresFailed := 0, ApiCalls := 0]

  /** `DRAFT_DELETE_URL.format(org, arc_id)`. */
  function DeleteUrl(org: string, arcId: string): string {
    "https://api." + org + ".arcpublishing.com/draft/v1/story/" + arcId
  }

  /** `DRAFT_UNPUBLISH_URL.format(org, arc_id)`. */
  function UnpublishUrl(org: string, arcId: string): string {
    DeleteUrl(org, arcId) + "/revision/published"
  }

  /** The two counter names the call bumps once the second `DELETE` is answered. */
  datatype CounterNames = CounterNames(deleted: Counter, failed: Counter)

  const AsWritten := CounterNames(StoriesDeleted, StoriesFailed)
  const Intended := CounterNames(WiresDeleted, WiresFailed)

  /** The record of a story deletion that got an answer (or was simulated). */
  function Answered(arcId: string, status: string, code: int): Dict {
    map["arc_id" := Str(arcId), "status" := Str(status), "response" := Int(code)]
  }

  /** The `except` branch: count a failure (raising `KeyError` if that counter is missing) and return an error record. */
  function Recover(names: CounterNames, s: Session, arcId: string, message: string): Call {
    match Bump(s.stats, names.failed, 1)
    case None => Call(s, Raised(MissingKey(names.failed)))
    case Some(st) => Call(Session(st, s.sent), Returned(Some(DeleteProcessor.StoryErrorRecord(arcId, message))))
  }

  /**
   `delete_single_story` over the counter names `names`. A dry run counts
   `wires_deleted` and sends nothing. Otherwise the unpublish `DELETE` is
   sent and counted as one API call whatever its status, then the story
   `DELETE` is sent and counted as two; its status decides between the
   deleted and the failed counter. Any exception on the way, from the client
   or from a missing counter, goes to `Recover`.
   */
  function DeleteStoryWith(names: CounterNames, server: Request -> Reply, org: string, dryRun: bool,
                           s: Session, arcId: string): (c: Call)
    ensures dryRun ==> c.session.sent == s.sent
    ensures var unpublish := Request(DELETE, UnpublishUrl(org, arcId), None);
            var delete := Request(DELETE, DeleteUrl(org, arcId), None);
            !dryRun ==> c.session.sent == s.sent + [unpublish] || c.session.sent == s.sent + [unpublish, delete]
    ensures c.outcome.Raised? ==> WiresDeleted !in s.stats || names.failed !in s.stats
  {
    if dryRun then
      match Bump(s.stats, WiresDeleted, 1)
      case None => Call(s, Raised(MissingKey(WiresDeleted)))
      case Some(st) => Call(Session(st, s.sent), Returned(Some(Answered(arcId, "deleted", 200))))
    else
      var unpublish := Request(DELETE, UnpublishUrl(org, arcId), None);
      var s1 := Send(s, unpublish);
      match server(unpublish)
      case Exception(msg) => Recover(names, s1, arcId, msg)
      case Response(_, _) =>
        match Bump(s1.stats, ApiCalls, 1)
        case None => Recover(names, s1, arcId, MissingKey(ApiCalls))
        case Some(st1) =>
          var delete := Request(DELETE, DeleteUrl(org, arcId), None);
          var s2 := Send(Session(st1, s1.sent), delete);
          match server(delete)
          case Exception(msg) => Recover(names, s2, arcId, msg)
          case Response(code, _) =>
            match Bump(s2.stats, ApiCalls, 2)
            case None => Recover(names, s2, arcId, MissingKey(ApiCalls))
            case Some(st2) =>
              var key := if IsOk(code) then names.deleted else names.failed;
              match Bump(st2, key, 1)
              case None => Recover(names, Session(st2, s2.sent), arcId, MissingKey(key))
              case Some(st3) =>
                Call(Session(st3, s2.sent), Returned(Some(Answered(arcId, if IsOk(code) then "deleted" else "failed", code))))
  }

  /** The call as the script writes it. */
  function DeleteSingleStory(server: Request -> Reply, org: string, dryRun: bool, s: Session, arcId: string): (c: Call)
    ensures dryRun && WiresDeleted in s.stats ==> c.outcome == Returned(Some(Answered(arcId, "deleted", 200)))
    ensures !dryRun ==> |c.session.sent| >= |s.sent| + 1
  {
    DeleteStoryWith(AsWritten, server, org, dryRun, s, arcId)
  }

  /** The call bumping the script's own `wires_deleted` / `wires_failed` counters. */
  function DeleteSingleStoryCorrected(server: Request -> Reply, org: string, dryRun: bool, s: Session, arcId: string): (c: Call)
    ensures dryRun && WiresDeleted in s.stats ==> c.outcome == Returned(Some(Answered(arcId, "deleted", 200)))
    ensures !dryRun ==> |c.session.sent| >= |s.sent| + 1
  {
    DeleteStoryWith(Intended, server, org, dryRun, s, arcId)
  }

  /**
   As written, on the counters of a new instance, a real deletion always
   raises `KeyError`, even when both `DELETE`s succeed: `stories_deleted` is
   missing, and so is `stories_failed`, which the `except` branch bumps. Both
   requests have then been sent and three API calls counted.
   */
  lemma AsWrittenDeletionRaises(server: Request -> Reply, org: string, sent: seq<Request>, arcId: string)
    requires server(Request(DELETE, UnpublishUrl(org, arcId), None)).Response?
    requires server(Request(DELETE, DeleteUrl(org, arcId), None)) == Response(200, None)
    ensures var c := DeleteSingleStory(server, org, false, Session(InitialStats, sent), arcId);
            c.outcome == Raised(MissingKey(StoriesFailed))
            && c.session.sent == sent + [Request(DELETE, UnpublishUrl(org, arcId), None), Request(DELETE, DeleteUrl(org, arcId), None)]
            && c.session.stats[ApiCalls] == 3
  {
  }

  /** The counters the as-written call bumps, missing from a new instance's counters. */
  predicate LacksStoryCounters(st: Stats) {
    StoriesDeleted !in st && StoriesFailed !in st
  }

  /**
   Without `stories_deleted` and `stories_failed` among the counters, every
   real as-written call raises `KeyError`, whatever the server answers, and
   leaves the set of counters as it was.
   */
  lemma AsWrittenCallRaises(server: Request -> Reply, org: string, s: Session, arcId: string)
    requires LacksStoryCounters(s.stats)
    ensures var c := DeleteSingleStory(server, org, false, s, arcId);
            c.outcome == Raised(MissingKey(StoriesFailed)) && c.session.stats.Keys == s.stats.Keys
  {
  }

  /** The unit the script hands to the stories processor, over the counter names its call bumps. */
  function Unit(names: CounterNames, server: Request -> Reply, org: string, dryRun: bool): (Session, string) -> (Session, Outcome<Dict>) {
    AsUnit((s: Session, id: string) => DeleteStoryWith(names, server, org, dryRun, s, id))
  }

  /** Real as-written units run one after another on such counters all raise `KeyError`. */
  lemma {:induction false} AsWrittenUnitsRaise(server: Request -> Reply, org: string, s: Session, ids: seq<string>)
    requires LacksStoryCounters(s.stats)
    ensures var run := RunUnits(Unit(AsWritten, server, org, false), s, ids);
            forall k :: 0 <= k < |ids| ==> run.outcomes[k] == Raised(MissingKey(StoriesFailed))
    decreases |ids|
  {
    if |ids| > 0 {
      var unit := Unit(AsWritten, server, org, false);
      AsWrittenCallRaises(server, org, s, ids[0]);
      var c := DeleteSingleStory(server, org, false, s, ids[0]);
      assert unit(s, ids[0]) == (c.session, c.outcome);
      AsWrittenUnitsRaise(server, org, c.session, ids[1..]);
      var rest := RunUnits(unit, c.session, ids[1..]);
      var tail := ids[1..];
      assert forall j :: 0 <= j < |tail| ==>
        RunUnits(Unit(AsWritten, server, org, false), c.session, tail).outcomes[j] == Raised(MissingKey(StoriesFailed));
      var outcomes := RunUnits(unit, s, ids).outcomes;
      assert outcomes == [Raised(MissingKey(StoriesFailed))] + rest.outcomes;
      forall k | 0 <= k < |ids|
        ensures outcomes[k] == Raised(MissingKey(StoriesFailed))
      {
        if k > 0 {
          assert outcomes[k] == rest.outcomes[k - 1];
        }
      }
    }
  }

  /**
   Through the processor, that raise turns every story of a real as-written
   run into an `error` record whose text is `str(e)` of that `KeyError`,
   `'stories_failed'`, in item order: none is counted
   deleted and every one failed.
   */
  lemma AsWrittenRunReportsErrors(server: Request -> Reply, org: string, batchSize: int, s: Session, ids: seq<string>)
    requires batchSize > 0 && LacksStoryCounters(s.stats)
    ensures var p := DeleteProcessor.ProcessItems(Unit(AsWritten, server, org, false), s, DeleteProcessor.Fresh, ids,
                                                  batchSize, DeleteProcessor.StoryErrorRecord).value.1;
            |p.results| == |ids|
            && (forall k :: 0 <= k < |ids| ==> p.results[k] == DeleteProcessor.StoryErrorRecord(ids[k], MissingKey(StoriesFailed)))
            && p.counters == DeleteProcessor.Counters(|ids|, 0, |ids|, 0)
  {
    AsWrittenUnitsRaise(server, org, s, ids);
    assert forall k :: 0 <= k < |ids| ==>
      RunUnits(Unit(AsWritten, server, org, false), s, ids).outcomes[k] == Raised(MissingKey(StoriesFailed));
    var outcomes := RunUnits(Unit(AsWritten, server, org, false), s, ids).outcomes;
    assert forall k :: 0 <= k < |ids| ==> outcomes[k] == Raised(MissingKey(StoriesFailed));
    var done := DeleteProcessor.Zip(ids, outcomes);
    assert forall k :: 0 <= k < |done| ==> done[k] == (ids[k], Raised(MissingKey(StoriesFailed)));
    DeleteProcessor.GatherAllRaised(DeleteProcessor.StoryErrorRecord, DeleteProcessor.Fresh.(total := |ids|), done);
  }

  /** One `error` record per id, in id order, carrying `str(e)` of the `KeyError`. */
  function MissingCounterErrors(ids: seq<string>): (r: seq<Dict>)
    ensures |r| == |ids|
    ensures forall k :: 0 <= k < |ids| ==> r[k] == DeleteProcessor.StoryErrorRecord(ids[k], MissingKey(StoriesFailed))
  {
    seq(|ids|, k requires 0 <= k < |ids| => DeleteProcessor.StoryErrorRecord(ids[k], MissingKey(StoriesFailed)))
  }

  /**
   `AsWrittenRunReportsErrors` for any completion order of the units: one
   error record per id, up to order, and every id counted as failed.
   */
  lemma AsWrittenRunReportsErrorsAnyOrder(server: Request -> Reply, org: string, batchSize: int, s: Session, ids: seq<string>,
                                          completed: seq<(string, Outcome<Dict>)>)
    requires batchSize > 0 && LacksStoryCounters(s.stats)
    requires multiset(completed) == multiset(DeleteProcessor.Zip(ids, RunUnits(Unit(AsWritten, server, org, false), s, ids).outcomes))
    ensures var q := DeleteProcessor.Gather(DeleteProcessor.StoryErrorRecord, DeleteProcessor.Fresh.(total := |ids|), completed);
            q.counters == DeleteProcessor.Counters(|ids|, 0, |ids|, 0)
            && multiset(q.results) == multiset(MissingCounterErrors(ids))
  {
    AsWrittenRunReportsErrors(server, org, batchSize, s, ids);
    var p := DeleteProcessor.ProcessItems(Unit(AsWritten, server, org, false), s, DeleteProcessor.Fresh, ids,
                                          batchSize, DeleteProcessor.StoryErrorRecord).value.1;
    assert p.results == MissingCounterErrors(ids);
    DeleteProcessor.ProcessItemsAnyOrder(Unit(AsWritten, server, org, false), s, DeleteProcessor.Fresh, ids,
                                         batchSize, DeleteProcessor.StoryErrorRecord, completed);
  }

  /** The script's own counters are present, as on a new instance. */
  predicate HasCounters(st: Stats) {
    TotalWiresProcessed in st && WiresDeleted in st && WiresFailed in st && ApiCalls in st
  }

  /**
   The corrected call never raises when the counters are present and moves
   exactly one of `wires_deleted` / `wires_failed` by one, matching its
   status. A real call always sends the unpublish request first; the story
   `DELETE` follows exactly when the unpublish got an answer, of whatever
   status; the story counts as deleted exactly when that second answer is ok,
   and three API calls are counted when both were answered.
   */
  lemma DeleteSingleStoryCorrectedContract(server: Request -> Reply, org: string, dryRun: bool, s: Session, arcId: string)
    requires HasCounters(s.stats)
    ensures var c := DeleteSingleStoryCorrected(server, org, dryRun, s, arcId);
            var st := c.session.stats;
            var unpublish := Request(DELETE, UnpublishUrl(org, arcId), None);
            var delete := Request(DELETE, DeleteUrl(org, arcId), None);
            c.outcome.Returned? && c.outcome.value.Some?
            && HasCounters(st)
            && (DeleteProcessor.IsDeleted(c.outcome.value.value) ==>
                  st[WiresDeleted] == s.stats[WiresDeleted] + 1 && st[WiresFailed] == s.stats[WiresFailed])
            && (!DeleteProcessor.IsDeleted(c.outcome.value.value) ==>
                  st[WiresFailed] == s.stats[WiresFailed] + 1 && st[WiresDeleted] == s.stats[WiresDeleted])
            && (dryRun ==> c.session.sent == s.sent && st[ApiCalls] == s.stats[ApiCalls]
                           && DeleteProcessor.IsDeleted(c.outcome.value.value))
            && (!dryRun && server(unpublish).Exception? ==>
                  c.session.sent == s.sent + [unpublish] && st[ApiCalls] == s.stats[ApiCalls])
            && (!dryRun && server(unpublish).Response? ==>
                  c.session.sent == s.sent + [unpublish, delete]
                  && st[ApiCalls] == s.stats[ApiCalls] + (if server(delete).Response? then 3 else 1)
                  && (DeleteProcessor.IsDeleted(c.outcome.value.value) <==>
                        server(delete).Response? && IsOk(server(delete).statusCode)))
  {
  }

  /**
   `delete_stories_parallel`: the processor's counters overwrite the script's
   keys of the same name. A zero batch size raises `ValueError` out of the
   processor before anything is sent, and no counter is updated.
   */
  function DeleteStoriesParallel(names: CounterNames, server: Request -> Reply, org: string, dryRun: bool, batchSize: int,
                                 s: Session, ids: seq<string>): (r: Result<(Session, seq<Dict>)>)
    ensures r.Err? <==> batchSize == 0
    ensures r.Err? ==> r.error == ZeroStep
    ensures r.Ok? ==> {TotalStoriesProcessed, StoriesDeleted, StoriesFailed, ApiCalls} <= r.value.0.stats.Keys
                      && r.value.0.stats[TotalStoriesProcessed] == |ids|
                      && r.value.0.stats[ApiCalls] == 0
  {
    match DeleteProcessor.ProcessItems(Unit(names, server, org, dryRun), s, DeleteProcessor.Fresh, ids, batchSize,
                                       DeleteProcessor.StoryErrorRecord)
    case Err(e) => Err(e)
    case Ok((s1, p)) =>
      var processorStats := DeleteProcessor.StatsDict(p.counters, TotalStoriesProcessed, StoriesDeleted,
                                                      StoriesFailed);
      Ok((Session(UpdateWith(s1.stats, processorStats), s1.sent), p.results))
  }

  /** What a run of `delete_stories` ends with; `Crashed` holds `str(e)` of the exception that escaped. */
  datatype RunEnd =
    | Processed(session: Session, results: seq<Dict>)
    | NotAFile
    | NoInput
    | Crashed(message: string)

  /**
   `delete_stories` over the counter names its call bumps. A CSV path wins:
   `rows` is `None` when the path is not a file, and each row contributes its
   first column (`row[0]` raises `IndexError` on an empty row). Without a
   CSV, an `arc_id` selects the single-story path, where an exception from
   the call escapes the run; with neither, nothing happens. The batch size
   only matters to the CSV path, where a zero one makes the `ValueError` of
   `range` escape the run.
   */
  function DeleteStoriesRun(names: CounterNames, server: Request -> Reply, org: string, dryRun: bool, batchSize: int,
                            s: Session, csvPath: string, rows: Option<seq<seq<string>>>, arcId: string): (r: RunEnd)
    ensures r.NoInput? <==> |csvPath| == 0 && |arcId| == 0
    ensures r.NotAFile? <==> |csvPath| > 0 && rows.None?
    ensures |csvPath| > 0 && rows.Some? && FirstColumn(rows.value).Some? ==>
              (r.Crashed? <==> batchSize == 0) && (r.Crashed? ==> r.message == ZeroStep)
  {
    if |csvPath| > 0 then
      match rows
      case None => NotAFile
      case Some(rs) =>
        match FirstColumn(rs)
        case None => Crashed(IndexOutOfRange)
        case Some(ids) =>
          var s1 := Session(s.stats[TotalStoriesProcessed := |ids|], s.sent);
          match DeleteStoriesParallel(names, server, org, dryRun, batchSize, s1, ids)
          case Err(e) => Crashed(e)
          case Ok((s2, results)) => Processed(s2, results)
    else if |arcId| > 0 then
      var s1 := Session(s.stats[TotalStoriesProcessed := 1], s.sent);
      var c := DeleteStoryWith(names, server, org, dryRun, s1, arcId);
      match c.outcome
      case Raised(msg) => Crashed(msg)
      case Returned(r) => Processed(c.session, if r.Some? then [r.value] else [])
    else NoInput
  }

  /**
   A CSV run, with either counter names, reports the processor's counters:
   the total is the number of rows, `stories_deleted` is the number of
   deleted results and `api_calls` reads 0.
   */
  lemma CsvRunCounters(names: CounterNames, server: Request -> Reply, org: string, dryRun: bool, batchSize: int,
                       s: Session, csvPath: string, rs: seq<seq<string>>)
    requires batchSize > 0 && |csvPath| > 0
    requires forall k :: 0 <= k < |rs| ==> |rs[k]| >= 1
    ensures var r := DeleteStoriesRun(names, server, org, dryRun, batchSize, s, csvPath, Some(rs), "");
            r.Processed?
            && r.session.stats[TotalStoriesProcessed] == |rs|
            && r.session.stats[ApiCalls] == 0
            && r.session.stats[StoriesDeleted] == DeleteProcessor.CountWhere(r.results, DeleteProcessor.IsDeleted)
  {
    var ids := FirstColumn(rs).value;
    var s1 := Session(s.stats[TotalStoriesProcessed := |ids|], s.sent);
    DeleteProcessor.ProcessItemsContract(Unit(names, server, org, dryRun), s1, DeleteProcessor.Fresh, ids, batchSize,
                                         DeleteProcessor.StoryErrorRecord);
  }

  /**
   The script's real CSV run on counters without `stories_deleted` and
   `stories_failed`, as on a new instance: every row's story comes back as
   an `error` record with the text `'stories_failed'`, in row order, and the statistics read
   no deletions and one failure per row.
   */
  lemma AsWrittenCsvRunFails(server: Request -> Reply, org: string, batchSize: int, s: Session, csvPath: string,
                             rs: seq<seq<string>>)
    requires batchSize > 0 && |csvPath| > 0 && LacksStoryCounters(s.stats)
    requires forall k :: 0 <= k < |rs| ==> |rs[k]| >= 1
    ensures var r := DeleteStoriesRun(AsWritten, server, org, false, batchSize, s, csvPath, Some(rs), "");
            r.Processed?
            && |r.results| == |rs|
            && (forall k :: 0 <= k < |rs| ==> r.results[k] == DeleteProcessor.StoryErrorRecord(rs[k][0], MissingKey(StoriesFailed)))
            && r.session.stats[StoriesDeleted] == 0
            && r.session.stats[StoriesFailed] == |rs|
  {
    var ids := FirstColumn(rs).value;
    var s1 := Session(s.stats[TotalStoriesProcessed := |ids|], s.sent);
    AsWrittenRunReportsErrors(server, org, batchSize, s1, ids);
  }

  /** An empty CSV row aborts the run. */
  lemma EmptyRowCrashes(names: CounterNames, server: Request -> Reply, org: string, dryRun: bool, batchSize: int,
                        s: Session, csvPath: string, rs: seq<seq<string>>, k: nat)
    requires |csvPath| > 0
    requires k < |rs| && |rs[k]| == 0
    ensures DeleteStoriesRun(names, server, org, dryRun, batchSize, s, csvPath, Some(rs), "") == Crashed(IndexOutOfRange)
  {
  }

  /**
   A CSV run with a zero batch size, with either counter names, reads every
   row, then stops at the processor's `range` with `ValueError`.
   */
  lemma ZeroBatchCrashes(names: CounterNames, server: Request -> Reply, org: string, dryRun: bool,
                         s: Session, csvPath: string, rs: seq<seq<string>>, arcId: string)
    requires |csvPath| > 0
    requires forall k :: 0 <= k < |rs| ==> |rs[k]| >= 1
    ensures DeleteStoriesRun(names, server, org, dryRun, 0, s, csvPath, Some(rs), arcId) == Crashed(ZeroStep)
  {
  }

  /**
   A dry run on the single-story path, whatever the batch size, reports the
   story deleted, counts it in `wires_deleted`, records a total of 1 and
   sends nothing.
   */
  lemma SingleStoryDryRun(names: CounterNames, server: Request -> Reply, org: string, batchSize: int, s: Session,
                          arcId: string)
    requires WiresDeleted in s.stats && |arcId| > 0
    ensures var r := DeleteStoriesRun(names, server, org, true, batchSize, s, "", None, arcId);
            r.Processed? && r.results == [Answered(arcId, "deleted", 200)]
            && r.session.stats[TotalStoriesProcessed] == 1
            && r.session.stats[WiresDeleted] == s.stats[WiresDeleted] + 1
            && r.session.sent == s.sent
  {
  }

  /**
   The script's real run on the single-story path, on counters without
   `stories_deleted` and `stories_failed`, crashes with `KeyError` whatever
   the server answers.
   */
  lemma SingleStoryRealRunCrashes(server: Request -> Reply, org: string, batchSize: int, s: Session, arcId: string)
    requires |arcId| > 0 && LacksStoryCounters(s.stats)
    ensures DeleteStoriesRun(AsWritten, server, org, false, batchSize, s, "", None, arcId) == Crashed(MissingKey(StoriesFailed))
  {
    AsWrittenCallRaises(server, org, Session(s.stats[TotalStoriesProcessed := 1], s.sent), arcId);
  }

  /** With the corrected call, the single-story path processes one story, records a total of 1 and sends at most two requests. */
  lemma SingleStoryPathCorrected(server: Request -> Reply, org: string, dryRun: bool, batchSize: int, s: Session,
                                 arcId: string)
    requires HasCounters(s.stats) && |arcId| > 0
    ensures var r := DeleteStoriesRun(Intended, server, org, dryRun, batchSize, s, "", None, arcId);
            r.Processed? && |r.results| == 1 && r.session.stats[TotalStoriesProcessed] == 1
            && |r.session.sent| <= |s.sent| + 2
  {
    var s1 := Session(s.stats[TotalStoriesProcessed := 1], s.sent);
    DeleteSingleStoryCorrectedContract(server, org, dryRun, s1, arcId);
  }

  /** `main` refuses to start unless an `arc_id` or a CSV file is given. */
  predicate ArgumentsAccepted(arcId: string, csvPath: string) {
    |arcId| > 0 || |csvPath| > 0
  }
}

=== FILE: fanout.dfy ===
/**
 The batch fan-out shared by the parallel processors. A processor submits a
 unit of work per item, chunk after chunk, and gathers what the units
 returned as they complete. Each unit either returns (possibly `None`) or
 raises; a unit may also update state shared with the caller (the counters
 of the script whose method it is).

 The model runs the units in submission order. Completion order inside a
 chunk is not defined by the source; `FlatMapPermutation` shows that what
 is gathered does not depend on it, as a multiset.
 */
module FanOut {
  import opened Wrappers
  import opened Utils

  /** How one submitted unit finished. */
  datatype Outcome<R> = Returned(value: Option<R>) | Raised(message: string)

  /** State after a sequence of units, and how each unit finished, in submission order. */
  datatype Run<S, R> = Run(state: S, outcomes: seq<Outcome<R>>)

  /** Concatenation of `f(x)` over `xs`. */
  function FlatMap<A, B>(f: A -> seq<B>, xs: seq<A>): seq<B>
    decreases |xs|
  {
    if |xs| == 0 then [] else f(xs[0]) + FlatMap(f, xs[1..])
  }

  lemma {:induction false} FlatMapAppend<A, B>(f: A -> seq<B>, xs: seq<A>, ys: seq<A>)
    ensures FlatMap(f, xs + ys) == FlatMap(f, xs) + FlatMap(f, ys)
    decreases |xs|
  {
    if |xs| == 0 {
      assert xs + ys == ys;
    } else {
      assert (xs + ys)[0] == xs[0];
      assert (xs + ys)[1..] == xs[1..] + ys;
      FlatMapAppend(f, xs[1..], ys);
    }
  }

  /** Removing the element at `i` removes one copy of it from the multiset. */
  lemma RemoveAtMultiset<A>(ys: seq<A>, i: nat)
    requires i < |ys|
    ensures multiset(ys[..i] + ys[i + 1..]) == multiset(ys) - multiset{ys[i]}
  {
    assert ys == ys[..i] + [ys[i]] + ys[i + 1..];
  }

  /** `FlatMap` around the element at `i`. */
  lemma FlatMapAt<A, B>(f: A -> seq<B>, ys: seq<A>, i: nat)
    requires i < |ys|
    ensures FlatMap(f, ys) == FlatMap(f, ys[..i]) + f(ys[i]) + FlatMap(f, ys[i + 1..])
    ensures FlatMap(f, ys[..i] + ys[i + 1..]) == FlatMap(f, ys[..i]) + FlatMap(f, ys[i + 1..])
  {
    FlatMapAround(f, ys, i);
    FlatMapAppend(f, ys[..i], ys[i + 1..]);
  }

  /** `FlatMap` of a sequence split around the element at `i`. */
  lemma FlatMapAround<A, B>(f: A -> seq<B>, ys: seq<A>, i: nat)
    requires i < |ys|
    ensures FlatMap(f, ys) == FlatMap(f, ys[..i]) + f(ys[i]) + FlatMap(f, ys[i + 1..])
  {
    var a, b := ys[..i], ys[i + 1..];
    var fa, fb := FlatMap(f, a), FlatMap(f, b);
    SplitAt(ys, i);
    calc {
      FlatMap(f, ys);
      FlatMap(f, a + ([ys[i]] + b));
      { FlatMapAppend(f, a, [ys[i]] + b); }
      fa + FlatMap(f, [ys[i]] + b);
      { FlatMapCons(f, ys[i], b); }
      fa + (f(ys[i]) + fb);
      { Regroup(fa, f(ys[i]), fb); }
      fa + f(ys[i]) + fb;
    }
  }

  /** A sequence is its part before `i`, its element at `i`, and its part after. */
  lemma SplitAt<A>(ys: seq<A>, i: nat)
    requires i < |ys|
    ensures ys == ys[..i] + ([ys[i]] + ys[i + 1..])
  {
  }

  /** Concatenation regroups. */
  lemma Regroup<B>(a: seq<B>, b: seq<B>, c: seq<B>)
    ensures a + (b + c) == a + b + c
  {
  }

  lemma FlatMapCons<A, B>(f: A -> seq<B>, x: A, xs: seq<A>)
    ensures FlatMap(f, [x] + xs) == f(x) + FlatMap(f, xs)
  {
    assert ([x] + xs)[1..] == xs;
  }

  /** Reordering the inputs reorders the output: the multiset gathered is the same. */
  lemma {:induction false} FlatMapPermutation<A, B>(f: A -> seq<B>, xs: seq<A>, ys: seq<A>)
    requires multiset(xs) == multiset(ys)
    ensures multiset(FlatMap(f, xs)) == multiset(FlatMap(f, ys))
    decreases |xs|
  {
    if |xs| == 0 {
      assert |ys| == |multiset(ys)| == 0;
    } else {
      var x := xs[0];
      assert x in multiset(ys) by {
        assert x in multiset(xs);
      }
      var i :| 0 <= i < |ys| && ys[i] == x;
      var tail := xs[1..];
      var rest := ys[..i] + ys[i + 1..];
      assert multiset(tail) == multiset(rest) by {
        RemoveAtMultiset(ys, i);
        assert xs == [x] + tail;
        assert multiset(xs) == multiset{x} + multiset(tail);
      }
      FlatMapPermutation(f, tail, rest);
      FlatMapAt(f, ys, i);
      assert FlatMap(f, xs) == f(x) + FlatMap(f, tail);
      var mt := multiset(FlatMap(f, ys[..i]));
      var mu := multiset(FlatMap(f, ys[i + 1..]));
      assert multiset(FlatMap(f, ys)) == mt + multiset(f(x)) + mu;
      assert multiset(FlatMap(f, rest)) == mt + mu;
    }
  }

  /** What a completed unit contributes to the gathered results: its value unless `None` or raised. */
  function Picked<R>(o: Outcome<R>): (r: seq<R>)
    ensures |r| <= 1
    ensures |r| == 1 <==> o.Returned? && o.value.Some?
    ensures |r| == 1 ==> r[0] == o.value.value
  {
    if o.Returned? && o.value.Some? then [o.value.value] else []
  }

  /** `if result is not None: results.append(result)`, with raising units logged and dropped. */
  function Collect<R>(outcomes: seq<Outcome<R>>): seq<R> {
    FlatMap(Picked, outcomes)
  }

  /** A value is gathered exactly when some unit returned it. */
  lemma {:induction false} CollectMember<R>(outcomes: seq<Outcome<R>>, v: R)
    ensures v in Collect(outcomes) <==> Returned(Some(v)) in outcomes
    decreases |outcomes|
  {
    if |outcomes| > 0 {
      CollectMember(outcomes[1..], v);
      assert outcomes == [outcomes[0]] + outcomes[1..];
    }
  }

  /** At most one result per unit. */
  lemma {:induction false} CollectLength<R>(outcomes: seq<Outcome<R>>)
    ensures |Collect(outcomes)| <= |outcomes|
    decreases |outcomes|
  {
    if |outcomes| > 0 {
      CollectLength(outcomes[1..]);
    }
  }

  /** Counts the units that returned a value, i.e. the size of the gathered list. */
  lemma {:induction false} CollectCount<R>(outcomes: seq<Outcome<R>>)
    ensures (forall k :: 0 <= k < |outcomes| ==> outcomes[k].Returned? && outcomes[k].value.Some?)
            ==> |Collect(outcomes)| == |outcomes|
    decreases |outcomes|
  {
    if |outcomes| > 0 {
      CollectCount(outcomes[1..]);
    }
  }

  /** Runs the units one after another from state `s`. */
  function RunUnits<S, I, R>(unit: (S, I) -> (S, Outcome<R>), s: S, items: seq<I>): (r: Run<S, R>)
    ensures |r.outcomes| == |items|
    decreases |items|
  {
    if |items| == 0 then Run(s, [])
    else
      var (s1, o) := unit(s, items[0]);
      var rest := RunUnits(unit, s1, items[1..]);
      Run(rest.state, [o] + rest.outcomes)
  }

  /** Running `a + b` is running `a` and then `b` from where `a` left the state. */
  lemma {:induction false} RunUnitsAppend<S, I, R>(unit: (S, I) -> (S, Outcome<R>), s: S, a: seq<I>, b: seq<I>)
    ensures var ra := RunUnits(unit, s, a);
            var rb := RunUnits(unit, ra.state, b);
            RunUnits(unit, s, a + b) == Run(rb.state, ra.outcomes + rb.outcomes)
    decreases |a|
  {
    if |a| == 0 {
      assert a + b == b;
    } else {
      assert (a + b)[0] == a[0];
      assert (a + b)[1..] == a[1..] + b;
      var (s1, o) := unit(s, a[0]);
      RunUnitsAppend(unit, s1, a[1..], b);
    }
  }

  /** Units that ignore the shared state finish the way `f` says, item by item. */
  lemma {:induction false} RunUnitsStateless<S, I, R>(unit: (S, I) -> (S, Outcome<R>), f: I -> Outcome<R>, s: S, items: seq<I>)
    requires forall t: S, i: I :: unit(t, i) == (t, f(i))
    ensures RunUnits(unit, s, items) == Run(s, seq(|items|, k requires 0 <= k < |items| => f(items[k])))
    decreases |items|
  {
    if |items| > 0 {
      RunUnitsStateless(unit, f, s, items[1..]);
    }
  }

  /** One chunk after another: each chunk runs to completion before the next one starts. */
  function RunChunks<S, I, R>(unit: (S, I) -> (S, Outcome<R>), s: S, chunks: seq<seq<I>>): (r: Run<S, R>)
    decreases |chunks|
  {
    if |chunks| == 0 then Run(s, [])
    else
      var first := RunUnits(unit, s, chunks[0]);
      var rest := RunChunks(unit, first.state, chunks[1..]);
      Run(rest.state, first.outcomes + rest.outcomes)
  }

  /** Chunking changes nothing about which units run, in which order, or what they produce. */
  lemma {:induction false} RunChunksFlat<S, I, R>(unit: (S, I) -> (S, Outcome<R>), s: S, chunks: seq<seq<I>>)
    ensures RunChunks(unit, s, chunks) == RunUnits(unit, s, Flatten(chunks))
    decreases |chunks|
  {
    if |chunks| > 0 {
      var first := RunUnits(unit, s, chunks[0]);
      RunChunksFlat(unit, first.state, chunks[1..]);
      RunUnitsAppend(unit, s, chunks[0], Flatten(chunks[1..]));
    }
  }

  /** `str(e)` of the `ValueError` that `range(0, n, 0)` raises: a zero chunk size stops a run before any unit. */
  const ZeroStep := "range() arg 3 must not be zero"

  /**
   `for i in range(0, len(items), chunk_size)` with a fresh pool per chunk:
   what runs is exactly every item once, in order (nothing when the chunk
   size is negative).
   */
  function RunInChunks<S, I, R>(unit: (S, I) -> (S, Outcome<R>), s: S, items: seq<I>, chunkSize: int): (r: Run<S, R>)
    requires chunkSize != 0
    ensures chunkSize > 0 ==> r == RunUnits(unit, s, items)
    ensures chunkSize < 0 ==> r == Run(s, [])
  {
    var chunks := ChunkList(items, chunkSize);
    RunChunksFlat(unit, s, chunks);
    RunChunks(unit, s, chunks)
  }

  /**
   `process_photos_parallel` / `process_lightboxes_parallel`: the gathered
   results and the shared state the units left behind.
   */
  function ProcessParallel<S, I, R>(unit: (S, I) -> (S, Outcome<R>), s: S, items: seq<I>, chunkSize: int): (r: (S, seq<R>))
    requires chunkSize != 0
    ensures chunkSize > 0 ==> r.0 == RunUnits(unit, s, items).state
    ensures chunkSize > 0 ==> r.1 == Collect(RunUnits(unit, s, items).outcomes)
    ensures chunkSize > 0 ==> |r.1| <= |items|
    ensures chunkSize < 0 ==> r == (s, [])
  {
    var run := RunInChunks(unit, s, items, chunkSize);
    CollectLength(run.outcomes);
    (run.state, Collect(run.outcomes))
  }

  /** An element is produced exactly when some input's image holds it. */
  lemma {:induction false} FlatMapMember<A, B>(f: A -> seq<B>, xs: seq<A>, y: B)
    ensures y in FlatMap(f, xs) <==> exists k :: 0 <= k < |xs| && y in f(xs[k])
    decreases |xs|
  {
    if |xs| > 0 {
      FlatMapMember(f, xs[1..], y);
      if y in FlatMap(f, xs[1..]) {
        var k :| 0 <= k < |xs[1..]| && y in f(xs[1..][k]);
        assert y in f(xs[k + 1]);
      }
      if exists k :: 0 <= k < |xs| && y in f(xs[k]) {
        var k :| 0 <= k < |xs| && y in f(xs[k]);
        if k > 0 {
          assert y in f(xs[1..][k - 1]);
        }
      }
    }
  }

  /** Units whose completion order differs gather the same multiset of results. */
  lemma CollectPermutation<R>(outcomes: seq<Outcome<R>>, completed: seq<Outcome<R>>)
    requires multiset(outcomes) == multiset(completed)
    ensures multiset(Collect(outcomes)) == multiset(Collect(completed))
  {
    FlatMapPermutation(Picked, outcomes, completed);
  }

  /** What a completed range adds with `all_results.extend(result)`: its list, nothing if it raised. */
  function Extended<R>(o: Outcome<seq<R>>): (r: seq<R>)
    ensures o.Raised? ==> r == []
  {
    if o.Returned? && o.value.Some? then o.value.value else []
  }

  /**
   `process_ranges_parallel`: every range is fetched and the lists of the
   ranges that did not raise are concatenated.
   */
  function ProcessRanges<I, R>(fetch: I -> Outcome<seq<R>>, ranges: seq<I>): (r: seq<R>)
    ensures (forall k :: 0 <= k < |ranges| ==> fetch(ranges[k]).Raised?) ==> r == []
    decreases |ranges|
  {
    if |ranges| == 0 then []
    else Extended(fetch(ranges[0])) + ProcessRanges(fetch, ranges[1..])
  }

  /**
   A record is in the result exactly when some range returned it, and the
   multiset of records does not depend on the order in which ranges complete.
   */
  lemma ProcessRangesContents<I, R>(fetch: I -> Outcome<seq<R>>, ranges: seq<I>, completed: seq<I>, y: R)
    requires multiset(ranges) == multiset(completed)
    ensures y in ProcessRanges(fetch, ranges) <==>
              exists k :: 0 <= k < |ranges| && fetch(ranges[k]).Returned? && fetch(ranges[k]).value.Some?
                                            && y in fetch(ranges[k]).value.value
    ensures multiset(ProcessRanges(fetch, ranges)) == multiset(ProcessRanges(fetch, completed))
  {
    var g := (i: I) => Extended(fetch(i));
    ProcessRangesIsFlatMap(fetch, ranges);
    ProcessRangesIsFlatMap(fetch, completed);
    FlatMapMember(g, ranges, y);
    FlatMapPermutation(g, ranges, completed);
  }

  lemma {:induction false} ProcessRangesIsFlatMap<I, R>(fetch: I -> Outcome<seq<R>>, ranges: seq<I>)
    ensures ProcessRanges(fetch, ranges) == FlatMap((i: I) => Extended(fetch(i)), ranges)
    decreases |ranges|
  {
    if |ranges| > 0 {
      ProcessRangesIsFlatMap(fetch, ranges[1..]);
    }
  }

  /** `items[:n]`. */
  function Take<T>(items: seq<T>, n: nat): (r: seq<T>)
    ensures |r| == if |items| < n then |items| else n
    ensures r <= items
  {
    if |items| <= n then items else items[..n]
  }

  /** Taking the same prefix twice changes nothing. */
  lemma TakeTake<T>(xs: seq<T>, n: nat)
    ensures Take(Take(xs, n), n) == Take(xs, n)
  {
  }

  /** `candidates[i]` beats every candidate and strictly beats every earlier one. */
  predicate FirstBest(candidates: seq<nat>, score: nat -> real, i: nat) {
    i < |candidates| && score(candidates[i]) > 0.0
    && (forall j :: 0 <= j < |candidates| ==> score(candidates[j]) <= score(candidates[i]))
    && (forall j :: 0 <= j < i ==> score(candidates[j]) < score(candidates[i]))
  }

  /**
   The `optimize_worker_count` rule: starting from `default` with best score
   0, a candidate replaces the best only when its benchmark score is strictly
   higher. The scores (items per second measured on a sample) are `score`.
   */
  method ChooseWorkers(candidates: seq<nat>, default: nat, score: nat -> real) returns (best: nat)
    ensures best == default || best in candidates
    ensures (forall i :: 0 <= i < |candidates| ==> score(candidates[i]) <= 0.0) ==> best == default
    ensures (exists i :: 0 <= i < |candidates| && score(candidates[i]) > 0.0) ==>
              exists i: nat :: FirstBest(candidates, score, i) && candidates[i] == best
  {
    best := default;
    var bestScore := 0.0;
    ghost var bestIndex := -1;
    var k := 0;
    while k < |candidates|
      invariant 0 <= k <= |candidates|
      invariant -1 <= bestIndex < k
      invariant bestIndex == -1 ==> best == default && bestScore == 0.0
      invariant bestIndex == -1 ==> forall j :: 0 <= j < k ==> score(candidates[j]) <= 0.0
      invariant bestIndex >= 0 ==> candidates[bestIndex] == best && bestScore == score(best) && bestScore > 0.0
      invariant bestIndex >= 0 ==> forall j :: 0 <= j < k ==> score(candidates[j]) <= bestScore
      invariant bestIndex >= 0 ==> forall j :: 0 <= j < bestIndex ==> score(candidates[j]) < bestScore
    {
      var w := candidates[k];
      if score(w) > bestScore {
        best := w;
        bestScore := score(w);
        bestIndex := k;
      }
      k := k + 1;
    }
    if bestIndex >= 0 {
      assert FirstBest(candidates, score, bestIndex);
    }
  }
}

=== FILE: photo_analysis.dfy ===
/**
 The published-photo analysis proper: every candidate photo goes through
 three checks in turn (published references, gallery use found by
 full-text search, lightboxes); a photo any check finds is preserved and
 leaves the candidate list, and what is left is the list of photos to
 delete. The two CSV reports and the driver `doit` follow.

 Each check is an oracle `Value -> Option<Found>`: the HTTP calls, the
 SQLite lightbox cache and the error logging behind them are not modelled
 (every error inside a check is logged and read as "not found").
 */
module PhotoAnalysis {
  import opened Wrappers
  import opened Records
  import opened Text
  import opened FanOut
  import opened Utils
  import opened PhotoQuery

  /** Where a check found a photo: the location label and the website text. */
  datatype Found = Found(location: string, website: string)

  /** A row of the preserved report (`ReportItem`). */
  datatype ReportItem = ReportItem(ansId: Value, location: string, sourceId: string, website: string)

  /** One of the three checks. */
  type Check = Value -> Option<Found>

  /** `list.remove(x)`: the first occurrence of `x` goes, and only it. */
  function RemoveFirst(xs: seq<Value>, x: Value): (r: seq<Value>)
    requires x in xs
    ensures |r| == |xs| - 1
    ensures multiset(r) == multiset(xs) - multiset{x}
    ensures var i := FirstIndex(xs, x); r == xs[..i] + xs[i + 1..]
  {
    var i := FirstIndex(xs, x);
    RemoveAtMultiset(xs, i);
    xs[..i] + xs[i + 1..]
  }

  /** What the check of one photo hands back to the pool: the photo with where it was found, or nothing. */
  function Probe(check: Check, id: Value): (o: Outcome<(Value, Found)>)
    ensures o.Returned?
    ensures o.value.Some? <==> check(id).Some?
    ensures o.value.Some? ==> o.value.value == (id, check(id).value)
  {
    Returned(if check(id).Some? then Some((id, check(id).value)) else None)
  }

  /** The check as a pool unit; it shares no state. */
  function PoolUnit(check: Check): ((), Value) -> ((), Outcome<(Value, Found)>) {
    (s: (), id: Value) => (s, Probe(check, id))
  }

  /** The photos a check finds, each with where, in list order (one entry per occurrence). */
  function Hits(check: Check, ids: seq<Value>): (r: seq<(Value, Found)>)
    ensures forall h :: h in r ==> check(h.0) == Some(h.1)
    decreases |ids|
  {
    if |ids| == 0 then []
    else
      var rest := Hits(check, ids[1..]);
      if check(ids[0]).Some? then [(ids[0], check(ids[0]).value)] + rest else rest
  }

  /** The gathered results of a positive-chunk run are the hits. */
  lemma {:induction false} CollectProbes(check: Check, ids: seq<Value>)
    ensures Collect(seq(|ids|, k requires 0 <= k < |ids| => Probe(check, ids[k]))) == Hits(check, ids)
    decreases |ids|
  {
    if |ids| > 0 {
      var os := seq(|ids|, k requires 0 <= k < |ids| => Probe(check, ids[k]));
      CollectProbes(check, ids[1..]);
      assert os[1..] == seq(|ids[1..]|, k requires 0 <= k < |ids[1..]| => Probe(check, ids[1..][k]));
    }
  }

  /** `process_photos_parallel(check, ids, batch_size)` with a positive batch size gathers exactly the hits. */
  lemma StageGathersHits(check: Check, ids: seq<Value>, batchSize: int)
    requires batchSize > 0
    ensures ProcessParallel(PoolUnit(check), (), ids, batchSize).1 == Hits(check, ids)
  {
    RunUnitsStateless(PoolUnit(check), (id: Value) => Probe(check, id), (), ids);
    CollectProbes(check, ids);
  }

  /** The ids of some hits. */
  function HitIds(hits: seq<(Value, Found)>): (r: seq<Value>)
    ensures |r| == |hits|
    ensures forall k :: 0 <= k < |hits| ==> r[k] == hits[k].0
  {
    seq(|hits|, k requires 0 <= k < |hits| => hits[k].0)
  }

  /** The ids of the hits: the first id when the check finds it, then the ids of the rest's hits. */
  lemma HitIdsStep(check: Check, ids: seq<Value>)
    requires |ids| > 0
    ensures HitIds(Hits(check, ids)) == (if check(ids[0]).Some? then [ids[0]] else []) + HitIds(Hits(check, ids[1..]))
  {
    var h := Hits(check, ids);
    var rest := Hits(check, ids[1..]);
    if check(ids[0]).Some? {
      assert h == [(ids[0], check(ids[0]).value)] + rest;
      var b := [ids[0]] + HitIds(rest);
      forall k | 0 <= k < |h|
        ensures HitIds(h)[k] == b[k]
      {
        if k > 0 {
          assert h[k] == rest[k - 1];
        }
      }
    } else {
      assert h == rest;
    }
  }

  /** A check finds every occurrence of a photo it finds at all, and no other. */
  lemma {:induction false} HitsCount(check: Check, ids: seq<Value>, x: Value)
    ensures multiset(HitIds(Hits(check, ids)))[x] == if check(x).Some? then multiset(ids)[x] else 0
    decreases |ids|
  {
    if |ids| > 0 {
      HitsCount(check, ids[1..], x);
      HitIdsStep(check, ids);
      assert ids == [ids[0]] + ids[1..];
      var head := if check(ids[0]).Some? then [ids[0]] else [];
      assert multiset(HitIds(Hits(check, ids))) == multiset(head) + multiset(HitIds(Hits(check, ids[1..])));
    }
  }

  /** The state of the analysis between hits: the candidates left, the rows preserved, this stage's counter. */
  datatype Tally = Tally(remaining: seq<Value>, preserved: seq<ReportItem>, count: nat)

  /**
   One pass of the loop over a stage's results: a found photo still in the
   list is removed (first occurrence), gets a preserved row with the
   analysis's source id, and counts; one already removed is skipped.
   */
  function Step(t: Tally, hit: (Value, Found), source: string): (r: Tally)
    ensures hit.0 in t.remaining ==>
              r == Tally(RemoveFirst(t.remaining, hit.0), t.preserved + [ReportItem(hit.0, hit.1.location, source, hit.1.website)], t.count + 1)
    ensures hit.0 !in t.remaining ==> r == t
  {
    if hit.0 in t.remaining
    then Tally(RemoveFirst(t.remaining, hit.0), t.preserved + [ReportItem(hit.0, hit.1.location, source, hit.1.website)], t.count + 1)
    else t
  }

  /** The loop over all of a stage's results, in the order they completed. */
  function Absorb(t: Tally, hits: seq<(Value, Found)>, source: string): (r: Tally)
    ensures |r.remaining| + |r.preserved| == |t.remaining| + |t.preserved|
    ensures r.count + |t.preserved| == t.count + |r.preserved|
    ensures t.preserved <= r.preserved
    decreases |hits|
  {
    if |hits| == 0 then t else Absorb(Step(t, hits[0], source), hits[1..], source)
  }

  /** The ids of some report rows. */
  function RowIds(rows: seq<ReportItem>): (r: seq<Value>)
    ensures |r| == |rows|
    ensures forall k :: 0 <= k < |rows| ==> r[k] == rows[k].ansId
  {
    seq(|rows|, k requires 0 <= k < |rows| => rows[k].ansId)
  }

  /** One pass moves at most one photo from the list into the preserved rows. */
  lemma StepConserves(t: Tally, hit: (Value, Found), source: string)
    ensures var r := Step(t, hit, source);
            multiset(r.remaining) + multiset(RowIds(r.preserved)) == multiset(t.remaining) + multiset(RowIds(t.preserved))
  {
    if hit.0 in t.remaining {
      var r := Step(t, hit, source);
      assert RowIds(r.preserved) == RowIds(t.preserved) + [hit.0];
    }
  }

  /** Absorbing moves photos from the list into the preserved rows: none is lost or invented. */
  lemma {:induction false} AbsorbConserves(t: Tally, hits: seq<(Value, Found)>, source: string)
    ensures var r := Absorb(t, hits, source);
            multiset(r.remaining) + multiset(RowIds(r.preserved)) == multiset(t.remaining) + multiset(RowIds(t.preserved))
    decreases |hits|
  {
    if |hits| > 0 {
      StepConserves(t, hits[0], source);
      AbsorbConserves(Step(t, hits[0], source), hits[1..], source);
    }
  }

  /** `max(0, n)`. */
  function Floor0(n: int): nat {
    if n < 0 then 0 else n
  }

  /** One pass takes away one occurrence of the photo it names, if any is left. */
  lemma StepCount(t: Tally, hit: (Value, Found), source: string, x: Value)
    ensures multiset(Step(t, hit, source).remaining)[x]
         == if hit.0 == x then Floor0(multiset(t.remaining)[x] as int - 1) else multiset(t.remaining)[x]
  {
  }

  /** The first hit's id counts once more than the rest. */
  lemma HitIdsCount(hits: seq<(Value, Found)>, x: Value)
    requires |hits| > 0
    ensures multiset(HitIds(hits))[x] == multiset(HitIds(hits[1..]))[x] + if hits[0].0 == x then 1 else 0
  {
    assert HitIds(hits) == [hits[0].0] + HitIds(hits[1..]);
    assert multiset(HitIds(hits)) == multiset([hits[0].0]) + multiset(HitIds(hits[1..]));
  }

  /** Absorbing takes away as many occurrences of a photo as it was found, and never more than the list held. */
  lemma {:induction false} AbsorbCount(t: Tally, hits: seq<(Value, Found)>, source: string, x: Value)
    ensures multiset(Absorb(t, hits, source).remaining)[x]
         == Floor0(multiset(t.remaining)[x] as int - multiset(HitIds(hits))[x] as int)
    decreases |hits|
  {
    if |hits| > 0 {
      var t1 := Step(t, hits[0], source);
      HitIdsCount(hits, x);
      StepCount(t, hits[0], source, x);
      AbsorbCount(t1, hits[1..], source, x);
      AbsorbFirst(t, hits, source);
      CountAfterStep(multiset(t.remaining)[x], multiset(t1.remaining)[x], multiset(HitIds(hits[1..]))[x],
                     multiset(HitIds(hits))[x], hits[0].0 == x);
    } else {
      assert HitIds(hits) == [];
      assert Absorb(t, hits, source) == t;
    }
  }

  /** Absorbing starts with the first hit. */
  lemma AbsorbFirst(t: Tally, hits: seq<(Value, Found)>, source: string)
    requires |hits| > 0
    ensures Absorb(t, hits, source) == Absorb(Step(t, hits[0], source), hits[1..], source)
  {
  }

  /**
   The count arithmetic of one pass: with `after` left by the pass and
   `later` occurrences still to come, flooring once at the end is the same
   as counting all of them.
   */
  lemma CountAfterStep(before: nat, after: nat, later: nat, total: nat, same: bool)
    requires after == if same then Floor0(before as int - 1) else before
    requires total == later + if same then 1 else 0
    ensures Floor0(after as int - later as int) == Floor0(before as int - total as int)
  {
  }

  /** Every row absorbing adds carries the analysis's source id and what a hit reported. */
  lemma {:induction false} AbsorbRows(t: Tally, hits: seq<(Value, Found)>, source: string, k: nat)
    requires |t.preserved| <= k < |Absorb(t, hits, source).preserved|
    ensures var row := Absorb(t, hits, source).preserved[k];
            row.sourceId == source && (row.ansId, Found(row.location, row.website)) in hits
    decreases |hits|
  {
    var t1 := Step(t, hits[0], source);
    var r := Absorb(t1, hits[1..], source);
    if k < |t1.preserved| {
      assert r.preserved[k] == t1.preserved[k];
    } else {
      AbsorbRows(t1, hits[1..], source, k);
      var y := (r.preserved[k].ansId, Found(r.preserved[k].location, r.preserved[k].website));
      var j :| 0 <= j < |hits[1..]| && hits[1..][j] == y;
      assert hits[j + 1] == y;
    }
  }

  /** One stage: the check runs on every photo left, then its hits are absorbed with a fresh counter. */
  function RunStage(check: Check, t: Tally, source: string, batchSize: int): (r: Tally)
    requires batchSize != 0
    ensures |r.remaining| + |r.preserved| == |t.remaining| + |t.preserved|
    ensures r.count + |t.preserved| == |r.preserved|
    ensures t.preserved <= r.preserved
  {
    Absorb(Tally(t.remaining, t.preserved, 0), ProcessParallel(PoolUnit(check), (), t.remaining, batchSize).1, source)
  }

  /** After a stage with a positive batch size, a photo is left exactly as often as before if the check misses it, and not at all otherwise. */
  lemma StageCount(check: Check, t: Tally, source: string, batchSize: int, x: Value)
    requires batchSize > 0
    ensures multiset(RunStage(check, t, source, batchSize).remaining)[x] == if check(x).Some? then 0 else multiset(t.remaining)[x]
  {
    var hits := ProcessParallel(PoolUnit(check), (), t.remaining, batchSize).1;
    assert RunStage(check, t, source, batchSize) == Absorb(Tally(t.remaining, t.preserved, 0), hits, source);
    StageGathersHits(check, t.remaining, batchSize);
    AbsorbHitsCount(check, t, source, x);
  }

  /** Absorbing a check's hits leaves a photo as often as before if the check misses it, and not at all otherwise. */
  lemma AbsorbHitsCount(check: Check, t: Tally, source: string, x: Value)
    ensures multiset(Absorb(Tally(t.remaining, t.preserved, 0), Hits(check, t.remaining), source).remaining)[x]
         == if check(x).Some? then 0 else multiset(t.remaining)[x]
  {
    var hits := Hits(check, t.remaining);
    HitsCount(check, t.remaining, x);
    AbsorbCount(Tally(t.remaining, t.preserved, 0), hits, source, x);
    var m := multiset(t.remaining)[x] as int;
    var c := multiset(HitIds(hits))[x] as int;
    if check(x).Some? {
      assert c == m && Floor0(m - c) == 0;
    } else {
      assert c == 0 && Floor0(m - c) == m;
    }
  }

  /** A stage moves photos from the list into the preserved rows. */
  lemma StageConserves(check: Check, t: Tally, source: string, batchSize: int)
    requires batchSize != 0
    ensures var r := RunStage(check, t, source, batchSize);
            multiset(r.remaining) + multiset(RowIds(r.preserved)) == multiset(t.remaining) + multiset(RowIds(t.preserved))
  {
    AbsorbConserves(Tally(t.remaining, t.preserved, 0), ProcessParallel(PoolUnit(check), (), t.remaining, batchSize).1, source);
  }

  /** A row a stage adds names a photo its check found there, with the analysis's source id. */
  lemma StageRows(check: Check, t: Tally, source: string, batchSize: int, k: nat)
    requires batchSize > 0
    requires |t.preserved| <= k < |RunStage(check, t, source, batchSize).preserved|
    ensures var row := RunStage(check, t, source, batchSize).preserved[k];
            row.sourceId == source && check(row.ansId) == Some(Found(row.location, row.website))
  {
    StageGathersHits(check, t.remaining, batchSize);
    AbsorbRows(Tally(t.remaining, t.preserved, 0), Hits(check, t.remaining), source, k);
  }

  /** The later stages run only while photos are left. */
  function NextStage(check: Check, t: Tally, source: string, batchSize: int): (r: Tally)
    requires batchSize != 0
    ensures |t.remaining| == 0 ==> r == Tally(t.remaining, t.preserved, 0)
  {
    if |t.remaining| > 0 then RunStage(check, t, source, batchSize) else Tally(t.remaining, t.preserved, 0)
  }

  /** What the analysis leaves: the photos to delete, the preserved rows, and the three per-stage counters. */
  datatype Analysis = Analysis(toDelete: seq<Value>, preserved: seq<ReportItem>, inStories: nat, inGalleries: nat, inLightbox: nat)

  /** The three stage results, for a non-empty list and a non-zero batch size. */
  function Stages(refs: Check, fulltext: Check, lightbox: Check, images: seq<Value>, source: string, batchSize: int): (r: (Tally, Tally, Tally))
    requires batchSize != 0
  {
    var s1 := RunStage(refs, Tally(images, [], 0), source, batchSize);
    var s2 := NextStage(fulltext, s1, source, batchSize);
    var s3 := NextStage(lightbox, s2, source, batchSize);
    (s1, s2, s3)
  }

  /**
   `process_photos_analysis`: nothing to do for an empty list; a zero batch
   size makes the chunking `range` raise; otherwise the three stages run
   and the counters are kept per stage.
   */
  function Analyze(refs: Check, fulltext: Check, lightbox: Check, images: seq<Value>, source: string, batchSize: int): (r: Result<Analysis>)
    ensures r.Err? <==> |images| > 0 && batchSize == 0
    ensures |images| == 0 ==> r == Ok(Analysis([], [], 0, 0, 0))
    ensures r.Ok? ==> |r.value.toDelete| + |r.value.preserved| == |images|
    ensures r.Ok? ==> r.value.inStories + r.value.inGalleries + r.value.inLightbox == |r.value.preserved|
  {
    if |images| == 0 then Ok(Analysis([], [], 0, 0, 0))
    else if batchSize == 0 then Err("ValueError: " + ZeroStep)
    else
      var (s1, s2, s3) := Stages(refs, fulltext, lightbox, images, source, batchSize);
      Ok(Analysis(s3.remaining, s3.preserved, s1.count, s2.count, s3.count))
  }

  /** A photo found by any check. */
  predicate InUse(refs: Check, fulltext: Check, lightbox: Check, x: Value) {
    refs(x).Some? || fulltext(x).Some? || lightbox(x).Some?
  }

  /**
   The photos to delete and the preserved rows split the candidate list:
   together they hold every candidate as often as the list did.
   */
  lemma AnalyzeConserves(refs: Check, fulltext: Check, lightbox: Check, images: seq<Value>, source: string, batchSize: int)
    requires Analyze(refs, fulltext, lightbox, images, source, batchSize).Ok?
    ensures var a := Analyze(refs, fulltext, lightbox, images, source, batchSize).value;
            multiset(a.toDelete) + multiset(RowIds(a.preserved)) == multiset(images)
  {
    if |images| > 0 {
      var (s1, s2, s3) := Stages(refs, fulltext, lightbox, images, source, batchSize);
      StageConserves(refs, Tally(images, [], 0), source, batchSize);
      if |s1.remaining| > 0 { StageConserves(fulltext, s1, source, batchSize); }
      if |s2.remaining| > 0 { StageConserves(lightbox, s2, source, batchSize); }
    }
  }

  /**
   With a positive batch size a candidate is marked for deletion exactly
   when no check finds it, and then every occurrence of it is.
   */
  lemma AnalyzeDeletesExactlyUnused(refs: Check, fulltext: Check, lightbox: Check, images: seq<Value>, source: string,
                                    batchSize: int, x: Value)
    requires batchSize > 0
    ensures var a := Analyze(refs, fulltext, lightbox, images, source, batchSize).value;
            multiset(a.toDelete)[x] == if InUse(refs, fulltext, lightbox, x) then 0 else multiset(images)[x]
    ensures var a := Analyze(refs, fulltext, lightbox, images, source, batchSize).value;
            x in a.toDelete <==> x in images && !InUse(refs, fulltext, lightbox, x)
  {
    if |images| > 0 {
      var (s1, s2, s3) := Stages(refs, fulltext, lightbox, images, source, batchSize);
      StageCount(refs, Tally(images, [], 0), source, batchSize, x);
      if |s1.remaining| > 0 { StageCount(fulltext, s1, source, batchSize, x); }
      if |s2.remaining| > 0 { StageCount(lightbox, s2, source, batchSize, x); }
    }
  }

  /**
   Every preserved row carries the analysis's source id and what one of
   the checks reported for its photo: the rows of the first stage come
   from the reference check, and so on.
   */
  lemma AnalyzePreservedRows(refs: Check, fulltext: Check, lightbox: Check, images: seq<Value>, source: string,
                             batchSize: int, k: nat)
    requires batchSize > 0
    requires k < |Analyze(refs, fulltext, lightbox, images, source, batchSize).value.preserved|
    ensures var a := Analyze(refs, fulltext, lightbox, images, source, batchSize).value;
            var row := a.preserved[k];
            row.sourceId == source
            && (k < a.inStories ==> refs(row.ansId) == Some(Found(row.location, row.website)))
            && (a.inStories <= k < a.inStories + a.inGalleries ==> fulltext(row.ansId) == Some(Found(row.location, row.website)))
            && (a.inStories + a.inGalleries <= k ==> lightbox(row.ansId) == Some(Found(row.location, row.website)))
  {
    var (s1, s2, s3) := Stages(refs, fulltext, lightbox, images, source, batchSize);
    assert s3.preserved[k] == Analyze(refs, fulltext, lightbox, images, source, batchSize).value.preserved[k];
    if k < |s1.preserved| {
      assert s3.preserved[k] == s1.preserved[k];
      StageRows(refs, Tally(images, [], 0), source, batchSize, k);
    } else if k < |s2.preserved| {
      assert s3.preserved[k] == s2.preserved[k];
      StageRows(fulltext, s1, source, batchSize, k);
    } else {
      StageRows(lightbox, s2, source, batchSize, k);
    }
  }

  /** The marker of a sandbox organisation. */
  const Sandbox := "sandbox."

  /** `org.replace('sandbox.', '')`: the organisation as it appears in file names. */
  function OrgForFilename(org: string): (r: string)
    ensures !Contains(org, Sandbox) ==> r == org
  {
    ReplaceAll(org, Sandbox, "")
  }

  /**
   A sandbox organisation loses its first `sandbox.` and the text before it
   is kept: `org` splits as `a + "sandbox." + b` with no earlier occurrence,
   and the name is `a` followed by the name of `b`.
   */
  lemma OrgForFilenameSandbox(org: string)
    requires Contains(org, Sandbox)
    ensures exists a, b :: org == a + Sandbox + b && !Contains(a + Sandbox[..|Sandbox| - 1], Sandbox)
                           && OrgForFilename(org) == a + OrgForFilename(b)
  {
    var i := FirstOccurrence(org, Sandbox, "");
    SplitAround(org, Sandbox, i);
    var a, b := org[..i], org[i + |Sandbox|..];
    assert a + "" == a;
    assert org == a + Sandbox + b && !Contains(a + Sandbox[..|Sandbox| - 1], Sandbox)
           && OrgForFilename(org) == a + OrgForFilename(b);
  }

  /** The usual sandbox name: `sandbox.` in front of an organisation without another one. */
  lemma OrgForFilenameSandboxPrefix(name: string)
    requires !Contains(name, Sandbox)
    ensures OrgForFilename(Sandbox + name) == name
  {
    ReplaceAllFront(Sandbox, "", name);
  }

  /** The date part of the report names: today's date for a single photo, the range when both ends filter, else `all_dates`. */
  function DateSuffix(imageArcId: string, startDate: int, endDate: int, today: string): (s: string)
    ensures imageArcId != "" ==> s == today + ".csv"
    ensures imageArcId == "" && UseDateFilter(startDate, endDate) ==> s == IntToString(startDate) + "-" + IntToString(endDate) + ".csv"
    ensures imageArcId == "" && !UseDateFilter(startDate, endDate) ==> s == "all_dates.csv"
  {
    if imageArcId != "" then today + ".csv"
    else if UseDateFilter(startDate, endDate) then IntToString(startDate) + "-" + IntToString(endDate) + ".csv"
    else "all_dates.csv"
  }

  /** The name suffix, with `sandbox_` in front for a sandbox organisation. */
  function NameSuffix(org: string, imageArcId: string, startDate: int, endDate: int, today: string): (s: string)
    ensures Contains(org, Sandbox) ==> s == "sandbox_" + DateSuffix(imageArcId, startDate, endDate, today)
    ensures !Contains(org, Sandbox) ==> s == DateSuffix(imageArcId, startDate, endDate, today)
  {
    (if Contains(org, Sandbox) then "sandbox_" else "") + DateSuffix(imageArcId, startDate, endDate, today)
  }

  /** The two report paths under `spreadsheets/`: the preserved photos, then the photos to delete. */
  function ReportPaths(org: string, suffix: string): (r: seq<string>)
    ensures |r| == 2
  {
    ["spreadsheets/" + OrgForFilename(org) + "_" + "preserved" + "_photo_ids_" + suffix,
     "spreadsheets/" + OrgForFilename(org) + "_photo_ids_to_delete_" + suffix]
  }

  /**
   What writing one report file in append mode does: the rows appended
   (preserved rows, with a header only when the file was empty, or one id
   per line), and whether the file is kept (a file left empty is removed).
   */
  datatype Written = Written(path: string, header: bool, preservedRows: seq<ReportItem>, idRows: seq<Value>, kept: bool)

  /**
   One file of `write_csv_files`, `priorSize` being its size before the
   write: in the preserved branch the preserved rows go in when there are
   any, otherwise the ids to delete do when there are any.
   */
  function WriteFile(preservedBranch: bool, path: string, priorSize: nat, preserved: seq<ReportItem>,
                     toDelete: seq<Value>): (w: Written)
    ensures w.path == path
    ensures preservedBranch ==> w.idRows == [] && (w.preservedRows == preserved || w.preservedRows == [])
    ensures !preservedBranch ==> w.preservedRows == [] && !w.header && (w.idRows == toDelete || w.idRows == [])
    ensures w.header <==> preservedBranch && |preserved| > 0 && priorSize == 0
    ensures w.kept <==> priorSize > 0 || |w.preservedRows| + |w.idRows| > 0
  {
    if preservedBranch then
      if |preserved| > 0 then Written(path, priorSize == 0, preserved, [], true)
      else Written(path, false, [], [], priorSize > 0)
    else if |toDelete| > 0 then Written(path, false, [], toDelete, true)
    else Written(path, false, [], [], priorSize > 0)
  }

  /** `write_csv_files` as written: the branch is chosen by whether the path contains `preserved`. */
  function WriteCsvFilesAsWritten(org: string, suffix: string, sizes: string -> nat, preserved: seq<ReportItem>,
                                  toDelete: seq<Value>): (r: seq<Written>)
    ensures |r| == 2
    ensures forall k :: 0 <= k < 2 ==> r[k] == WriteFile(Contains(ReportPaths(org, suffix)[k], "preserved"),
                                                        ReportPaths(org, suffix)[k], sizes(ReportPaths(org, suffix)[k]),
                                                        preserved, toDelete)
  {
    var paths := ReportPaths(org, suffix);
    seq(2, k requires 0 <= k < 2 => WriteFile(Contains(paths[k], "preserved"), paths[k], sizes(paths[k]), preserved, toDelete))
  }

  /**
   `write_csv_files` with the branch chosen by which report is written:
   the preserved file gets the preserved rows, the other file the ids to
   delete, whatever the organisation is called.
   */
  function WriteCsvFiles(org: string, suffix: string, sizes: string -> nat, preserved: seq<ReportItem>,
                         toDelete: seq<Value>): (r: seq<Written>)
    ensures |r| == 2
    ensures r[0].path == ReportPaths(org, suffix)[0] && r[1].path == ReportPaths(org, suffix)[1]
    ensures r[0].idRows == [] && r[1].preservedRows == []
    ensures |preserved| > 0 ==> r[0].preservedRows == preserved && r[0].kept
    ensures |toDelete| > 0 ==> r[1].idRows == toDelete && r[1].kept
    ensures r[0].header <==> |preserved| > 0 && sizes(r[0].path) == 0
    ensures !r[1].header
    ensures |preserved| == 0 ==> (r[0].kept <==> sizes(r[0].path) > 0)
    ensures |toDelete| == 0 ==> (r[1].kept <==> sizes(r[1].path) > 0)
  {
    var paths := ReportPaths(org, suffix);
    [WriteFile(true, paths[0], sizes(paths[0]), preserved, toDelete),
     WriteFile(false, paths[1], sizes(paths[1]), preserved, toDelete)]
  }

  /**
   An organisation whose name starts with `preserved` sends the
   to-delete report down the preserved branch: with photos to delete and
   none preserved, the ids to delete are written nowhere, and the corrected
   writer writes them.
   */
  lemma AsWrittenPreservedOrgLosesDeletions(org: string, suffix: string, sizes: string -> nat, toDelete: seq<Value>)
    requires StartsWith(org, "preserved") && !Contains(org, Sandbox)
    requires |toDelete| > 0
    ensures var w := WriteCsvFilesAsWritten(org, suffix, sizes, [], toDelete);
            w[0].idRows == [] && w[1].idRows == []
    ensures WriteCsvFiles(org, suffix, sizes, [], toDelete)[1].idRows == toDelete
  {
    var paths := ReportPaths(org, suffix);
    PreservedPathContains(OrgForFilename(org), suffix);
    PreservedOrgPathContains(org, suffix);
    var w := WriteCsvFilesAsWritten(org, suffix, sizes, [], toDelete);
    assert w[0] == WriteFile(true, paths[0], sizes(paths[0]), [], toDelete);
    assert w[1] == WriteFile(true, paths[1], sizes(paths[1]), [], toDelete);
  }

  /**
   The two writers differ only through the to-delete report's path: when it
   does not contain `preserved`, `write_csv_files` as written writes exactly
   what the corrected writer does.
   */
  lemma AsWrittenAgreesOtherwise(org: string, suffix: string, sizes: string -> nat, preserved: seq<ReportItem>,
                                 toDelete: seq<Value>)
    requires !Contains(ReportPaths(org, suffix)[1], "preserved")
    ensures WriteCsvFilesAsWritten(org, suffix, sizes, preserved, toDelete) == WriteCsvFiles(org, suffix, sizes, preserved, toDelete)
  {
    PreservedPathContains(OrgForFilename(org), suffix);
  }

  /** Which `write_csv_files` a run uses: the script's, or the corrected one. */
  datatype Writer = AsWrittenWriter | CorrectedWriter

  /**
   The reports a writer produces: two files, and the corrected ones unless
   the script's writer meets an id-file path containing `preserved`.
   */
  function WriteReports(w: Writer, org: string, suffix: string, sizes: string -> nat, preserved: seq<ReportItem>,
                        toDelete: seq<Value>): (files: seq<Written>)
    ensures |files| == 2
    ensures w.CorrectedWriter? || !Contains(ReportPaths(org, suffix)[1], "preserved") ==>
              files == WriteCsvFiles(org, suffix, sizes, preserved, toDelete)
  {
    match w
    case AsWrittenWriter =>
      if !Contains(ReportPaths(org, suffix)[1], "preserved") then
        AsWrittenAgreesOtherwise(org, suffix, sizes, preserved, toDelete);
        WriteCsvFilesAsWritten(org, suffix, sizes, preserved, toDelete)
      else WriteCsvFilesAsWritten(org, suffix, sizes, preserved, toDelete)
    case CorrectedWriter => WriteCsvFiles(org, suffix, sizes, preserved, toDelete)
  }

  /** A piece placed between others is contained in the whole. */
  lemma ContainsMiddle(a: string, sub: string, b: string, c: string)
    ensures Contains(a + sub + b + c, sub)
  {
    var p := a + sub + b + c;
    assert p[|a|..|a| + |sub|] == sub;
    ContainsAt(p, sub, |a|);
  }

  /** The preserved report's path names `preserved`. */
  lemma PreservedPathContains(name: string, suffix: string)
    ensures Contains("spreadsheets/" + name + "_" + "preserved" + "_photo_ids_" + suffix, "preserved")
  {
    ContainsMiddle("spreadsheets/" + name + "_", "preserved", "_photo_ids_", suffix);
  }

  /** So does the to-delete report's path of an organisation named `preserved...`. */
  lemma PreservedOrgPathContains(org: string, suffix: string)
    requires StartsWith(org, "preserved")
    ensures Contains("spreadsheets/" + org + "_photo_ids_to_delete_" + suffix, "preserved")
  {
    var rest := org[9..];
    assert org == "preserved" + rest;
    assert "spreadsheets/" + org + "_photo_ids_to_delete_" + suffix
        == "spreadsheets/" + "preserved" + rest + ("_photo_ids_to_delete_" + suffix);
    ContainsMiddle("spreadsheets/", "preserved", rest, "_photo_ids_to_delete_" + suffix);
  }

  /** The options `doit` runs with. */
  datatype Config = Config(org: string, imageArcId: string, startDate: int, endDate: int, offset: int, source: string,
                           pcPublishedWires: bool, batchSize: int)

  /** What a run leaves: the statistics, the analysis and the report files (none when there was nothing to analyse). */
  datatype Report = Report(totalProcessed: nat, queryCalls: nat, analysis: Analysis, files: seq<Written>)

  /** `PHOTO_API_SINGLE_ITEM_URL`. */
  function SingleItemUrl(org: string, arcId: string): string {
    PhotosBase(org) + "/" + arcId + "/"
  }

  /** The candidates of a run: the single photo when an id is given, else the listing from the configured offset. */
  function Candidates(c: Config, list: (string, int) -> ListReply, single: string -> Reply): (r: PhotoQuery.Candidates)
    ensures c.imageArcId != "" ==> r == QuerySinglePhoto(single(SingleItemUrl(c.org, c.imageArcId)), c.imageArcId)
    ensures c.imageArcId == "" ==>
              r == QueryPhotos((offset: int) => list(PhotoUrl(c.org, c.startDate, c.endDate, c.source, c.pcPublishedWires), offset), c.offset)
  {
    if c.imageArcId != "" then QuerySinglePhoto(single(SingleItemUrl(c.org, c.imageArcId)), c.imageArcId)
    else
      var url := PhotoUrl(c.org, c.startDate, c.endDate, c.source, c.pcPublishedWires);
      QueryPhotos((offset: int) => list(url, offset), c.offset)
  }

  /**
   `doit`: query the candidates; with none, stop with empty statistics;
   otherwise analyse them and write both reports with the writer `w`. The
   script is the run with `AsWrittenWriter`; `CorrectedWriter` gives the
   corrected program. The listing requests (`list(url, offset)`), the single
   lookup, the three checks, the sizes of existing report files and today's
   date are oracles.
   */
  function Doit(w: Writer, c: Config, list: (string, int) -> ListReply, single: string -> Reply,
                refs: Check, fulltext: Check, lightbox: Check, sizes: string -> nat, today: string): (r: Result<Report>)
    ensures Candidates(c, list, single).Crashed? ==> r.Err?
    ensures r.Ok? ==> r.value.totalProcessed == |Candidates(c, list, single).ids|
    ensures r.Ok? ==> (|r.value.files| == 0 <==> r.value.totalProcessed == 0)
    ensures r.Ok? ==> |r.value.analysis.toDelete| + |r.value.analysis.preserved| == r.value.totalProcessed
    ensures var suffix := NameSuffix(c.org, c.imageArcId, c.startDate, c.endDate, today);
            r.Ok? && r.value.totalProcessed > 0
            && (w.CorrectedWriter? || !Contains(ReportPaths(c.org, suffix)[1], "preserved")) ==>
              r.value.files == WriteCsvFiles(c.org, suffix, sizes, r.value.analysis.preserved, r.value.analysis.toDelete)
  {
    match Candidates(c, list, single)
    case Crashed(msg) => Err(msg)
    case Candidates(ids, calls) =>
      if |ids| == 0 then Ok(Report(0, calls, Analysis([], [], 0, 0, 0), []))
      else
        match Analyze(refs, fulltext, lightbox, ids, c.source, c.batchSize)
        case Err(e) => Err(e)
        case Ok(a) =>
          var suffix := NameSuffix(c.org, c.imageArcId, c.startDate, c.endDate, today);
          Ok(Report(|ids|, calls, a, WriteReports(w, c.org, suffix, sizes, a.preserved, a.toDelete)))
  }
}

=== FILE: photo_query.dfy ===
/**
 How the published-photo analysis finds its candidates: the Photo API
 search URL chosen from the filters, the paged listing of photo ids, the
 single-photo lookup, and the command-line checks that come first.
 */
module PhotoQuery {
  import opened Wrappers
  import opened Records
  import opened Text

  /** `https://api.{org}.arcpublishing.com/photo/api/v2/photos`. */
  function PhotosBase(org: string): string {
    "https://api." + org + ".arcpublishing.com/photo/api/v2/photos"
  }

  /** Dates filter the listing only when both are positive. */
  predicate UseDateFilter(startDate: int, endDate: int) {
    startDate > 0 && endDate > 0
  }

  /** The names of a query's parameters. */
  function ParamNames(ps: seq<(string, string)>): set<string> {
    set i | 0 <= i < |ps| :: ps[i].0
  }

  /**
   The query parameters the URL carries: always `published=true`;
   `sourceType=wires` exactly for the published-wires listing; both upload
   dates exactly when they filter; `source` exactly when a source id is
   given and the wires listing is off.
   */
  function PhotoParams(startDate: int, endDate: int, source: string, pcPublishedWires: bool): (ps: seq<(string, string)>)
    ensures |ps| >= 1 && ps[0] == ("published", "true")
    ensures "sourceType" in ParamNames(ps) <==> pcPublishedWires
    ensures "startDateUploaded" in ParamNames(ps) <==> UseDateFilter(startDate, endDate)
    ensures "endDateUploaded" in ParamNames(ps) <==> UseDateFilter(startDate, endDate)
    ensures "source" in ParamNames(ps) <==> source != "" && !pcPublishedWires
    ensures forall i :: 0 <= i < |ps| && ps[i].0 == "source" ==> ps[i].1 == source
  {
    var wires := if pcPublishedWires then [("sourceType", "wires")] else [];
    var dates := if UseDateFilter(startDate, endDate)
                 then [("startDateUploaded", IntToString(startDate)), ("endDateUploaded", IntToString(endDate))]
                 else [];
    var src := if source != "" && !pcPublishedWires then [("source", source)] else [];
    var ps := [("published", "true")] + wires + dates + src;
    assert ("published", "true") == ps[0];
    assert pcPublishedWires ==> ps[1].0 == "sourceType";
    assert UseDateFilter(startDate, endDate) ==>
             ps[1 + |wires|].0 == "startDateUploaded" && ps[2 + |wires|].0 == "endDateUploaded";
    assert src != [] ==> ps[|ps| - 1].0 == "source";
    ps
  }

  /** `k1=v1&k2=v2...`. */
  function RenderParams(ps: seq<(string, string)>): string
    decreases |ps|
  {
    if |ps| == 0 then ""
    else if |ps| == 1 then ps[0].0 + "=" + ps[0].1
    else ps[0].0 + "=" + ps[0].1 + "&" + RenderParams(ps[1..])
  }

  /**
   `get_photo_url`: the base with `published=true`, then `sourceType=wires`
   for the published-wires listing, the upload dates when they filter, and
   the source id when one is given outside the wires listing, in the order
   the templates write them.
   */
  function PhotoUrl(org: string, startDate: int, endDate: int, source: string, pcPublishedWires: bool): (url: string)
    ensures |url| > |PhotosBase(org)| + 1
    ensures url[..|PhotosBase(org)|] == PhotosBase(org) && url[|PhotosBase(org)|] == '?'
  {
    PhotosBase(org) + "?" + RenderParams(PhotoParams(startDate, endDate, source, pcPublishedWires))
  }

  /** The parameter lists of the scenarios the option tests list. */
  lemma PhotoParamsScenarios(source: string)
    requires source != ""
    ensures PhotoParams(0, 0, "", false) == [("published", "true")]
    ensures PhotoParams(0, 0, source, false) == [("published", "true"), ("source", source)]
    ensures PhotoParams(0, 0, "", true) == [("published", "true"), ("sourceType", "wires")]
    ensures PhotoParams(0, 0, source, true) == [("published", "true"), ("sourceType", "wires")]
    ensures PhotoParams(5, 0, "", false) == [("published", "true")]
  {
  }

  /** The `x-results-total` header: absent (read as 0), an integer, or text `int()` rejects. */
  datatype TotalHeader = Absent | Total(n: int) | Malformed

  /** A listing request ends with a response (status, JSON body if any, total header) or raises. */
  datatype ListReply = Listed(statusCode: int, json: Option<Value>, total: TotalHeader) | Failed(message: string)

  /** The ids gathered, the offsets requested, and the error that escaped the loop, if any. */
  datatype Listing = Listing(ids: seq<Value>, offsets: seq<int>, raised: Option<string>)

  /** `"limit": 100`: the page size and offset step of the listing. */
  const Limit := 100

  /** The loop gives up once more than this many pages were read. */
  const MaxPages := 1000

  /** jmespath `[*]._id`: the non-null `_id` of every object in a list; nothing when the body is not a list. */
  function PhotoIds(body: Value): (ids: seq<Value>)
    ensures !body.Arr? ==> ids == []
    ensures forall v :: v in ids ==> v != Null
    ensures body.Arr? ==> |ids| <= |body.items|
  {
    if !body.Arr? then [] else IdsOf(body.items)
  }

  /** The projection over a list of elements. */
  function IdsOf(items: seq<Value>): (ids: seq<Value>)
    ensures forall v :: v in ids ==> v != Null
    ensures |ids| <= |items|
    ensures forall v :: v in ids <==> exists k :: 0 <= k < |items| && items[k].Obj? && "_id" in items[k].fields
                                                 && items[k].fields["_id"] == v && v != Null
    decreases |items|
  {
    if |items| == 0 then []
    else
      var rest := IdsOf(items[1..]);
      var e := items[0];
      assert forall k :: 1 <= k < |items| ==> items[k] == items[1..][k - 1];
      if e.Obj? && "_id" in e.fields && e.fields["_id"] != Null then [e.fields["_id"]] + rest else rest
  }

  /**
   `query_photos` from offset `offset` after `pages` pages: a raised call or
   a body that is not JSON escapes; an error status or an empty page ends
   the loop; so does reaching the reported total or reading more than 1000
   pages.
   */
  function ListFrom(list: int -> ListReply, offset: int, pages: nat): (r: Listing)
    requires pages <= MaxPages
    ensures |r.offsets| >= 1 && |r.offsets| <= MaxPages + 1 - pages
    ensures forall k :: 0 <= k < |r.offsets| ==> r.offsets[k] == offset + Limit * k
    decreases MaxPages - pages
  {
    match list(offset)
    case Failed(msg) => Listing([], [offset], Some(msg))
    case Listed(code, json, total) =>
      if !IsOk(code) then Listing([], [offset], None)
      else if json.None? then Listing([], [offset], Some("JSONDecodeError"))
      else
        var ids := PhotoIds(json.value);
        if |ids| == 0 then Listing([], [offset], None)
        else if total.Malformed? then Listing(ids, [offset], Some("ValueError"))
        else
          var t := if total.Total? then total.n else 0;
          if offset + |ids| >= t || pages + 1 > MaxPages then Listing(ids, [offset], None)
          else
            var rest := ListFrom(list, offset + Limit, pages + 1);
            Listing(ids + rest.ids, [offset] + rest.offsets, rest.raised)
  }

  /** The ids a successful page contributes, as the loop reads them. */
  function PageIds(reply: ListReply): seq<Value> {
    if reply.Listed? && IsOk(reply.statusCode) && reply.json.Some? then PhotoIds(reply.json.value) else []
  }

  /** The ids of the pages at the given offsets, page after page. */
  function PagesIds(list: int -> ListReply, offsets: seq<int>): seq<Value>
    decreases |offsets|
  {
    if |offsets| == 0 then [] else PageIds(list(offsets[0])) + PagesIds(list, offsets[1..])
  }

  /** The loop goes on to the next page after the page at `offset`. */
  predicate Continues(list: int -> ListReply, offset: int, pages: nat) {
    var reply := list(offset);
    && reply.Listed? && IsOk(reply.statusCode) && reply.json.Some? && |PhotoIds(reply.json.value)| > 0
    && !reply.total.Malformed?
    && offset + |PhotoIds(reply.json.value)| < (if reply.total.Total? then reply.total.n else 0)
    && pages + 1 <= MaxPages
  }

  /** A page that continues the loop contributes its ids ahead of the rest of the listing. */
  lemma ListFromStep(list: int -> ListReply, offset: int, pages: nat)
    requires pages <= MaxPages && Continues(list, offset, pages)
    ensures pages + 1 <= MaxPages
    ensures var rest := ListFrom(list, offset + Limit, pages + 1);
            ListFrom(list, offset, pages) == Listing(PageIds(list(offset)) + rest.ids, [offset] + rest.offsets, rest.raised)
  {
  }

  /** A page that ends the loop is the last one requested, and its ids are all there are unless something raised. */
  lemma ListFromStop(list: int -> ListReply, offset: int, pages: nat)
    requires pages <= MaxPages && !Continues(list, offset, pages)
    ensures var r := ListFrom(list, offset, pages);
            r.offsets == [offset] && (r.raised.None? ==> r.ids == PageIds(list(offset)))
  {
  }

  /**
   A listing that ends normally holds the ids of the requested pages,
   concatenated in page order; every page before the last was non-empty.
   */
  lemma {:induction false} ListFromIds(list: int -> ListReply, offset: int, pages: nat)
    requires pages <= MaxPages
    ensures var r := ListFrom(list, offset, pages);
            r.raised.None? ==> r.ids == PagesIds(list, r.offsets)
    ensures var r := ListFrom(list, offset, pages);
            forall k :: 0 <= k < |r.offsets| - 1 ==> |PageIds(list(r.offsets[k]))| > 0
    decreases MaxPages - pages
  {
    var r := ListFrom(list, offset, pages);
    if Continues(list, offset, pages) {
      ListFromStep(list, offset, pages);
      ListFromIds(list, offset + Limit, pages + 1);
      var rest := ListFrom(list, offset + Limit, pages + 1);
      assert r.offsets[1..] == rest.offsets;
      assert PagesIds(list, r.offsets) == PageIds(list(offset)) + PagesIds(list, rest.offsets);
      assert forall k :: 1 <= k < |r.offsets| ==> r.offsets[k] == rest.offsets[k - 1];
    } else {
      ListFromStop(list, offset, pages);
      assert PagesIds(list, r.offsets) == PageIds(list(offset)) + PagesIds(list, []);
    }
  }

  /** From page 0 the listing makes at most 1001 requests, one per offset, 100 apart. */
  lemma ListFromStartBounded(list: int -> ListReply, offset: int)
    ensures var r := ListFrom(list, offset, 0);
            1 <= |r.offsets| <= MaxPages + 1
            && forall k :: 0 <= k < |r.offsets| ==> r.offsets[k] == offset + Limit * k
  {
  }

  /** What the listing leaves behind: the candidate ids and the API calls made, or the error that escaped. */
  datatype Candidates = Candidates(ids: seq<Value>, apiCalls: nat) | Crashed(message: string)

  /** `query_photos`: the candidate list is the listing, and every request was one API call. */
  function QueryPhotos(list: int -> ListReply, offset: int): (c: Candidates)
    ensures var r := ListFrom(list, offset, 0);
            r.raised.None? ==> c == Candidates(r.ids, |r.offsets|)
    ensures var r := ListFrom(list, offset, 0);
            r.raised.Some? ==> c == Crashed(r.raised.value)
  {
    var r := ListFrom(list, offset, 0);
    match r.raised
    case Some(msg) => Crashed(msg)
    case None => Candidates(r.ids, |r.offsets|)
  }

  /**
   `query_single_photo`: one GET; a successful response with a JSON body
   makes the id the only candidate, an error status leaves none, and a
   raised call or a non-JSON body escapes.
   */
  function QuerySinglePhoto(reply: Reply, arcId: string): (c: Candidates)
    ensures reply.Response? && IsOk(reply.statusCode) && reply.json.Some? ==> c == Candidates([Str(arcId)], 1)
    ensures reply.Response? && !IsOk(reply.statusCode) ==> c == Candidates([], 1)
    ensures reply.Exception? ==> c.Crashed?
  {
    match reply
    case Exception(msg) => Crashed(msg)
    case Response(code, json) =>
      if !IsOk(code) then Candidates([], 1)
      else if json.None? then Crashed("JSONDecodeError")
      else Candidates([Str(arcId)], 1)
  }

  /** The command-line options the checks look at. */
  datatype Args = Args(org: string, environment: string, imageArcId: string, startDate: string, endDate: string,
                       pcSourceId: string, pcPublishedWires: bool)

  /** The refusal of a source id together with the wires listing. */
  const SourceWithWires := "--pc-source-id and --pc-published-wires cannot be used together. Use one or the other."

  /** The refusal of a lone date. */
  const LoneDate := "either provide image-arc-id, or provide both start-date and end-date together (both are required if using date filtering)"

  /**
   The argument checks of `main`: a source id together with the wires
   listing is refused; so is exactly one of the two dates without an image
   id.
   */
  function ValidateArgs(a: Args): (r: Result<()>)
    ensures r.Ok? <==> !(a.pcSourceId != "" && a.pcPublishedWires)
                       && (a.imageArcId != "" || (a.startDate != "") == (a.endDate != ""))
  {
    if a.pcSourceId != "" && a.pcPublishedWires then
      Err(SourceWithWires)
    else if a.imageArcId == "" && (a.startDate != "") != (a.endDate != "") then
      Err(LoneDate)
    else Ok(())
  }

  /** The settings `main` hands to the analysis: the organisation with its environment, and the dates in milliseconds (0 when unset). */
  datatype Settings = Settings(org: string, startDate: int, endDate: int)

  /**
   `main` after the checks: both dates given are read as local midnight
   (the oracle `epochSeconds`, `None` where `strptime` raises) and turned
   into milliseconds; otherwise both stay 0. The sandbox prefixes the
   organisation.
   */
  function MainSettings(a: Args, epochSeconds: string -> Option<int>): (r: Result<Settings>)
    ensures ValidateArgs(a).Err? ==> r.Err?
    ensures ValidateArgs(a).Ok? && r.Err? ==>
              a.startDate != "" && a.endDate != "" && (epochSeconds(a.startDate).None? || epochSeconds(a.endDate).None?)
    ensures r.Ok? && a.startDate != "" && a.endDate != "" ==>
              epochSeconds(a.startDate).Some? && epochSeconds(a.endDate).Some?
              && r.value.startDate == 1000 * epochSeconds(a.startDate).value
              && r.value.endDate == 1000 * epochSeconds(a.endDate).value
    ensures r.Ok? && (a.startDate == "" || a.endDate == "") ==> r.value.startDate == 0 && r.value.endDate == 0
    ensures r.Ok? ==> r.value.org == (if a.environment == "sandbox" then "sandbox." + a.org else a.org)
  {
    match ValidateArgs(a)
    case Err(e) => Err(e)
    case Ok(_) =>
      var org := if a.environment == "sandbox" then "sandbox." + a.org else a.org;
      if a.startDate != "" && a.endDate != "" then
        match (epochSeconds(a.startDate), epochSeconds(a.endDate))
        case (Some(s), Some(e)) => Ok(Settings(org, s * 1000, e * 1000))
        case _ => Err("ValueError")
      else Ok(Settings(org, 0, 0))
  }

  /** The checks accept exactly the combinations the option tests list as valid, and refuse a lone date. */
  lemma ValidateArgsCases(org: string, env: string)
    ensures ValidateArgs(Args(org, env, "TEST123", "", "", "", false)).Ok?
    ensures ValidateArgs(Args(org, env, "", "2020-01-01", "2020-01-07", "", false)).Ok?
    ensures ValidateArgs(Args(org, env, "", "", "", "", false)).Ok?
  {
  }

  /** A lone date, or a source id with the wires listing, is refused. */
  lemma ValidateArgsRefusals(org: string, env: string)
    ensures ValidateArgs(Args(org, env, "", "2020-01-01", "", "", false)).Err?
    ensures ValidateArgs(Args(org, env, "", "", "2020-01-07", "", false)).Err?
    ensures ValidateArgs(Args(org, env, "", "", "", "226329", true)).Err?
  {
  }
}

=== FILE: records.dfy ===
/**
 The data the scripts pass around: decoded JSON values, the dictionaries
 used as report rows and result records, the integer counters kept in the
 `stats` dictionaries, and the HTTP exchange with the vendor API.
 */
module Records {
  import opened Wrappers

  /** A decoded JSON value. */
  datatype Value =
    | Str(s: string)
    | Int(i: int)
    | Bool(b: bool)
    | Null
    | Arr(items: seq<Value>)
    | Obj(fields: map<string, Value>)

  /** A Python dictionary with string keys: a result record or a report row. */
  type Dict = map<string, Value>

  /** Python truthiness of a JSON value. */
  predicate Truthy(v: Value) {
    match v
    case Str(s) => |s| > 0
    case Int(i) => i != 0
    case Bool(b) => b
    case Null => false
    case Arr(xs) => |xs| > 0
    case Obj(m) => |m| > 0
  }

  /**
   `v.get(key, default)`: only a JSON object has `.get`; on anything else the
   call raises `AttributeError`, whose text names the value's type.
   */
  function GetOr(v: Value, key: string, default: Value): (r: Result<Value>)
    ensures r.Ok? <==> v.Obj?
    ensures v.Obj? && key in v.fields ==> r == Ok(v.fields[key])
    ensures v.Obj? && key !in v.fields ==> r == Ok(default)
  {
    match v
    case Obj(m) => Ok(if key in m then m[key] else default)
    case _ => Err("'" + TypeName(v) + "' object has no attribute 'get'")
  }

  /** The integer counters the deletion scripts and processors keep in their `stats` dictionaries. */
  datatype Counter =
    | ApiCalls
    | PhotosDeleted
    | PhotosExpired
    | PhotosFailed
    | PhotosSkipped
    | RedirectsDeleted
    | RedirectsFailed
    | StoriesDeleted
    | StoriesFailed
    | TotalPhotosProcessed
    | TotalRedirectsProcessed
    | TotalStoriesProcessed
    | TotalWiresProcessed
    | WiresDeleted
    | WiresFailed

  /** The dictionary key of each counter. */
  function Key(c: Counter): string {
    match c
    case ApiCalls => "api_calls"
    case PhotosDeleted => "photos_deleted"
    case PhotosExpired => "photos_expired"
    case PhotosFailed => "photos_failed"
    case PhotosSkipped => "photos_skipped"
    case RedirectsDeleted => "redirects_deleted"
    case RedirectsFailed => "redirects_failed"
    case StoriesDeleted => "stories_deleted"
    case StoriesFailed => "stories_failed"
    case TotalPhotosProcessed => "total_photos_processed"
    case TotalRedirectsProcessed => "total_redirects_processed"
    case TotalStoriesProcessed => "total_stories_processed"
    case TotalWiresProcessed => "total_wires_processed"
    case WiresDeleted => "wires_deleted"
    case WiresFailed => "wires_failed"
  }

  /** A `stats` dictionary restricted to its integer counters. */
  type Stats = map<Counter, int>

  /**
   `stats[key] += delta`: `KeyError` (`None`) when the key was never created,
   otherwise only that counter moves.
   */
  function Bump(stats: Stats, key: Counter, delta: int): (r: Option<Stats>)
    ensures r.Some? <==> key in stats
    ensures r.Some? ==> r.value.Keys == stats.Keys && r.value[key] == stats[key] + delta
  {
    if key in stats then Some(stats[key := stats[key] + delta]) else None
  }

  /** `str(e)` of the `KeyError` raised by a missing counter: the key as Python's `repr` writes it, in single quotes. */
  function MissingKey(c: Counter): string {
    "'" + Key(c) + "'"
  }

  /** The Python type of a decoded JSON value, as error messages name it. */
  function TypeName(v: Value): string {
    match v
    case Str(_) => "str"
    case Int(_) => "int"
    case Bool(_) => "bool"
    case Null => "NoneType"
    case Arr(_) => "list"
    case Obj(_) => "dict"
  }

  /** `stats.update(other)`: every key of `other` takes `other`'s value, the rest is kept. */
  function UpdateWith(stats: Stats, other: Stats): (r: Stats)
    ensures r.Keys == stats.Keys + other.Keys
    ensures forall k :: k in other ==> r[k] == other[k]
    ensures forall k :: k in stats && k !in other ==> r[k] == stats[k]
  {
    stats + other
  }

  /** The HTTP verbs the scripts use. */
  datatype Verb = GET | PUT | DELETE

  /** One call to the vendor API: verb, URL and JSON body. */
  datatype Request = Request(verb: Verb, url: string, body: Option<Value>)

  /**
   What a call produced: an HTTP response (whose body may not be JSON) or an
   exception raised by the HTTP library (connection error, timeout).
   */
  datatype Reply = Response(statusCode: int, json: Option<Value>) | Exception(message: string)

  /** `response.ok` of the HTTP library: false exactly for 4xx and 5xx statuses. */
  predicate IsOk(statusCode: int) {
    !(400 <= statusCode < 600)
  }

  /** `str(v)` of a status field: the `"status"` of a result record, if it is a string. */
  function Status(d: Dict): (r: Option<string>)
    ensures r.Some? <==> "status" in d && d["status"].Str?
    ensures r.Some? ==> d["status"] == Str(r.value)
  {
    if "status" in d && d["status"].Str? then Some(d["status"].s) else None
  }
}

=== FILE: redirects_fetch.dfy ===
/**
 The redirect range processor: for each date range it pages through the
 redirects created in that range and turns each hit into a report row
 whose status column starts empty.
 */
module RedirectsFetch {
  import opened Wrappers
  import opened Records
  import opened Utils
  import opened FanOut
  import opened SearchPaging

  /** The processor's settings: organisation (with the sandbox prefix applied), website, environment. */
  datatype Processor = Processor(org: string, website: string, env: string)

  /** `RedirectsSearchParallelProcessor(...)`: `sandbox.` outside production. */
  function NewProcessor(org: string, website: string, environment: string): (p: Processor)
    ensures p.org == OrgFor(org, environment) && p.website == website && p.env == environment
  {
    Processor(OrgFor(org, environment), website, environment)
  }

  /** The query of one range. */
  function RedirectsQuery(startDate: string, endDate: string): string {
    "type:redirect AND created_date:[" + startDate + " TO " + endDate + "]"
  }

  /** The request for offset `from` of a range: no field list. */
  function RangeRequest(p: Processor, range: (string, string), from: int): (req: SearchRequest)
    ensures req.sourceInclude.None? && req.from == from && req.website == p.website
  {
    SearchRequest(SearchUrl(p.org), None, p.website, RedirectsQuery(range.0, range.1), from)
  }

  /** The seven columns of a redirect row. */
  const RedirectColumns: set<string> := {"identifier", "canonical_url", "redirect_url", "created_date", "website",
                                         "environment", "check_404_or_200"}

  /**
   The row of one hit: its id, canonical and redirect URLs (`""` when
   absent), creation date, the processor's website and environment, and an
   empty status. A hit that is not an object or lacks `_id` or
   `created_date` raises.
   */
  function RedirectRecord(row: Value, website: string, env: string): (r: Result<Dict>)
    ensures r.Ok? <==> row.Obj? && "_id" in row.fields && "created_date" in row.fields
    ensures r.Ok? ==> r.value.Keys == RedirectColumns
    ensures r.Ok? ==> r.value["identifier"] == row.fields["_id"] && r.value["created_date"] == row.fields["created_date"]
    ensures r.Ok? ==> r.value["canonical_url"] == (if "canonical_url" in row.fields then row.fields["canonical_url"] else Str(""))
                      && r.value["redirect_url"] == (if "redirect_url" in row.fields then row.fields["redirect_url"] else Str(""))
    ensures r.Ok? ==> r.value["website"] == Str(website) && r.value["environment"] == Str(env)
                      && r.value["check_404_or_200"] == Str("")
  {
    if !row.Obj? then Err("TypeError")
    else if "_id" !in row.fields || "created_date" !in row.fields then Err("KeyError")
    else
      var m := row.fields;
      Ok(map["identifier" := m["_id"],
             "canonical_url" := if "canonical_url" in m then m["canonical_url"] else Str(""),
             "redirect_url" := if "redirect_url" in m then m["redirect_url"] else Str(""),
             "created_date" := m["created_date"],
             "website" := Str(website), "environment" := Str(env), "check_404_or_200" := Str("")])
  }

  /** `fetch_redirects_for_range`: the paging loop over the range's query; it never raises. */
  function FetchRedirectsForRange(server: SearchRequest -> Reply, p: Processor, range: (string, string)): (r: Fetched<Dict>)
    ensures |r.offsets| >= 1
  {
    Fetch((from: int) => server(RangeRequest(p, range, from)), (row: Value) => RedirectRecord(row, p.website, p.env))
  }

  /** A redirect row of this processor, not yet checked. */
  predicate FreshRow(p: Processor, d: Dict) {
    d.Keys == RedirectColumns && d["website"] == Str(p.website) && d["environment"] == Str(p.env)
    && d["check_404_or_200"] == Str("")
  }

  /**
   At most 100 requests, at offsets 0, 100, ... below 10,000; the rows are
   the pages' rows in page order, each with the processor's website and
   environment and an empty status.
   */
  lemma FetchRedirectsForRangeContract(server: SearchRequest -> Reply, p: Processor, range: (string, string))
    ensures var r := FetchRedirectsForRange(server, p, range);
            var search := (from: int) => server(RangeRequest(p, range, from));
            var mapRow := (row: Value) => RedirectRecord(row, p.website, p.env);
            1 <= |r.offsets| <= 100
            && (forall k :: 0 <= k < |r.offsets| ==> r.offsets[k] == 100 * k && r.offsets[k] < 10000)
            && r.items == PagesRecords(search, mapRow, r.offsets)
            && forall d :: d in r.items ==> FreshRow(p, d)
  {
    var search := (from: int) => server(RangeRequest(p, range, from));
    var mapRow := (row: Value) => RedirectRecord(row, p.website, p.env);
    FetchWithinWindow(search, mapRow);
    FetchFromItems(search, mapRow, 0);
    PagesRecordsFromRows(search, mapRow, Fetch(search, mapRow).offsets, (d: Dict) => FreshRow(p, d));
  }

  /** The per-range task handed to the pool: it always returns its rows. */
  function RangeTask(server: SearchRequest -> Reply, p: Processor): ((string, string)) -> Outcome<seq<Dict>> {
    range => Returned(Some(FetchRedirectsForRange(server, p, range).items))
  }

  /** `process_ranges_parallel`: the rows of all ranges. */
  function ProcessRangesParallel(server: SearchRequest -> Reply, p: Processor, ranges: seq<(string, string)>): seq<Dict> {
    ProcessRanges(RangeTask(server, p), ranges)
  }

  /**
   A row is in the result exactly when some range fetched it, every row is
   fresh, and the multiset of rows does not depend on the completion order.
   */
  lemma ProcessRangesParallelContents(server: SearchRequest -> Reply, p: Processor, ranges: seq<(string, string)>,
                                      completed: seq<(string, string)>, d: Dict)
    requires multiset(ranges) == multiset(completed)
    ensures d in ProcessRangesParallel(server, p, ranges) <==>
              exists k :: 0 <= k < |ranges| && d in FetchRedirectsForRange(server, p, ranges[k]).items
    ensures d in ProcessRangesParallel(server, p, ranges) ==> FreshRow(p, d)
    ensures multiset(ProcessRangesParallel(server, p, ranges)) == multiset(ProcessRanges(RangeTask(server, p), completed))
  {
    ProcessRangesContents(RangeTask(server, p), ranges, completed, d);
    if d in ProcessRangesParallel(server, p, ranges) {
      var k :| 0 <= k < |ranges| && d in FetchRedirectsForRange(server, p, ranges[k]).items;
      FetchRedirectsForRangeContract(server, p, ranges[k]);
    }
  }

  /** `export_to_csv`'s file name: none (`""`) without data, else the shared output-filename rule. */
  function ExportFilename(p: Processor, data: seq<Dict>, startDate: string, endDate: string,
                          outputPrefix: string, now: string): (name: string)
    ensures |data| == 0 ==> name == ""
    ensures |data| > 0 ==> name == CreateOutputFilename(outputPrefix, startDate, endDate, p.website, "csv", now)
    ensures |data| > 0 ==> name != ""
  {
    if |data| == 0 then "" else CreateOutputFilename(outputPrefix, startDate, endDate, p.website, "csv", now)
  }
}

=== FILE: redirects_report.dfy ===
/**
 The redirect reporter: it turns the requested dates into ranges, fetches
 the redirects of every range through the range processor (optionally
 after benchmarking the pool size), checks the status of their canonical
 URLs when asked to and a website domain is known, names the export and
 summarises the run.

 The date-range builder is the oracle `build(start, end)`; the search
 endpoint is `server`; the benchmark is `bench`; the status checker's HTTP
 session is `get`.
 */
module RedirectsReport {
  import opened Wrappers
  import opened Records
  import opened FanOut
  import opened SearchPaging
  import opened RedirectsFetch
  import opened StatusChecker
  import opened WorkerTuning
  import opened DateRanges

  /** The reporter's settings. */
  datatype Reporter = Reporter(org: string, env: string, website: string, websiteDomain: string, do404Or200: bool,
                               outputPrefix: string, maxWorkers: int, autoOptimize: bool)

  /** The range processor the reporter builds. */
  function ProcessorOf(rep: Reporter): (p: Processor)
    ensures p == NewProcessor(rep.org, rep.website, rep.env)
  {
    NewProcessor(rep.org, rep.website, rep.env)
  }

  /**
   `process_date_ranges`: nothing without ranges; otherwise every range is
   fetched, and with more than three ranges and optimisation on, the pool
   size is first benchmarked on the first three. A row is in the result
   exactly when some range fetched it, and every row is unchecked.
   */
  method ProcessDateRanges(rep: Reporter, server: SearchRequest -> Reply, bench: (nat, seq<(string, string)>) -> real,
                           ranges: seq<(string, string)>) returns (data: seq<Dict>, workers: int)
    ensures |ranges| == 0 ==> data == [] && workers == rep.maxWorkers
    ensures forall d :: d in data <==> exists k :: 0 <= k < |ranges| && d in FetchRedirectsForRange(server, ProcessorOf(rep), ranges[k]).items
    ensures forall d :: d in data ==> FreshRow(ProcessorOf(rep), d)
    ensures rep.autoOptimize && |ranges| > 3 ==> workers in RangeCandidates
    ensures rep.autoOptimize && |ranges| > 3
            && (forall i :: 0 <= i < |RangeCandidates| ==> bench(RangeCandidates[i], Take(ranges, 3)) <= 0.0)
            ==> workers == RangeDefault
    ensures !(rep.autoOptimize && |ranges| > 3) ==> workers == rep.maxWorkers
  {
    workers := rep.maxWorkers;
    if |ranges| == 0 {
      return [], workers;
    }
    if rep.autoOptimize && |ranges| > 3 {
      TakeTake(ranges, 3);
      workers := OptimizeRangeWorkers(bench, Take(ranges, 3));
    }
    var p := ProcessorOf(rep);
    data := ProcessRangesParallel(server, p, ranges);
    forall d
      ensures d in data <==> exists k :: 0 <= k < |ranges| && d in FetchRedirectsForRange(server, p, ranges[k]).items
      ensures d in data ==> FreshRow(p, d)
    {
      ProcessRangesParallelContents(server, p, ranges, ranges, d);
    }
  }

  /** Whether `check_redirect_statuses` runs the checker: only when asked to and a website domain is known. */
  predicate ChecksStatuses(rep: Reporter) {
    rep.do404Or200 && rep.websiteDomain != ""
  }

  /** `check_redirect_statuses`: the rows unchanged unless statuses are checked and there is a URL to check. */
  function CheckStatuses(rep: Reporter, data: seq<Dict>, get: string -> Checked): (r: Result<seq<Dict>>)
    ensures !ChecksStatuses(rep) ==> r == Ok(data)
    ensures |UrlsToCheck(data)| == 0 ==> r == Ok(data)
  {
    if !ChecksStatuses(rep) then Ok(data)
    else CheckRedirectStatuses(data, rep.websiteDomain, true, get)
  }

  /**
   When statuses are checked, every canonical URL is a string and at least
   one is non-empty, there is one row per row, each with the status of its
   URL and every other column as it was.
   */
  lemma CheckStatusesRows(rep: Reporter, data: seq<Dict>, get: string -> Checked)
    requires ChecksStatuses(rep) && StringUrls(data) && |UrlsToCheck(data)| > 0
    ensures var r := CheckStatuses(rep, data, get);
            r.Ok? && |r.value| == |data|
            && forall k :: 0 <= k < |data| ==>
                 var url := CanonicalUrl(data[k]).s;
                 r.value[k][CheckColumn]
                   == Str(if url == "" then "" else StatusText(Some(CheckSingleStatus(NormalizeDomain(rep.websiteDomain), true, get, url).1)))
                 && forall f :: f in data[k] && f != CheckColumn ==> r.value[k][f] == data[k][f]
  {
    CheckRedirectStatusesRows(data, rep.websiteDomain, true, get);
  }

  /** The summary `generate_report` returns. */
  datatype Summary = Summary(totalItems: nat, dateRangesProcessed: nat, outputFile: string, statusCheckingEnabled: bool,
                             maxWorkersUsed: int)

  /** A finished run: the summary and the exported rows. */
  datatype Report = Report(summary: Summary, rows: seq<Dict>)

  /**
   `generate_report`: ranges, rows, statuses, export name and summary. A
   checker error (a canonical URL that cannot be a dictionary key) escapes.
   Without both dates nothing is fetched or exported; a file is named
   exactly when there are rows; unchecked rows keep an empty status.
   */
  method GenerateReport(rep: Reporter, build: (string, string) -> seq<(string, string)>, server: SearchRequest -> Reply,
                        bench: (nat, seq<(string, string)>) -> real, get: string -> Checked,
                        startDate: string, endDate: string, now: string)
    returns (r: Result<Report>)
    ensures r.Err? ==> ChecksStatuses(rep)
    ensures startDate == "" || endDate == "" ==>
              r.Ok? && r.value.rows == [] && r.value.summary.dateRangesProcessed == 0 && r.value.summary.outputFile == ""
    ensures r.Ok? ==> r.value.summary.totalItems == |r.value.rows|
                      && r.value.summary.dateRangesProcessed == |ReporterRanges(build, startDate, endDate)|
                      && r.value.summary.statusCheckingEnabled == rep.do404Or200
                      && (r.value.summary.outputFile == "" <==> |r.value.rows| == 0)
    ensures r.Ok? && |r.value.rows| > 0 ==>
              r.value.summary.outputFile == ExportFilename(ProcessorOf(rep), r.value.rows, startDate, endDate, rep.outputPrefix, now)
    ensures r.Ok? && !ChecksStatuses(rep) ==> forall d :: d in r.value.rows ==> FreshRow(ProcessorOf(rep), d)
    ensures r.Ok? ==> r.value.summary.maxWorkersUsed == rep.maxWorkers || r.value.summary.maxWorkersUsed in RangeCandidates
  {
    var ranges := ReporterRanges(build, startDate, endDate);
    var data, workers := ProcessDateRanges(rep, server, bench, ranges);
    match CheckStatuses(rep, data, get)
    case Err(e) =>
      return Err(e);
    case Ok(rows) =>
      var output := ExportFilename(ProcessorOf(rep), rows, startDate, endDate, rep.outputPrefix, now);
      return Ok(Report(Summary(|rows|, |ranges|, output, rep.do404Or200, workers), rows));
  }

  /** `--do-404-or-200`: only 0 and 1 are accepted, and 1 turns status checking on. */
  function ParseDo404Or200(n: int): (r: Result<bool>)
    ensures r.Ok? <==> n == 0 || n == 1
    ensures r.Ok? ==> (r.value <==> n == 1)
  {
    if n == 0 then Ok(false) else if n == 1 then Ok(true) else Err("invalid choice")
  }

  /**
   `main`: the reporter gets the parsed status flag and the
   `--auto-optimize-workers` flag, which is off unless given.
   */
  function MainReporter(org: string, environment: string, website: string, websiteDomain: string, do404Or200: int,
                        maxWorkers: int, outputPrefix: string, autoOptimizeFlag: bool): (r: Result<Reporter>)
    ensures r.Ok? <==> do404Or200 == 0 || do404Or200 == 1
    ensures r.Ok? ==> r.value.autoOptimize == autoOptimizeFlag && (r.value.do404Or200 <==> do404Or200 == 1)
    ensures r.Ok? ==> r.value.websiteDomain == websiteDomain && r.value.maxWorkers == maxWorkers
  {
    match ParseDo404Or200(do404Or200)
    case Err(e) => Err(e)
    case Ok(flag) => Ok(Reporter(org, environment, website, websiteDomain, flag, outputPrefix, maxWorkers, autoOptimizeFlag))
  }
}

=== FILE: search_paging.dfy ===
/**
 The paging loop shared by the wires and redirect fetchers: pages of 100
 search hits are requested at offsets 0, 100, 200, ... until a page is
 empty, an error is raised, the reported hit count is reached or the next
 offset would leave the search window of 10,000 hits.

 The search call is the oracle `search(from)`, the reply to the request
 for offset `from` (every other request parameter is fixed for a range);
 mapping a hit to a record is `mapRow`, which may raise.
 */
module SearchPaging {
  import opened Wrappers
  import opened Records

  /** `"size": "100"`: the page size and the offset step. */
  const PageSize := 100

  /** The search window: no request asks for an offset of 10,000 or more. */
  const Window := 10000

  /**
   One search request: the URL, the `_sourceInclude` field list (absent
   for the redirect search), the website, the query and the offset; the
   `size` and `track_total_hits` parameters never change.
   */
  datatype SearchRequest = SearchRequest(url: string, sourceInclude: Option<string>, website: string, q: string, from: int)

  /** `https://api.{org}.arcpublishing.com/content/v4/search`. */
  function SearchUrl(org: string): string {
    "https://api." + org + ".arcpublishing.com/content/v4/search"
  }

  /** What one page gives: the records mapped from it, and whether the loop asks for the next page. */
  datatype Page<R> = Page(records: seq<R>, more: bool)

  /** Everything the loop fetched, and the offsets it asked for, in order. */
  datatype Fetched<R> = Fetched(items: seq<R>, offsets: seq<int>)

  /**
   `for row in content_elements: all_items.append(...)`: the rows are mapped
   in order, and the first row that raises ends the page with the records
   mapped before it kept.
   */
  function MapRows<R>(mapRow: Value -> Result<R>, rows: seq<Value>): (r: (seq<R>, bool))
    ensures |r.0| <= |rows|
    ensures forall k :: 0 <= k < |r.0| ==> mapRow(rows[k]) == Ok(r.0[k])
    ensures r.1 ==> |r.0| == |rows|
    ensures !r.1 ==> |r.0| < |rows| && mapRow(rows[|r.0|]).Err?
    decreases |rows|
  {
    if |rows| == 0 then ([], true)
    else
      match mapRow(rows[0])
      case Err(_) => ([], false)
      case Ok(x) =>
        var (rest, ok) := MapRows(mapRow, rows[1..]);
        ([x] + rest, ok)
  }

  /** Every row maps exactly when the whole page maps: then there is one record per row. */
  lemma {:induction false} MapRowsAll<R>(mapRow: Value -> Result<R>, rows: seq<Value>)
    ensures MapRows(mapRow, rows).1 <==> forall k :: 0 <= k < |rows| ==> mapRow(rows[k]).Ok?
    decreases |rows|
  {
    if |rows| > 0 && mapRow(rows[0]).Ok? {
      MapRowsAll(mapRow, rows[1..]);
      assert forall k :: 1 <= k < |rows| ==> rows[k] == rows[1..][k - 1];
    }
  }

  /**
   `from_next >= data.get("count", 0)` for the advanced offset `next`:
   `None` when Python cannot compare (a count that is not a number raises
   `TypeError`); a boolean count compares as 0 or 1.
   */
  function CountReached(data: map<string, Value>, next: int): (r: Option<bool>)
    ensures "count" !in data ==> r == Some(next >= 0)
    ensures "count" in data && data["count"].Int? ==> r == Some(next >= data["count"].i)
    ensures "count" in data && !data["count"].Int? && !data["count"].Bool? ==> r == None
  {
    if "count" !in data then Some(next >= 0)
    else
      match data["count"]
      case Int(c) => Some(next >= c)
      case Bool(b) => Some(next >= if b then 1 else 0)
      case _ => None
  }

  /**
   One pass of the loop body for the request at offset `from`:
   - a raised call, an HTTP error status (`raise_for_status`) or a body that
     is not JSON ends the loop with nothing from this page;
   - a body that is not an object (no `.get`), or whose `content_elements`
     is missing or falsy, ends it with nothing;
   - truthy `content_elements` that are not a list raise on the first
     element, with nothing kept;
   - otherwise the rows are mapped, and the loop goes on only when every
     row mapped, the advanced offset is below the hit count and below the
     window.
   */
  function PageOf<R>(reply: Reply, mapRow: Value -> Result<R>, from: int): (p: Page<R>)
    ensures p.more ==> from + PageSize < Window
    ensures !reply.Response? || !IsOk(reply.statusCode) || reply.json.None? ==> p == Page([], false)
  {
    match reply
    case Exception(_) => Page([], false)
    case Response(code, json) =>
      if !IsOk(code) || json.None? || !json.value.Obj? then Page([], false)
      else
        var data := json.value.fields;
        var content := if "content_elements" in data then data["content_elements"] else Null;
        if !Truthy(content) || !content.Arr? then Page([], false)
        else
          var (records, ok) := MapRows(mapRow, content.items);
          var next := from + PageSize;
          Page(records, ok && CountReached(data, next) == Some(false) && next < Window)
  }

  /** A full page that maps, below both the hit count and the window, asks for the next one. */
  lemma PageContinues<R>(mapRow: Value -> Result<R>, from: int, rows: seq<Value>, count: int)
    requires |rows| > 0 && forall k :: 0 <= k < |rows| ==> mapRow(rows[k]).Ok?
    requires from + PageSize < count && from + PageSize < Window
    ensures var reply := Response(200, Some(Obj(map["content_elements" := Arr(rows), "count" := Int(count)])));
            var p := PageOf(reply, mapRow, from);
            p.more && |p.records| == |rows|
            && forall k :: 0 <= k < |rows| ==> mapRow(rows[k]) == Ok(p.records[k])
  {
    MapRowsAll(mapRow, rows);
  }

  /**
   `fetch_*_for_range` from offset `from`: the offsets asked for are `from`,
   `from + 100`, ... one per page, every page but the last asks for the
   next one, and the last does not.
   */
  function FetchFrom<R>(search: int -> Reply, mapRow: Value -> Result<R>, from: int): (r: Fetched<R>)
    ensures |r.offsets| >= 1
    ensures forall k :: 0 <= k < |r.offsets| ==> r.offsets[k] == from + PageSize * k
    ensures forall k :: 0 <= k < |r.offsets| - 1 ==> r.offsets[k] + PageSize < Window
    ensures forall k :: 0 <= k < |r.offsets| - 1 ==> PageOf(search(r.offsets[k]), mapRow, r.offsets[k]).more
    ensures var last := r.offsets[|r.offsets| - 1];
            !PageOf(search(last), mapRow, last).more
    decreases Window - from
  {
    var page := PageOf(search(from), mapRow, from);
    if page.more then
      var rest := FetchFrom(search, mapRow, from + PageSize);
      Fetched(page.records + rest.items, [from] + rest.offsets)
    else
      Fetched(page.records, [from])
  }

  /** The records of the pages at the given offsets, page after page. */
  function PagesRecords<R>(search: int -> Reply, mapRow: Value -> Result<R>, offsets: seq<int>): seq<R>
    decreases |offsets|
  {
    if |offsets| == 0 then []
    else PageOf(search(offsets[0]), mapRow, offsets[0]).records + PagesRecords(search, mapRow, offsets[1..])
  }

  /** The fetched items are the records of the requested pages, concatenated in page order. */
  lemma {:induction false} FetchFromItems<R>(search: int -> Reply, mapRow: Value -> Result<R>, from: int)
    ensures var r := FetchFrom(search, mapRow, from);
            r.items == PagesRecords(search, mapRow, r.offsets)
    decreases Window - from
  {
    var page := PageOf(search(from), mapRow, from);
    if page.more {
      FetchFromItems(search, mapRow, from + PageSize);
      var r := FetchFrom(search, mapRow, from);
      assert r.offsets[1..] == FetchFrom(search, mapRow, from + PageSize).offsets;
    }
  }

  /** The loop of a range: from offset 0. */
  function Fetch<R>(search: int -> Reply, mapRow: Value -> Result<R>): (r: Fetched<R>)
    ensures |r.offsets| >= 1
    ensures forall k :: 0 <= k < |r.offsets| ==> r.offsets[k] == PageSize * k
  {
    FetchFrom(search, mapRow, 0)
  }

  /**
   From offset 0 every request stays inside the search window, so a range
   costs at most 100 requests.
   */
  lemma FetchWithinWindow<R>(search: int -> Reply, mapRow: Value -> Result<R>)
    ensures var r := Fetch(search, mapRow);
            |r.offsets| <= Window / PageSize
            && forall k :: 0 <= k < |r.offsets| ==> 0 <= r.offsets[k] < Window
  {
    var r := Fetch(search, mapRow);
    var n := |r.offsets|;
    if n > 1 {
      assert r.offsets[n - 2] + PageSize < Window;
      assert r.offsets[n - 2] == PageSize * (n - 2);
    }
  }

  /** A first page that ends the loop is the only request. */
  lemma FirstPageStops<R>(search: int -> Reply, mapRow: Value -> Result<R>)
    requires !PageOf(search(0), mapRow, 0).more
    ensures Fetch(search, mapRow) == Fetched(PageOf(search(0), mapRow, 0).records, [0])
  {
  }

  /** Whatever holds of every record a row maps to holds of every record of the pages. */
  lemma {:induction false} PagesRecordsFromRows<R>(search: int -> Reply, mapRow: Value -> Result<R>, offsets: seq<int>, P: R -> bool)
    requires forall v: Value :: mapRow(v).Ok? ==> P(mapRow(v).value)
    ensures forall x :: x in PagesRecords(search, mapRow, offsets) ==> P(x)
    decreases |offsets|
  {
    if |offsets| > 0 {
      PagesRecordsFromRows(search, mapRow, offsets[1..], P);
      var page := PageOf(search(offsets[0]), mapRow, offsets[0]);
      forall x | x in page.records
        ensures P(x)
      {
        var k :| 0 <= k < |page.records| && page.records[k] == x;
        PageRecordFromRow(search(offsets[0]), mapRow, offsets[0], k);
      }
    }
  }

  /** Each record of a page is the mapping of some row. */
  lemma PageRecordFromRow<R>(reply: Reply, mapRow: Value -> Result<R>, from: int, k: nat)
    requires k < |PageOf(reply, mapRow, from).records|
    ensures exists v: Value :: mapRow(v) == Ok(PageOf(reply, mapRow, from).records[k])
  {
    var data := reply.json.value.fields;
    var content := data["content_elements"];
    assert mapRow(content.items[k]) == Ok(PageOf(reply, mapRow, from).records[k]);
  }
}

=== FILE: sessions.dfy ===
/**
 What the deletion scripts have in common: the state a script shares with
 the units it runs (its `stats` counters and the trace of requests sent to
 the vendor API) and the reading of ids from CSV rows.
 */
module Sessions {
  import opened Wrappers
  import opened Records
  import opened FanOut

  /** The script's counters and the requests sent so far, oldest first. */
  datatype Session = Session(stats: Stats, sent: seq<Request>)

  /** A unit's effect on the session and how it finished. */
  datatype Call = Call(session: Session, outcome: Outcome<Dict>)

  /** Records that `req` was sent; the counters are untouched. */
  function Send(s: Session, req: Request): (s1: Session)
    ensures s1.stats == s.stats && s1.sent == s.sent + [req]
  {
    Session(s.stats, s.sent + [req])
  }

  /** The delete unit handed to a processor: the call's session and outcome as a pair. */
  function AsUnit<I>(call: (Session, I) -> Call): (Session, I) -> (Session, Outcome<Dict>) {
    (s: Session, item: I) => (call(s, item).session, call(s, item).outcome)
  }

  /** `str(e)` of the `IndexError` raised by indexing past the end of a list. */
  const IndexOutOfRange := "list index out of range"

  /**
   The first column of every CSV row (`row[0]`), or `None` when some row is
   empty and `row[0]` raises `IndexError`.
   */
  function FirstColumn(rows: seq<seq<string>>): (r: Option<seq<string>>)
    ensures r.Some? <==> forall k :: 0 <= k < |rows| ==> |rows[k]| > 0
    ensures r.Some? ==> |r.value| == |rows| && forall k :: 0 <= k < |rows| ==> r.value[k] == rows[k][0]
  {
    if exists k :: 0 <= k < |rows| && |rows[k]| == 0 then None
    else Some(seq(|rows|, k requires 0 <= k < |rows| => rows[k][0]))
  }

  /**
   The first two columns of every CSV row (`(row[0], row[1])`), or `None`
   when some row is shorter and `row[1]` raises `IndexError`.
   */
  function FirstTwoColumns(rows: seq<seq<string>>): (r: Option<seq<(string, string)>>)
    ensures r.Some? <==> forall k :: 0 <= k < |rows| ==> |rows[k]| > 1
    ensures r.Some? ==> |r.value| == |rows| && forall k :: 0 <= k < |rows| ==> r.value[k] == (rows[k][0], rows[k][1])
  {
    if exists k :: 0 <= k < |rows| && |rows[k]| < 2 then None
    else Some(seq(|rows|, k requires 0 <= k < |rows| => (rows[k][0], rows[k][1])))
  }
}

=== FILE: status_checker.dfy ===
/**
 The redirect status checker: every distinct non-empty `canonical_url` of
 the report rows is requested once (without following redirects), and each
 row's `check_404_or_200` column receives the status of its URL as text.

 The HTTP session is the oracle `get`, which says how the `GET` of a full URL
 ended; the semaphore and the event loop only order the requests and are not
 modelled.
 */
module StatusChecker {
  import opened Wrappers
  import opened Records
  import opened Text
  import opened Utils

  /** How a check ended: an HTTP status, `"timeout"` or `"error"`. */
  datatype Checked = Code(code: int) | Timeout | Error

  /** `website_domain.rstrip('/')`. */
  function NormalizeDomain(domain: string): (r: string)
    ensures r <= domain && (|r| == 0 || r[|r| - 1] != '/')
  {
    RStripChar(domain, '/')
  }

  /** A URL starting with `http` is used as is; anything else is a path on the website domain. */
  function FullUrl(domain: string, url: string): (r: string)
    ensures StartsWith(url, "http") ==> r == url
    ensures !StartsWith(url, "http") ==> r == domain + url
  {
    if StartsWith(url, "http") then url else domain + url
  }

  /** `check_single_status` of a string URL: the result is keyed by the URL as given, not the full URL. */
  function CheckSingleStatus(domain: string, hasSession: bool, get: string -> Checked, url: string): (r: (string, Checked))
    ensures r.0 == url
    ensures !hasSession ==> r.1 == Error
  {
    (url, if hasSession then get(FullUrl(domain, url)) else Error)
  }

  /** Python can hash the value (lists and dicts cannot be dictionary keys). */
  predicate Hashable(v: Value) {
    !v.Arr? && !v.Obj?
  }

  /**
   One task of `check_urls_batch`: a non-string URL makes `url.startswith`
   raise before the `try`, and `gather` hands back the exception (`None`).
   */
  function Task(domain: string, hasSession: bool, get: string -> Checked, url: Value): (r: Option<(Value, Checked)>)
    ensures r.Some? <==> url.Str?
    ensures r.Some? ==> r.value == (url, CheckSingleStatus(domain, hasSession, get, url.s).1)
  {
    if url.Str? then Some((url, CheckSingleStatus(domain, hasSession, get, url.s).1)) else None
  }

  /** The pair a task contributes: a raised task becomes `("unknown", "error")`. */
  function TaskResult(domain: string, hasSession: bool, get: string -> Checked, url: Value): (Value, Checked) {
    match Task(domain, hasSession, get, url)
    case Some(p) => p
    case None => (Str("unknown"), Error)
  }

  /** `check_urls_batch`: one pair per URL, in the order of the URLs. */
  function CheckUrlsBatch(domain: string, hasSession: bool, get: string -> Checked, urls: seq<Value>): (r: seq<(Value, Checked)>)
    ensures |r| == |urls|
    ensures forall k :: 0 <= k < |urls| ==> r[k] == TaskResult(domain, hasSession, get, urls[k])
  {
    seq(|urls|, k requires 0 <= k < |urls| => TaskResult(domain, hasSession, get, urls[k]))
  }

  /** Checking two lists of URLs is checking their concatenation. */
  lemma CheckUrlsBatchAppend(domain: string, hasSession: bool, get: string -> Checked, a: seq<Value>, b: seq<Value>)
    ensures CheckUrlsBatch(domain, hasSession, get, a + b)
            == CheckUrlsBatch(domain, hasSession, get, a) + CheckUrlsBatch(domain, hasSession, get, b)
  {
  }

  /** The batches, one after another, with their results concatenated (`all_results.extend`). */
  function CheckBatches(domain: string, hasSession: bool, get: string -> Checked, batches: seq<seq<Value>>): (r: seq<(Value, Checked)>)
    decreases |batches|
  {
    if |batches| == 0 then []
    else CheckUrlsBatch(domain, hasSession, get, batches[0]) + CheckBatches(domain, hasSession, get, batches[1..])
  }

  /** Batching does not change the results: they are those of one batch holding every URL. */
  lemma {:induction false} CheckBatchesFlat(domain: string, hasSession: bool, get: string -> Checked, batches: seq<seq<Value>>)
    ensures CheckBatches(domain, hasSession, get, batches) == CheckUrlsBatch(domain, hasSession, get, Flatten(batches))
    decreases |batches|
  {
    if |batches| > 0 {
      CheckBatchesFlat(domain, hasSession, get, batches[1..]);
      CheckUrlsBatchAppend(domain, hasSession, get, batches[0], Flatten(batches[1..]));
    }
  }

  /** No two positions hold the same element. */
  predicate Distinct<T(==,!new)>(xs: seq<T>) {
    forall i, j :: 0 <= i < j < |xs| ==> xs[i] != xs[j]
  }

  /** `list(dict.fromkeys(xs))`: the first occurrence of each element, in order. */
  function Dedup<T(==,!new)>(xs: seq<T>): (r: seq<T>)
    ensures forall x :: x in r <==> x in xs
    ensures Distinct(r)
    ensures |r| <= |xs|
    decreases |xs|
  {
    if |xs| == 0 then []
    else
      var d := Dedup(xs[..|xs| - 1]);
      var x := xs[|xs| - 1];
      assert forall y :: y in xs <==> y in xs[..|xs| - 1] || y == x by {
        assert xs == xs[..|xs| - 1] + [x];
      }
      if x in d then d else d + [x]
  }

  /** A list without repetitions is its own deduplication. */
  lemma {:induction false} DedupDistinct<T(!new)>(xs: seq<T>)
    requires Distinct(xs)
    ensures Dedup(xs) == xs
    decreases |xs|
  {
    if |xs| > 0 {
      var init := xs[..|xs| - 1];
      DedupDistinct(init);
      assert xs[|xs| - 1] !in init;
      assert init + [xs[|xs| - 1]] == xs;
    }
  }

  /**
   `dict.fromkeys` keeps first-seen order: of two kept elements, the one
   whose first occurrence in `xs` comes earlier comes first.
   */
  lemma {:induction false} DedupFirstSeen<T(!new)>(xs: seq<T>)
    ensures forall i, j :: 0 <= i < j < |Dedup(xs)| ==> FirstIndex(xs, Dedup(xs)[i]) < FirstIndex(xs, Dedup(xs)[j])
    decreases |xs|
  {
    if |xs| > 0 {
      var init := xs[..|xs| - 1];
      var x := xs[|xs| - 1];
      DedupFirstSeen(init);
      var d := Dedup(init);
      FirstSeenPrefix(xs, init, d);
      if x !in d {
        assert Dedup(xs) == d + [x];
        forall y | y in d
          ensures FirstIndex(xs, y) < FirstIndex(xs, x)
        {
          FirstIndexPrefix(xs, init, y);
        }
        FirstSeenAppend(xs, d, x);
      } else {
        assert Dedup(xs) == d;
      }
    }
  }

  /** First-seen order in a prefix carries over to the whole list. */
  lemma FirstSeenPrefix<T(!new)>(xs: seq<T>, init: seq<T>, d: seq<T>)
    requires init <= xs
    requires forall y :: y in d ==> y in init && y in xs
    requires forall i, j :: 0 <= i < j < |d| ==> FirstIndex(init, d[i]) < FirstIndex(init, d[j])
    ensures forall i, j :: 0 <= i < j < |d| ==> FirstIndex(xs, d[i]) < FirstIndex(xs, d[j])
  {
    forall i, j | 0 <= i < j < |d|
      ensures FirstIndex(xs, d[i]) < FirstIndex(xs, d[j])
    {
      FirstIndexPrefix(xs, init, d[i]);
      FirstIndexPrefix(xs, init, d[j]);
    }
  }

  /** Appending an element first seen after every element of `d` keeps first-seen order. */
  lemma FirstSeenAppend<T>(xs: seq<T>, d: seq<T>, x: T)
    requires x in xs && forall y :: y in d ==> y in xs
    requires forall i, j :: 0 <= i < j < |d| ==> FirstIndex(xs, d[i]) < FirstIndex(xs, d[j])
    requires forall y :: y in d ==> FirstIndex(xs, y) < FirstIndex(xs, x)
    ensures forall i, j :: 0 <= i < j < |d + [x]| ==> FirstIndex(xs, (d + [x])[i]) < FirstIndex(xs, (d + [x])[j])
  {
    forall i, j | 0 <= i < j < |d + [x]|
      ensures FirstIndex(xs, (d + [x])[i]) < FirstIndex(xs, (d + [x])[j])
    {
      assert (d + [x])[i] == d[i];
      if j == |d| {
        assert (d + [x])[j] == x;
      } else {
        assert (d + [x])[j] == d[j];
      }
    }
  }


  /** In a prefix that holds `y`, the first occurrence of `y` is where it is in the whole sequence. */
  lemma FirstIndexPrefix<T(!new)>(xs: seq<T>, init: seq<T>, y: T)
    requires init <= xs && y in init
    ensures FirstIndex(xs, y) == FirstIndex(init, y)
  {
    var a, b := FirstIndex(init, y), FirstIndex(xs, y);
    assert xs[a] == y;
  }

  /** Deduplicating twice changes nothing. */
  lemma DedupIdempotent<T(!new)>(xs: seq<T>)
    ensures Dedup(Dedup(xs)) == Dedup(xs)
  {
    DedupDistinct(Dedup(xs));
  }

  /** `dict(pairs)`: later pairs overwrite earlier ones with the same key. */
  function ToDict<K(!new), V>(pairs: seq<(K, V)>): (m: map<K, V>)
    ensures forall k :: k in m <==> exists i :: 0 <= i < |pairs| && pairs[i].0 == k
    decreases |pairs|
  {
    if |pairs| == 0 then map[]
    else
      var init := pairs[..|pairs| - 1];
      var last := pairs[|pairs| - 1];
      assert forall i :: 0 <= i < |init| ==> init[i] == pairs[i];
      ToDict(init)[last.0 := last.1]
  }

  /** The value of a key is that of its last pair. */
  lemma {:induction false} ToDictLast<K(!new), V>(pairs: seq<(K, V)>, i: nat)
    requires i < |pairs|
    requires forall j :: i < j < |pairs| ==> pairs[j].0 != pairs[i].0
    ensures ToDict(pairs)[pairs[i].0] == pairs[i].1
    decreases |pairs|
  {
    if i < |pairs| - 1 {
      var init := pairs[..|pairs| - 1];
      assert init[i] == pairs[i];
      ToDictLast(init, i);
    }
  }

  /** Gathered statuses, keyed by the URL values as the rows hold them. */
  type Statuses = map<Value, Checked>

  /**
   `check_all_urls` with a batch size: duplicates dropped (`dict.fromkeys`
   raises `TypeError` on an unhashable URL), the rest checked batch by batch
   (`chunk_list` raises `ValueError` on a zero batch size), and the pairs
   turned into a dictionary.
   */
  function CheckAllUrls(domain: string, hasSession: bool, get: string -> Checked, urls: seq<Value>, batchSize: int): (r: Result<Statuses>)
    ensures r.Ok? <==> batchSize != 0 && forall k :: 0 <= k < |urls| ==> Hashable(urls[k])
    ensures r.Err? && batchSize == 0 && (forall k :: 0 <= k < |urls| ==> Hashable(urls[k])) ==> r.error == "ValueError"
    ensures batchSize < 0 && r.Ok? ==> r.value == map[]
  {
    if exists k :: 0 <= k < |urls| && !Hashable(urls[k]) then Err("TypeError")
    else if batchSize == 0 then Err("ValueError")
    else
      var unique := Dedup(urls);
      Ok(ToDict(CheckBatches(domain, hasSession, get, ChunkList(unique, batchSize))))
  }

  /** Batching aside, the statuses are the dictionary of one batch over the distinct URLs. */
  lemma CheckAllUrlsUnbatched(domain: string, hasSession: bool, get: string -> Checked, urls: seq<Value>, batchSize: int)
    requires batchSize > 0
    requires forall k :: 0 <= k < |urls| ==> Hashable(urls[k])
    ensures CheckAllUrls(domain, hasSession, get, urls, batchSize)
            == Ok(ToDict(CheckUrlsBatch(domain, hasSession, get, Dedup(urls))))
  {
    CheckBatchesFlat(domain, hasSession, get, ChunkList(Dedup(urls), batchSize));
  }

  /** Over distinct string URLs, each URL maps to the status of its own request. */
  lemma DistinctUrlsDict(domain: string, hasSession: bool, get: string -> Checked, unique: seq<Value>, i: nat)
    requires Distinct(unique) && i < |unique|
    requires forall k :: 0 <= k < |unique| ==> unique[k].Str?
    ensures var m := ToDict(CheckUrlsBatch(domain, hasSession, get, unique));
            unique[i] in m && m[unique[i]] == CheckSingleStatus(domain, hasSession, get, unique[i].s).1
  {
    var pairs := CheckUrlsBatch(domain, hasSession, get, unique);
    forall j | i < j < |pairs|
      ensures pairs[j].0 != pairs[i].0
    {
      assert pairs[j].0 == unique[j] && pairs[i].0 == unique[i];
    }
    ToDictLast(pairs, i);
  }

  /** Each string URL has the status of its own request in the dictionary over the distinct URLs. */
  lemma UrlStatus(domain: string, hasSession: bool, get: string -> Checked, urls: seq<Value>, k: nat)
    requires k < |urls|
    requires forall j :: 0 <= j < |urls| ==> urls[j].Str?
    ensures var m := ToDict(CheckUrlsBatch(domain, hasSession, get, Dedup(urls)));
            urls[k] in m && m[urls[k]] == CheckSingleStatus(domain, hasSession, get, urls[k].s).1
  {
    var unique := Dedup(urls);
    assert urls[k] in unique;
    var i :| 0 <= i < |unique| && unique[i] == urls[k];
    forall j | 0 <= j < |unique|
      ensures unique[j].Str?
    {
      assert unique[j] in urls;
    }
    DistinctUrlsDict(domain, hasSession, get, unique, i);
  }

  /** The dictionary over the distinct URLs has no key besides the URLs. */
  lemma UrlKeys(domain: string, hasSession: bool, get: string -> Checked, urls: seq<Value>, v: Value)
    requires forall j :: 0 <= j < |urls| ==> urls[j].Str?
    requires v in ToDict(CheckUrlsBatch(domain, hasSession, get, Dedup(urls)))
    ensures v in urls
  {
    var unique := Dedup(urls);
    var pairs := CheckUrlsBatch(domain, hasSession, get, unique);
    var i :| 0 <= i < |pairs| && pairs[i].0 == v;
    var u := unique[i];
    assert u in urls;
    assert u.Str?;
    assert pairs[i] == TaskResult(domain, hasSession, get, u);
    assert Task(domain, hasSession, get, u).Some?;
    assert pairs[i].0 == u;
  }

  /**
   With string URLs and a positive batch size, every URL gets exactly one
   entry: the status of its own request.
   */
  lemma CheckAllUrlsStrings(domain: string, hasSession: bool, get: string -> Checked, urls: seq<Value>, batchSize: int)
    requires batchSize > 0
    requires forall k :: 0 <= k < |urls| ==> urls[k].Str?
    ensures var r := CheckAllUrls(domain, hasSession, get, urls, batchSize);
            r.Ok?
            && (forall v :: v in r.value <==> v in urls)
            && (forall k :: 0 <= k < |urls| ==>
                  r.value[urls[k]] == CheckSingleStatus(domain, hasSession, get, urls[k].s).1)
  {
    CheckAllUrlsUnbatched(domain, hasSession, get, urls, batchSize);
    forall k | 0 <= k < |urls|
      ensures var m := ToDict(CheckUrlsBatch(domain, hasSession, get, Dedup(urls)));
              urls[k] in m && m[urls[k]] == CheckSingleStatus(domain, hasSession, get, urls[k].s).1
    {
      UrlStatus(domain, hasSession, get, urls, k);
    }
    forall v | v in ToDict(CheckUrlsBatch(domain, hasSession, get, Dedup(urls)))
      ensures v in urls
    {
      UrlKeys(domain, hasSession, get, urls, v);
    }
  }

  /**
   A URL that is not a string is reported under the key `"unknown"` as an
   error, unless a later pair with that key (a real URL `"unknown"`)
   overwrites it.
   */
  lemma NonStringUrlIsUnknownError(domain: string, hasSession: bool, get: string -> Checked, urls: seq<Value>, k: nat)
    requires k < |urls| && Hashable(urls[k]) && !urls[k].Str?
    requires forall j :: 0 <= j < |urls| ==> Hashable(urls[j])
    requires Str("unknown") !in urls
    ensures var r := CheckAllUrls(domain, hasSession, get, urls, 100);
            r.Ok? && Str("unknown") in r.value && r.value[Str("unknown")] == Error
  {
    var unique := Dedup(urls);
    CheckAllUrlsUnbatched(domain, hasSession, get, urls, 100);
    assert urls[k] in unique;
    var i :| 0 <= i < |unique| && unique[i] == urls[k];
    NonStringLast(unique, i);
    var last :| i <= last < |unique| && !unique[last].Str? && forall j :: last < j < |unique| ==> unique[j].Str?;
    UnknownFromLast(domain, hasSession, get, unique, last);
  }

  /** The last non-string of a URL list without `"unknown"` sets the `"unknown"` entry. */
  lemma UnknownFromLast(domain: string, hasSession: bool, get: string -> Checked, unique: seq<Value>, last: nat)
    requires last < |unique| && !unique[last].Str?
    requires forall j :: last < j < |unique| ==> unique[j].Str?
    requires Str("unknown") !in unique
    ensures var m := ToDict(CheckUrlsBatch(domain, hasSession, get, unique));
            Str("unknown") in m && m[Str("unknown")] == Error
  {
    var pairs := CheckUrlsBatch(domain, hasSession, get, unique);
    assert pairs[last] == (Str("unknown"), Error);
    forall j | last < j < |pairs|
      ensures pairs[j].0 != pairs[last].0
    {
      assert pairs[j].0 == unique[j];
      assert unique[j] in unique;
    }
    ToDictLast(pairs, last);
  }

  /** Some last position holds a non-string, once one does. */
  lemma {:induction false} NonStringLast(xs: seq<Value>, i: nat)
    requires i < |xs| && !xs[i].Str?
    ensures exists last :: i <= last < |xs| && !xs[last].Str? && forall j :: last < j < |xs| ==> xs[j].Str?
    decreases |xs| - i
  {
    if exists j :: i < j < |xs| && !xs[j].Str? {
      var j :| i < j < |xs| && !xs[j].Str?;
      NonStringLast(xs, j);
    } else {
      assert forall j :: i < j < |xs| ==> xs[j].Str?;
    }
  }

  /** `str(status_code)` of a row's lookup; `""` when its URL was not checked. */
  function StatusText(s: Option<Checked>): (t: string)
    ensures s == None ==> t == ""
    ensures s == Some(Timeout) ==> t == "timeout"
    ensures s == Some(Error) ==> t == "error"
    ensures s.Some? && s.value.Code? ==> t == IntToString(s.value.code)
  {
    match s
    case None => ""
    case Some(Code(c)) => IntToString(c)
    case Some(Timeout) => "timeout"
    case Some(Error) => "error"
  }

  /** `item.get("canonical_url", "")`. */
  function CanonicalUrl(item: Dict): Value {
    if "canonical_url" in item then item["canonical_url"] else Str("")
  }

  const CheckColumn := "check_404_or_200"

  /** The status text of a row: its URL's status, `""` when unchecked. */
  function RowStatus(statuses: Statuses, item: Dict): string {
    var url := CanonicalUrl(item);
    StatusText(if url in statuses then Some(statuses[url]) else None)
  }

  /**
   `update_dataframe_with_statuses`: a copy of every row with the status
   column set; an unhashable URL makes the dictionary lookup raise.
   */
  function UpdateWithStatuses(data: seq<Dict>, statuses: Statuses): (r: Result<seq<Dict>>)
    ensures r.Ok? <==> forall k :: 0 <= k < |data| ==> Hashable(CanonicalUrl(data[k]))
    ensures r.Ok? ==> |r.value| == |data|
    ensures r.Ok? ==> forall k :: 0 <= k < |data| ==>
              r.value[k].Keys == data[k].Keys + {CheckColumn}
              && r.value[k][CheckColumn] == Str(RowStatus(statuses, data[k]))
              && forall f :: f in data[k] && f != CheckColumn ==> r.value[k][f] == data[k][f]
  {
    if exists k :: 0 <= k < |data| && !Hashable(CanonicalUrl(data[k])) then Err("TypeError")
    else Ok(seq(|data|, k requires 0 <= k < |data| => data[k][CheckColumn := Str(RowStatus(statuses, data[k]))]))
  }

  /** The URLs to check: every truthy `canonical_url`, in row order, duplicates kept. */
  function UrlsToCheck(data: seq<Dict>): (urls: seq<Value>)
    ensures forall v :: v in urls <==> exists k :: 0 <= k < |data| && "canonical_url" in data[k]
                                                   && Truthy(data[k]["canonical_url"]) && data[k]["canonical_url"] == v
    decreases |data|
  {
    if |data| == 0 then []
    else
      var rest := UrlsToCheck(data[1..]);
      assert forall k :: 1 <= k < |data| ==> data[k] == data[1..][k - 1];
      if "canonical_url" in data[0] && Truthy(data[0]["canonical_url"]) then [data[0]["canonical_url"]] + rest else rest
  }

  /**
   `check_redirect_statuses_sync` on a session (`hasSession` is false only
   when the checks run outside the context manager that opens the session;
   opening it does not fail quietly): rows without any URL to check come back
   untouched, without the status column; otherwise every URL is checked in
   batches of 100 and the rows are updated.
   */
  function CheckRedirectStatuses(data: seq<Dict>, websiteDomain: string, hasSession: bool, get: string -> Checked): (r: Result<seq<Dict>>)
    ensures |UrlsToCheck(data)| == 0 ==> r == Ok(data)
  {
    var urls := UrlsToCheck(data);
    if |urls| == 0 then Ok(data)
    else
      match CheckAllUrls(NormalizeDomain(websiteDomain), hasSession, get, urls, 100)
      case Err(e) => Err(e)
      case Ok(statuses) => UpdateWithStatuses(data, statuses)
  }

  /** Every `canonical_url` present is a string. */
  predicate StringUrls(data: seq<Dict>) {
    forall k :: 0 <= k < |data| && "canonical_url" in data[k] ==> data[k]["canonical_url"].Str?
  }

  /** The status text of one row, given statuses holding every checked URL. */
  lemma RowStatusChecked(domain: string, hasSession: bool, get: string -> Checked, urls: seq<Value>, statuses: Statuses, item: Dict)
    requires CanonicalUrl(item).Str?
    requires CanonicalUrl(item).s != "" ==> CanonicalUrl(item) in urls
    requires forall k :: 0 <= k < |urls| ==> urls[k].Str?
    requires forall v :: v in statuses <==> v in urls
    requires forall k :: 0 <= k < |urls| ==> statuses[urls[k]] == CheckSingleStatus(domain, hasSession, get, urls[k].s).1
    requires Str("") !in urls
    ensures var url := CanonicalUrl(item).s;
            RowStatus(statuses, item)
              == if url == "" then "" else StatusText(Some(CheckSingleStatus(domain, hasSession, get, url).1))
  {
    var v := CanonicalUrl(item);
    if v.s != "" {
      var k :| 0 <= k < |urls| && urls[k] == v;
    }
  }

  /** Under string URLs, the URLs to check are non-empty strings found in the rows. */
  lemma UrlsToCheckStrings(data: seq<Dict>)
    requires StringUrls(data)
    ensures forall k :: 0 <= k < |UrlsToCheck(data)| ==> UrlsToCheck(data)[k].Str?
    ensures Str("") !in UrlsToCheck(data)
    ensures forall k :: 0 <= k < |data| && CanonicalUrl(data[k]).s != "" ==> CanonicalUrl(data[k]) in UrlsToCheck(data)
  {
    var urls := UrlsToCheck(data);
    forall k | 0 <= k < |urls|
      ensures urls[k].Str?
    {
      assert urls[k] in urls;
    }
  }

  /**
   With string URLs and some URL to check, every row gets the status of the
   request for its own URL, resolved against the normalised domain; rows with
   an empty or missing URL get `""`; and nothing else in a row changes.
   */
  lemma CheckRedirectStatusesRows(data: seq<Dict>, websiteDomain: string, hasSession: bool, get: string -> Checked)
    requires StringUrls(data) && |UrlsToCheck(data)| > 0
    ensures var r := CheckRedirectStatuses(data, websiteDomain, hasSession, get);
            r.Ok? && |r.value| == |data|
            && forall k :: 0 <= k < |data| ==>
                 var url := CanonicalUrl(data[k]).s;
                 r.value[k][CheckColumn]
                   == Str(if url == "" then "" else StatusText(Some(CheckSingleStatus(NormalizeDomain(websiteDomain), hasSession, get, url).1)))
                 && forall f :: f in data[k] && f != CheckColumn ==> r.value[k][f] == data[k][f]
  {
    var urls := UrlsToCheck(data);
    var domain := NormalizeDomain(websiteDomain);
    UrlsToCheckStrings(data);
    CheckAllUrlsStrings(domain, hasSession, get, urls, 100);
    var statuses := CheckAllUrls(domain, hasSession, get, urls, 100).value;
    forall k | 0 <= k < |data|
      ensures var url := CanonicalUrl(data[k]).s;
              RowStatus(statuses, data[k])
                == if url == "" then "" else StatusText(Some(CheckSingleStatus(domain, hasSession, get, url).1))
    {
      RowStatusChecked(domain, hasSession, get, urls, statuses, data[k]);
    }
  }
}

=== FILE: text.dfy ===
/**
 The handful of Python `str` operations the scripts rely on, over `string`
 (a `seq<char>`): prefix tests, substring search, `rstrip`, `replace`,
 `split`/`join`, `strip`, the filename scrubbing regex and `str(int)`.
 */
module Text {

  /** `s.startswith(p)`. */
  predicate StartsWith(s: string, p: string) {
    p <= s
  }

  /** `sub in s`: some window of `s` equals `sub`. */
  predicate Contains(s: string, sub: string)
    decreases |s|
  {
    |sub| <= |s| && (s[..|sub|] == sub || Contains(s[1..], sub))
  }

  /** A concrete occurrence is enough to establish `sub in s`. */
  lemma {:induction false} ContainsAt(s: string, sub: string, i: nat)
    requires i + |sub| <= |s|
    requires s[i..i + |sub|] == sub
    ensures Contains(s, sub)
    decreases i
  {
    if i > 0 {
      assert s[1..][i - 1..i - 1 + |sub|] == s[i..i + |sub|];
      ContainsAt(s[1..], sub, i - 1);
    }
  }

  /** `s.rstrip(c)` for a single character `c`: drop every trailing `c`. */
  function RStripChar(s: string, c: char): (r: string)
    ensures r <= s
    ensures |r| == 0 || r[|r| - 1] != c
    ensures forall i :: |r| <= i < |s| ==> s[i] == c
    decreases |s|
  {
    if |s| > 0 && s[|s| - 1] == c then RStripChar(s[..|s| - 1], c) else s
  }

  /** Stripping twice strips nothing more. */
  lemma RStripCharIdempotent(s: string, c: char)
    ensures RStripChar(RStripChar(s, c), c) == RStripChar(s, c)
  {
  }

  /**
   `s.replace(pat, rep)` for a non-empty `pat`: scan left to right and replace
   every non-overlapping occurrence.
   */
  function ReplaceAll(s: string, pat: string, rep: string): (r: string)
    requires |pat| > 0
    ensures !Contains(s, pat) ==> r == s
    decreases |s|
  {
    if |s| < |pat| then s
    else if s[..|pat|] == pat then rep + ReplaceAll(s[|pat|..], pat, rep)
    else [s[0]] + ReplaceAll(s[1..], pat, rep)
  }

  /** Replacing an occurrence at the very front puts the replacement there. */
  lemma ReplaceAllFront(pat: string, rep: string, rest: string)
    requires |pat| > 0
    ensures ReplaceAll(pat + rest, pat, rep) == rep + ReplaceAll(rest, pat, rep)
  {
    assert (pat + rest)[..|pat|] == pat;
    assert (pat + rest)[|pat|..] == rest;
  }

  /**
   When `pat` occurs, `ReplaceAll` replaces its leftmost occurrence and goes
   on after it: `s` splits as `a + pat + b` where `a` followed by all but the
   last character of `pat` holds no occurrence, and the result is `a`, the
   replacement, then `b` with its own occurrences replaced.
   */
  lemma ReplaceAllLeftmost(s: string, pat: string, rep: string)
    requires |pat| > 0 && Contains(s, pat)
    ensures exists a, b :: s == a + pat + b && !Contains(a + pat[..|pat| - 1], pat)
                           && ReplaceAll(s, pat, rep) == a + rep + ReplaceAll(b, pat, rep)
  {
    var i := FirstOccurrence(s, pat, rep);
    SplitAround(s, pat, i);
    var a, b := s[..i], s[i + |pat|..];
    assert s == a + pat + b && !Contains(a + pat[..|pat| - 1], pat)
           && ReplaceAll(s, pat, rep) == a + rep + ReplaceAll(b, pat, rep);
  }

  /** An occurrence of `pat` at `i` splits `s` around it. */
  lemma SplitAround(s: string, pat: string, i: nat)
    requires |pat| > 0 && i + |pat| <= |s| && s[i..i + |pat|] == pat
    ensures s == s[..i] + pat + s[i + |pat|..]
    ensures s[..i] + pat[..|pat| - 1] == s[..i + |pat| - 1]
  {
    assert s == s[..i] + s[i..i + |pat|] + s[i + |pat|..];
  }

  /** The position of the leftmost occurrence of `pat` in `s`. */
  lemma {:induction false} FirstOccurrence(s: string, pat: string, rep: string) returns (i: nat)
    requires |pat| > 0 && Contains(s, pat)
    ensures i + |pat| <= |s| && s[i..i + |pat|] == pat
    ensures !Contains(s[..i + |pat| - 1], pat)
    ensures ReplaceAll(s, pat, rep) == s[..i] + rep + ReplaceAll(s[i + |pat|..], pat, rep)
    decreases |s|
  {
    if s[..|pat|] == pat {
      i := 0;
    } else {
      var j := FirstOccurrence(s[1..], pat, rep);
      i := j + 1;
      SliceOfTail(s, i, i + |pat|);
      PrefixOfPrefix(s, |pat|, i + |pat| - 1);
      TailOfPrefix(s, i + |pat| - 1);
    }
    ReplaceAllAt(s, pat, rep, i);
  }

  /** With the leftmost occurrence at `i`, everything before it is kept and the occurrence replaced. */
  lemma {:induction false} ReplaceAllAt(s: string, pat: string, rep: string, i: nat)
    requires |pat| > 0 && i + |pat| <= |s| && s[i..i + |pat|] == pat
    requires !Contains(s[..i + |pat| - 1], pat)
    ensures ReplaceAll(s, pat, rep) == s[..i] + rep + ReplaceAll(s[i + |pat|..], pat, rep)
    decreases i
  {
    if i == 0 {
      assert s[..|pat|] == pat;
    } else {
      ShiftOccurrence(s, pat, i);
      var before, tail := s[1..][..i - 1], ReplaceAll(s[i + |pat|..], pat, rep);
      ReplaceAllAt(s[1..], pat, rep, i - 1);
      calc {
        ReplaceAll(s, pat, rep);
        { ReplaceAllSkip(s, pat, rep); }
        [s[0]] + ReplaceAll(s[1..], pat, rep);
        [s[0]] + (before + rep + tail);
        { ConcatRegroup([s[0]], before, rep, tail); }
        ([s[0]] + before) + rep + tail;
        s[..i] + rep + tail;
      }
    }
  }

  /**
   A leftmost occurrence at `i > 0` is a leftmost occurrence at `i - 1` of
   the rest of `s`, and `pat` does not start `s`.
   */
  lemma ShiftOccurrence(s: string, pat: string, i: nat)
    requires |pat| > 0 && 0 < i && i + |pat| <= |s| && s[i..i + |pat|] == pat
    requires !Contains(s[..i + |pat| - 1], pat)
    ensures s[..|pat|] != pat
    ensures s[1..][i - 1..(i - 1) + |pat|] == pat && !Contains(s[1..][..(i - 1) + |pat| - 1], pat)
    ensures s[1..][(i - 1) + |pat|..] == s[i + |pat|..] && [s[0]] + s[1..][..i - 1] == s[..i]
  {
    PrefixOfPrefix(s, |pat|, i + |pat| - 1);
    TailOfPrefix(s, i + |pat| - 1);
    SliceOfTail(s, i, i + |pat|);
    ConsSlice(s, i);
  }

  /** A prefix of a prefix is a prefix. */
  lemma PrefixOfPrefix(s: string, m: nat, n: nat)
    requires m <= n <= |s|
    ensures s[..n][..m] == s[..m]
  {
  }

  /** Dropping the first character of a prefix. */
  lemma TailOfPrefix(s: string, n: nat)
    requires 1 <= n <= |s|
    ensures s[..n][1..] == s[1..][..n - 1]
  {
  }

  /** A slice of the rest of `s` is the slice of `s` one further on. */
  lemma SliceOfTail(s: string, a: nat, b: nat)
    requires 1 <= a <= b <= |s|
    ensures s[1..][a - 1..b - 1] == s[a..b] && s[1..][b - 1..] == s[b..]
  {
  }

  /** The first `i` characters are the first one followed by the next `i - 1`. */
  lemma ConsSlice(s: string, i: nat)
    requires 0 < i <= |s|
    ensures [s[0]] + s[1..][..i - 1] == s[..i]
  {
    assert forall k :: 0 <= k < i ==> ([s[0]] + s[1..][..i - 1])[k] == s[..i][k];
  }

  /** Regrouping a concatenation of four pieces. */
  lemma ConcatRegroup(a: string, b: string, c: string, d: string)
    ensures a + (b + c + d) == (a + b) + c + d
  {
  }

  /** Where `pat` does not start, the first character is kept and the scan goes on. */
  lemma ReplaceAllSkip(s: string, pat: string, rep: string)
    requires |pat| > 0 && |pat| <= |s| && s[..|pat|] != pat
    ensures ReplaceAll(s, pat, rep) == [s[0]] + ReplaceAll(s[1..], pat, rep)
  {
  }

  /**
   The characters Python's argument-less `strip()` removes (`str.isspace`):
   the ASCII controls `\t`..`\r` and `\x1c`..`\x1f`, the space, and the
   Unicode separators U+0085, U+00A0, U+1680, U+2000..U+200A, U+2028,
   U+2029, U+202F, U+205F and U+3000.
   */
  predicate IsSpace(c: char) {
    ('\U{09}' <= c <= '\U{0D}') || ('\U{1C}' <= c <= '\U{20}')
    || c == '\U{85}' || c == '\U{A0}' || c == '\U{1680}'
    || ('\U{2000}' <= c <= '\U{200A}') || c == '\U{2028}' || c == '\U{2029}'
    || c == '\U{202F}' || c == '\U{205F}' || c == '\U{3000}'
  }

  /** `s.lstrip()`. */
  function LStrip(s: string): (r: string)
    ensures |r| <= |s| && r == s[|s| - |r|..]
    ensures |r| == 0 || !IsSpace(r[0])
    ensures forall i :: 0 <= i < |s| - |r| ==> IsSpace(s[i])
    decreases |s|
  {
    if |s| > 0 && IsSpace(s[0]) then LStrip(s[1..]) else s
  }

  /** `s.rstrip()`. */
  function RStrip(s: string): (r: string)
    ensures r <= s
    ensures |r| == 0 || !IsSpace(r[|r| - 1])
    ensures forall i :: |r| <= i < |s| ==> IsSpace(s[i])
    decreases |s|
  {
    if |s| > 0 && IsSpace(s[|s| - 1]) then RStrip(s[..|s| - 1]) else s
  }

  /** `s.strip()`: whitespace removed from both ends. */
  function Strip(s: string): (r: string)
    ensures |r| <= |s|
    ensures |r| == 0 || (!IsSpace(r[0]) && !IsSpace(r[|r| - 1]))
  {
    var t := RStrip(s);
    var r := LStrip(t);
    assert |r| > 0 ==> r[|r| - 1] == t[|t| - 1];
    r
  }

  /** Where the stripped text of `s` begins. */
  function StripStart(s: string): nat {
    |RStrip(s)| - |LStrip(RStrip(s))|
  }

  /** `strip()` keeps one contiguous slice of `s` and removes only whitespace around it. */
  lemma StripSlice(s: string)
    ensures StripStart(s) + |Strip(s)| <= |s|
    ensures Strip(s) == s[StripStart(s)..StripStart(s) + |Strip(s)|]
    ensures forall k :: 0 <= k < StripStart(s) ==> IsSpace(s[k])
    ensures forall k :: StripStart(s) + |Strip(s)| <= k < |s| ==> IsSpace(s[k])
  {
    StripKeepsSlice(s);
    StripDropsLeadingSpace(s);
  }

  /** The stripped text is the slice of `s` from `StripStart(s)`. */
  lemma StripKeepsSlice(s: string)
    ensures StripStart(s) + |Strip(s)| == |RStrip(s)| <= |s|
    ensures Strip(s) == s[StripStart(s)..StripStart(s) + |Strip(s)|]
  {
    var t := RStrip(s);
    var r := LStrip(t);
    assert Strip(s) == r && StripStart(s) == |t| - |r|;
    SuffixOfPrefix(s, t, r);
  }

  /** A suffix `r` of a prefix `t` of `s` is the slice of `s` that ends where `t` does. */
  lemma SuffixOfPrefix(s: string, t: string, r: string)
    requires t <= s && |r| <= |t| && r == t[|t| - |r|..]
    ensures r == s[|t| - |r|..|t|]
  {
    assert t == s[..|t|];
  }

  /** Everything before `StripStart(s)` is whitespace. */
  lemma StripDropsLeadingSpace(s: string)
    ensures forall k :: 0 <= k < StripStart(s) ==> IsSpace(s[k])
  {
    var t := RStrip(s);
    var i := StripStart(s);
    forall k | 0 <= k < i
      ensures IsSpace(s[k])
    {
      assert s[k] == t[k];
    }
  }

  /** Stripping an already stripped string changes nothing. */
  lemma StripIdempotent(s: string)
    ensures Strip(Strip(s)) == Strip(s)
  {
    var r := Strip(s);
    if |r| > 0 {
      assert RStrip(r) == r;
      assert LStrip(r) == r;
    }
  }

  /** `sep.join(parts)`. */
  function Join(parts: seq<string>, sep: string): string
    decreases |parts|
  {
    if |parts| == 0 then ""
    else if |parts| == 1 then parts[0]
    else parts[0] + sep + Join(parts[1..], sep)
  }

  /** Number of occurrences of `c` in `s`. */
  function CountChar(s: string, c: char): nat
    decreases |s|
  {
    if |s| == 0 then 0 else (if s[0] == c then 1 else 0) + CountChar(s[1..], c)
  }

  /**
   `s.split(sep)` for a one-character separator: always at least one piece
   (`"".split(",") == [""]`), empty pieces kept, pieces never contain `sep`.
   */
  function Split(s: string, sep: char): (r: seq<string>)
    ensures |r| == CountChar(s, sep) + 1
    ensures forall k :: 0 <= k < |r| ==> sep !in r[k]
    ensures Join(r, [sep]) == s
    decreases |s|
  {
    if |s| == 0 then [""]
    else
      var rest := Split(s[1..], sep);
      if s[0] == sep then
        assert s == [sep] + s[1..];
        [""] + rest
      else
        var r := [[s[0]] + rest[0]] + rest[1..];
        assert r[1..] == rest[1..];
        assert s == [s[0]] + s[1..];
        r
  }

  /** A string without the separator splits into itself. */
  lemma {:induction false} SplitNoSep(a: string, sep: char)
    requires sep !in a
    ensures Split(a, sep) == [a]
    decreases |a|
  {
    if |a| > 0 {
      SplitNoSep(a[1..], sep);
      assert [a[0]] + a[1..] == a;
    }
  }

  /** Splitting `a + sep + b` with `sep` not in `a` gives `a`, then the pieces of `b`. */
  lemma {:induction false} SplitAfterPiece(a: string, b: string, sep: char)
    requires sep !in a
    ensures Split(a + [sep] + b, sep) == [a] + Split(b, sep)
    decreases |a|
  {
    var s := a + [sep] + b;
    if |a| == 0 {
      assert s[1..] == b;
    } else {
      assert s[1..] == a[1..] + [sep] + b;
      SplitAfterPiece(a[1..], b, sep);
      assert [a[0]] + a[1..] == a;
    }
  }

  /** `sep.join` then `split(sep)` gives the pieces back when none contains the separator. */
  lemma {:induction false} SplitJoin(parts: seq<string>, sep: char)
    requires |parts| > 0
    requires forall k :: 0 <= k < |parts| ==> sep !in parts[k]
    ensures Split(Join(parts, [sep]), sep) == parts
    decreases |parts|
  {
    if |parts| == 1 {
      SplitNoSep(parts[0], sep);
    } else {
      SplitJoin(parts[1..], sep);
      SplitAfterPiece(parts[0], Join(parts[1..], [sep]), sep);
      assert [parts[0]] + parts[1..] == parts;
    }
  }

  /** The characters `[A-Za-z0-9]` of the filename-scrubbing regex. */
  predicate IsAsciiAlnum(c: char) {
    ('A' <= c <= 'Z') || ('a' <= c <= 'z') || ('0' <= c <= '9')
  }

  /** `re.sub(r'[^A-Za-z0-9]', '_', s)`. */
  function ScrubNonAlnum(s: string): (r: string)
    ensures |r| == |s|
    ensures forall i :: 0 <= i < |s| && IsAsciiAlnum(s[i]) ==> r[i] == s[i]
    ensures forall i :: 0 <= i < |s| && !IsAsciiAlnum(s[i]) ==> r[i] == '_'
    decreases |s|
  {
    if |s| == 0 then "" else [if IsAsciiAlnum(s[0]) then s[0] else '_'] + ScrubNonAlnum(s[1..])
  }

  /** The scrubbed string holds only letters, digits and underscores, so scrubbing again is a no-op. */
  lemma ScrubIdempotent(s: string)
    ensures ScrubNonAlnum(ScrubNonAlnum(s)) == ScrubNonAlnum(s)
  {
    var r := ScrubNonAlnum(s);
    var rr := ScrubNonAlnum(r);
    assert forall i :: 0 <= i < |r| ==> rr[i] == r[i];
  }

  predicate IsDigit(c: char) {
    '0' <= c <= '9'
  }

  function DigitChar(d: nat): (c: char)
    requires d < 10
    ensures IsDigit(c)
  {
    ['0', '1', '2', '3', '4', '5', '6', '7', '8', '9'][d]
  }

  function DigitValue(c: char): (d: nat)
    requires IsDigit(c)
    ensures d < 10
  {
    (c as int - '0' as int) as nat
  }

  /** `str(n)` for a natural number: decimal digits without leading zeros. */
  function NatToString(n: nat): (r: string)
    ensures |r| >= 1
    ensures forall i :: 0 <= i < |r| ==> IsDigit(r[i])
    ensures |r| > 1 ==> r[0] != '0'
    decreases n
  {
    if n < 10 then [DigitChar(n)] else NatToString(n / 10) + [DigitChar(n % 10)]
  }

  /** Reads a string of decimal digits back into its value. */
  function ParseDigits(s: string): nat
    requires forall i :: 0 <= i < |s| ==> IsDigit(s[i])
    decreases |s|
  {
    if |s| == 0 then 0 else 10 * ParseDigits(s[..|s| - 1]) + DigitValue(s[|s| - 1])
  }

  /** `int(str(n)) == n`: the decimal rendering loses nothing. */
  lemma {:induction false} NatToStringRoundTrip(n: nat)
    ensures ParseDigits(NatToString(n)) == n
    decreases n
  {
    if n >= 10 {
      NatToStringRoundTrip(n / 10);
      var r := NatToString(n);
      assert r[..|r| - 1] == NatToString(n / 10);
    }
  }

  /** `str(n)` for any integer: a leading `-` for negatives. */
  function IntToString(n: int): (r: string)
    ensures |r| >= 1
    ensures n >= 0 ==> r == NatToString(n)
    ensures n < 0 ==> r == "-" + NatToString(-n)
  {
    if n >= 0 then NatToString(n) else "-" + NatToString(-n)
  }
}

=== FILE: utils.dfy ===
/**
 Shared helpers of the scripts: list chunking, the date-range label, the
 output filename rule and the sandbox organisation prefix.
 */
module Utils {
  import opened Text

  /** The position of the first occurrence of `x`. */
  function FirstIndex<T(==)>(xs: seq<T>, x: T): (i: nat)
    requires x in xs
    ensures i < |xs| && xs[i] == x && x !in xs[..i]
    decreases |xs|
  {
    if xs[0] == x then 0
    else
      var j := FirstIndex(xs[1..], x);
      assert xs[..j + 1] == [xs[0]] + xs[1..][..j];
      j + 1
  }

  /** Concatenation of a list of lists (`sum(chunks, [])`). */
  function Flatten<T>(xss: seq<seq<T>>): seq<T>
    decreases |xss|
  {
    if |xss| == 0 then [] else xss[0] + Flatten(xss[1..])
  }

  /** Flattening distributes over concatenation of the outer list. */
  lemma {:induction false} FlattenAppend<T>(a: seq<seq<T>>, b: seq<seq<T>>)
    ensures Flatten(a + b) == Flatten(a) + Flatten(b)
    decreases |a|
  {
    if |a| == 0 {
      assert a + b == b;
    } else {
      assert (a + b)[0] == a[0];
      assert (a + b)[1..] == a[1..] + b;
      FlattenAppend(a[1..], b);
    }
  }

  /**
   `[lst[i:i + n] for i in range(0, len(lst), n)]`. A negative `n` makes the
   range empty and yields no chunks; `n == 0` makes `range` raise, so it is
   excluded.
   */
  function ChunkList<T>(lst: seq<T>, n: int): (r: seq<seq<T>>)
    requires n != 0
    ensures n < 0 ==> r == []
    ensures n > 0 ==> Flatten(r) == lst
    ensures forall k :: 0 <= k < |r| ==> 0 < |r[k]| <= n
    ensures forall k :: 0 <= k < |r| - 1 ==> |r[k]| == n
    decreases |lst|
  {
    if n < 0 || |lst| == 0 then []
    else if |lst| <= n then
      assert Flatten([lst]) == lst + Flatten<T>([]);
      [lst]
    else
      var rest := ChunkList(lst[n..], n);
      assert Flatten([lst[..n]] + rest) == lst[..n] + Flatten(rest) by {
        assert ([lst[..n]] + rest)[1..] == rest;
      }
      assert lst[..n] + lst[n..] == lst;
      [lst[..n]] + rest
  }

  /** There are `ceil(len(lst) / n)` chunks: none for an empty list. */
  lemma {:induction false} ChunkListCount<T>(lst: seq<T>, n: int)
    requires n > 0
    ensures var r := ChunkList(lst, n);
            |lst| <= |r| * n && (|r| == 0 || (|r| - 1) * n < |lst|)
    decreases |lst|
  {
    if |lst| > n {
      ChunkListCount(lst[n..], n);
      var rest := ChunkList(lst[n..], n);
      assert ChunkList(lst, n) == [lst[..n]] + rest;
      var c := |rest|;
      MulSucc(c, n);
      if c > 0 {
        MulSucc(c - 1, n);
      }
    }
  }

  lemma MulSucc(c: int, n: int)
    ensures (c + 1) * n == c * n + n
  {
  }

  /** `format_date_range(s, e)`: the label `s_to_e`. */
  function FormatDateRange(startDate: string, endDate: string): (r: string)
    ensures |r| == |startDate| + 4 + |endDate|
    ensures r[..|startDate|] == startDate && r[|startDate|..|startDate| + 4] == "_to_"
    ensures r[|startDate| + 4..] == endDate
  {
    startDate + "_to_" + endDate
  }

  /**
   `create_output_filename(prefix, s, e, website, suffix)`. The source takes
   the wall-clock timestamp and never uses it; it is the `now` parameter here.
   */
  function CreateOutputFilename(prefix: string, startDate: string, endDate: string,
                                website: string, suffix: string, now: string): (r: string)
  {
    var fileName := FormatDateRange(startDate, endDate) + "_" + website + "." + suffix;
    if |prefix| > 0 then prefix + "_" + fileName else fileName
  }

  /**
   The filename is `{s}_to_{e}_{website}.{suffix}`, preceded by `{prefix}_`
   exactly when the prefix is non-empty, and the clock plays no part.
   */
  lemma CreateOutputFilenameShape(prefix: string, startDate: string, endDate: string,
                                  website: string, suffix: string, now: string, later: string)
    ensures var base := startDate + "_to_" + endDate + "_" + website + "." + suffix;
            var r := CreateOutputFilename(prefix, startDate, endDate, website, suffix, now);
            (prefix == "" ==> r == base) && (prefix != "" ==> r == prefix + "_" + base)
    ensures CreateOutputFilename(prefix, startDate, endDate, website, suffix, now)
         == CreateOutputFilename(prefix, startDate, endDate, website, suffix, later)
  {
  }

  /** Outside production the organisation id is prefixed with `sandbox.`. */
  function OrgFor(org: string, environment: string): (r: string)
    ensures environment == "production" ==> r == org
    ensures environment != "production" ==> r == "sandbox." + org && StartsWith(r, "sandbox.")
  {
    if environment == "production" then org else "sandbox." + org
  }
}

=== FILE: wires_fetch.dfy ===
/**
 The wires range processor: for each date range it pages through the
 unpublished wire stories of the website, keeping a fixed set of fields
 per story, and it names the CSV export.
 */
module WiresFetch {
  import opened Wrappers
  import opened Records
  import opened Text
  import opened Utils
  import opened FanOut
  import opened SearchPaging

  /** The processor's settings: organisation (with the sandbox prefix applied), website, environment, extra fields. */
  datatype Processor = Processor(org: string, website: string, env: string, extraFields: seq<string>)

  /** `WiresParallelProcessor(...)`: `sandbox.` outside production; no extra fields when none are given. */
  function NewProcessor(org: string, website: string, environment: string, extraFields: Option<seq<string>>): (p: Processor)
    ensures p.org == OrgFor(org, environment) && p.website == website && p.env == environment
    ensures extraFields.Some? ==> p.extraFields == extraFields.value
    ensures extraFields.None? ==> p.extraFields == []
  {
    Processor(OrgFor(org, environment), website, environment, extraFields.GetOr([]))
  }

  /** The query of one range, with the extra filters spliced in after the published flag. */
  function WiresQuery(filters: string, startDate: string, endDate: string): string {
    "type:story AND revision.published:false " + filters + " AND source.source_type:wires AND created_date:["
    + startDate + " TO " + endDate + "]"
  }

  /** The fields every export carries, in this order. */
  const DefaultFields: seq<string> := ["_id", "source.name", "created_date", "revision.published",
                                       "additional_properties.has_published_copy"]

  /**
   The extra fields that are appended: the non-empty ones that are not
   default fields, in their order, duplicates among them kept.
   */
  function ExtraFields(extras: seq<string>): (r: seq<string>)
    ensures forall f :: f != "" && f !in DefaultFields ==> multiset(r)[f] == multiset(extras)[f]
    ensures forall f :: f == "" || f in DefaultFields ==> f !in r
    decreases |extras|
  {
    if |extras| == 0 then []
    else
      var rest := ExtraFields(extras[1..]);
      assert extras == [extras[0]] + extras[1..];
      if extras[0] != "" && extras[0] !in DefaultFields then [extras[0]] + rest else rest
  }

  /** The filter keeps the order: the extras of two lists are those of each, one after the other. */
  lemma {:induction false} ExtraFieldsAppend(a: seq<string>, b: seq<string>)
    ensures ExtraFields(a + b) == ExtraFields(a) + ExtraFields(b)
    decreases |a|
  {
    if |a| == 0 {
      assert a + b == b;
    } else {
      assert (a + b)[0] == a[0];
      assert (a + b)[1..] == a[1..] + b;
      ExtraFieldsAppend(a[1..], b);
    }
  }

  /** The `_sourceInclude` list: defaults first, then the extras. */
  function AllFields(extras: seq<string>): (r: seq<string>)
    ensures |r| >= |DefaultFields| && r[..|DefaultFields|] == DefaultFields
    ensures r[|DefaultFields|..] == ExtraFields(extras)
  {
    DefaultFields + ExtraFields(extras)
  }

  /** The request for offset `from` of a range. */
  function RangeRequest(p: Processor, range: (string, string), filters: string, from: int): SearchRequest {
    SearchRequest(SearchUrl(p.org), Some(Join(AllFields(p.extraFields), ",")), p.website,
                  WiresQuery(filters, range.0, range.1), from)
  }

  /** `row.get(key, {}).get(field, "")`: raises when the nested value is not an object. */
  function Nested(row: Value, key: string, field: string): (r: Result<Value>)
    requires row.Obj?
    ensures r.Ok? <==> key !in row.fields || row.fields[key].Obj?
    ensures r.Ok? && key in row.fields && field in row.fields[key].fields ==> r.value == row.fields[key].fields[field]
    ensures r.Ok? && (key !in row.fields || field !in row.fields[key].fields) ==> r.value == Str("")
  {
    match GetOr(row, key, Obj(map[]))
    case Err(e) => Err(e)
    case Ok(inner) => GetOr(inner, field, Str(""))
  }

  /** A hit the wires mapping accepts: an object with `_id` and `created_date`, whose `source` and `additional_properties`, if present, are objects. */
  predicate WireRow(row: Value) {
    row.Obj? && "_id" in row.fields && "created_date" in row.fields
    && ("source" !in row.fields || row.fields["source"].Obj?)
    && ("additional_properties" !in row.fields || row.fields["additional_properties"].Obj?)
  }

  /** The seven columns of a wires record. */
  const WireColumns: set<string> := {"ans_id", "source_name", "source_system", "published_copy", "created_date", "website", "environment"}

  /**
   The record of one hit: its id, source name and system, published-copy
   flag and creation date, plus the processor's website and environment.
   A hit the mapping cannot read raises (`KeyError`, `TypeError`,
   `AttributeError`).
   */
  function WireRecord(row: Value, website: string, env: string): (r: Result<Dict>)
    ensures r.Ok? <==> WireRow(row)
    ensures r.Ok? ==> r.value.Keys == WireColumns
    ensures r.Ok? ==> r.value["ans_id"] == row.fields["_id"] && r.value["created_date"] == row.fields["created_date"]
    ensures r.Ok? ==> r.value["website"] == Str(website) && r.value["environment"] == Str(env)
    ensures r.Ok? ==> r.value["source_name"] == Nested(row, "source", "name").value
                      && r.value["source_system"] == Nested(row, "source", "system").value
                      && r.value["published_copy"] == Nested(row, "additional_properties", "has_published_copy").value
  {
    if !row.Obj? || "_id" !in row.fields then Err(if row.Obj? then "KeyError" else "TypeError")
    else
      var name := Nested(row, "source", "name");
      var system := Nested(row, "source", "system");
      var copy := Nested(row, "additional_properties", "has_published_copy");
      if name.Err? || system.Err? || copy.Err? then Err("AttributeError")
      else if "created_date" !in row.fields then Err("KeyError")
      else
        Ok(map["ans_id" := row.fields["_id"], "source_name" := name.value, "source_system" := system.value,
               "published_copy" := copy.value, "created_date" := row.fields["created_date"],
               "website" := Str(website), "environment" := Str(env)])
  }

  /** `fetch_wires_for_range`: the paging loop over the range's query; it never raises. */
  function FetchWiresForRange(server: SearchRequest -> Reply, p: Processor, range: (string, string), filters: string): (r: Fetched<Dict>)
    ensures |r.offsets| >= 1
  {
    Fetch((from: int) => server(RangeRequest(p, range, filters, from)), (row: Value) => WireRecord(row, p.website, p.env))
  }

  /** A wires record with the processor's website and environment. */
  predicate StampedWire(p: Processor, d: Dict) {
    d.Keys == WireColumns && d["website"] == Str(p.website) && d["environment"] == Str(p.env)
  }

  /**
   Every request of a range carries the same URL, field list, website and
   query, at offsets 0, 100, ... below 10,000 (so at most 100 requests);
   the records are the pages' records in page order, each stamped with the
   processor's website and environment.
   */
  lemma FetchWiresForRangeContract(server: SearchRequest -> Reply, p: Processor, range: (string, string), filters: string)
    ensures var r := FetchWiresForRange(server, p, range, filters);
            var search := (from: int) => server(RangeRequest(p, range, filters, from));
            var mapRow := (row: Value) => WireRecord(row, p.website, p.env);
            1 <= |r.offsets| <= 100
            && (forall k :: 0 <= k < |r.offsets| ==> r.offsets[k] == 100 * k && r.offsets[k] < 10000)
            && r.items == PagesRecords(search, mapRow, r.offsets)
            && forall d :: d in r.items ==> StampedWire(p, d)
  {
    var search := (from: int) => server(RangeRequest(p, range, filters, from));
    var mapRow := (row: Value) => WireRecord(row, p.website, p.env);
    FetchWithinWindow(search, mapRow);
    FetchFromItems(search, mapRow, 0);
    PagesRecordsFromRows(search, mapRow, Fetch(search, mapRow).offsets, (d: Dict) => StampedWire(p, d));
  }

  /** The per-range task handed to the pool: it always returns its records. */
  function RangeTask(server: SearchRequest -> Reply, p: Processor, filters: string): ((string, string)) -> Outcome<seq<Dict>> {
    range => Returned(Some(FetchWiresForRange(server, p, range, filters).items))
  }

  /** `process_ranges_parallel`: the records of all ranges, whatever order the ranges complete in. */
  function ProcessRangesParallel(server: SearchRequest -> Reply, p: Processor, ranges: seq<(string, string)>, filters: string): seq<Dict> {
    ProcessRanges(RangeTask(server, p, filters), ranges)
  }

  /**
   A record is in the result exactly when some range fetched it, and the
   multiset of records does not depend on the completion order.
   */
  lemma ProcessRangesParallelContents(server: SearchRequest -> Reply, p: Processor, ranges: seq<(string, string)>,
                                      completed: seq<(string, string)>, filters: string, d: Dict)
    requires multiset(ranges) == multiset(completed)
    ensures d in ProcessRangesParallel(server, p, ranges, filters) <==>
              exists k :: 0 <= k < |ranges| && d in FetchWiresForRange(server, p, ranges[k], filters).items
    ensures multiset(ProcessRangesParallel(server, p, ranges, filters))
         == multiset(ProcessRanges(RangeTask(server, p, filters), completed))
  {
    ProcessRangesContents(RangeTask(server, p, filters), ranges, completed, d);
  }

  /**
   `export_to_csv`'s file name: none (`""`) when there is no data; with
   extra filters, `{s}_{e}_{filters}_{website}.csv` with every character
   outside `[A-Za-z0-9]` of the filters turned into `_` and the prefix
   ignored; otherwise the shared output-filename rule.
   */
  function ExportFilename(p: Processor, data: seq<Dict>, startDate: string, endDate: string,
                          outputPrefix: string, filters: string, now: string): (name: string)
    ensures |data| == 0 <==> name == ""
    ensures |data| > 0 && filters != "" ==>
              name == startDate + "_" + endDate + "_" + ScrubNonAlnum(filters) + "_" + p.website + ".csv"
    ensures |data| > 0 && filters == "" ==> name == CreateOutputFilename(outputPrefix, startDate, endDate, p.website, "csv", now)
  {
    if |data| == 0 then ""
    else if filters != "" then startDate + "_" + endDate + "_" + ScrubNonAlnum(filters) + "_" + p.website + ".csv"
    else CreateOutputFilename(outputPrefix, startDate, endDate, p.website, "csv", now)
  }

  /** With filters the name does not depend on the prefix, and filters differing only in punctuation give the same name. */
  lemma ExportFilenameIgnoresPrefix(p: Processor, data: seq<Dict>, s: string, e: string, prefix1: string, prefix2: string,
                                    filters: string, now: string)
    requires filters != ""
    ensures ExportFilename(p, data, s, e, prefix1, filters, now) == ExportFilename(p, data, s, e, prefix2, filters, now)
    ensures ExportFilename(p, data, s, e, prefix1, filters, now) == ExportFilename(p, data, s, e, prefix1, ScrubNonAlnum(filters), now)
  {
    ScrubIdempotent(filters);
  }
}

=== FILE: wires_report.dfy ===
/**
 The wires reporter: it turns the requested dates into ranges, fetches the
 unpublished wire stories of every range through the range processor
 (optionally after benchmarking the pool size), names the export and
 summarises the run.

 The date-range builder is the oracle `build(start, end)`, the ranges the
 builder's bisection returns for two date strings; the search endpoint is
 `server`; the benchmark is `bench`.
 */
module WiresReport {
  import opened Wrappers
  import opened Records
  import opened Text
  import opened FanOut
  import opened SearchPaging
  import opened WiresFetch
  import opened WorkerTuning
  import opened DateRanges

  /** The reporter's settings. */
  datatype Reporter = Reporter(org: string, env: string, website: string, filters: string, outputPrefix: string,
                               maxWorkers: int, autoOptimize: bool, extraFields: seq<string>)

  /** `WiresReporter(...)`: no extra fields when none are given. */
  function NewReporter(org: string, environment: string, website: string, filters: string, outputPrefix: string,
                       maxWorkers: int, autoOptimize: bool, extraFields: Option<seq<string>>): (rep: Reporter)
    ensures extraFields.None? ==> rep.extraFields == []
    ensures extraFields.Some? ==> rep.extraFields == extraFields.value
    ensures rep.org == org && rep.maxWorkers == maxWorkers && rep.autoOptimize == autoOptimize && rep.filters == filters
  {
    Reporter(org, environment, website, filters, outputPrefix, maxWorkers, autoOptimize, extraFields.GetOr([]))
  }

  /** The range processor the reporter builds. */
  function ProcessorOf(rep: Reporter): (p: Processor)
    ensures p == NewProcessor(rep.org, rep.website, rep.env, Some(rep.extraFields))
  {
    NewProcessor(rep.org, rep.website, rep.env, Some(rep.extraFields))
  }

  /**
   `process_date_ranges`: nothing without ranges; otherwise every range is
   fetched, and with more than three ranges and optimisation on, the pool
   size is first benchmarked on the first three (5 when no size shows any
   throughput). A record is in the result exactly when some range fetched
   it, and it carries the reporter's website and environment.
   */
  method ProcessDateRanges(rep: Reporter, server: SearchRequest -> Reply, bench: (nat, seq<(string, string)>) -> real,
                           ranges: seq<(string, string)>) returns (data: seq<Dict>, workers: int)
    ensures |ranges| == 0 ==> data == [] && workers == rep.maxWorkers
    ensures forall d :: d in data <==> exists k :: 0 <= k < |ranges| && d in FetchWiresForRange(server, ProcessorOf(rep), ranges[k], rep.filters).items
    ensures forall d :: d in data ==> StampedWire(ProcessorOf(rep), d)
    ensures rep.autoOptimize && |ranges| > 3 ==> workers in RangeCandidates
    ensures rep.autoOptimize && |ranges| > 3
            && (forall i :: 0 <= i < |RangeCandidates| ==> bench(RangeCandidates[i], Take(ranges, 3)) <= 0.0)
            ==> workers == RangeDefault
    ensures !(rep.autoOptimize && |ranges| > 3) ==> workers == rep.maxWorkers
  {
    workers := rep.maxWorkers;
    if |ranges| == 0 {
      return [], workers;
    }
    if rep.autoOptimize && |ranges| > 3 {
      TakeTake(ranges, 3);
      workers := OptimizeRangeWorkers(bench, Take(ranges, 3));
    }
    var p := ProcessorOf(rep);
    data := ProcessRangesParallel(server, p, ranges, rep.filters);
    forall d
      ensures d in data <==> exists k :: 0 <= k < |ranges| && d in FetchWiresForRange(server, p, ranges[k], rep.filters).items
      ensures d in data ==> StampedWire(p, d)
    {
      ProcessRangesParallelContents(server, p, ranges, ranges, rep.filters, d);
      if d in data {
        var k :| 0 <= k < |ranges| && d in FetchWiresForRange(server, p, ranges[k], rep.filters).items;
        FetchWiresForRangeContract(server, p, ranges[k], rep.filters);
      }
    }
  }

  /** The summary `generate_report` returns. */
  datatype Summary = Summary(totalItems: nat, dateRangesProcessed: nat, outputFile: string, maxWorkersUsed: int,
                             additionalQuery: string)

  /**
   `generate_report`: ranges, records, export name and summary. Without
   both dates nothing is fetched and nothing is exported; a file is named
   exactly when there are records.
   */
  method GenerateReport(rep: Reporter, build: (string, string) -> seq<(string, string)>, server: SearchRequest -> Reply,
                        bench: (nat, seq<(string, string)>) -> real, startDate: string, endDate: string, now: string)
    returns (summary: Summary, data: seq<Dict>)
    ensures summary.totalItems == |data|
    ensures summary.dateRangesProcessed == |ReporterRanges(build, startDate, endDate)|
    ensures startDate == "" || endDate == "" ==> data == [] && summary.dateRangesProcessed == 0 && summary.outputFile == ""
    ensures summary.outputFile == "" <==> |data| == 0
    ensures |data| > 0 ==> summary.outputFile == ExportFilename(ProcessorOf(rep), data, startDate, endDate, rep.outputPrefix, rep.filters, now)
    ensures forall d :: d in data ==> StampedWire(ProcessorOf(rep), d)
    ensures summary.maxWorkersUsed == rep.maxWorkers || summary.maxWorkersUsed in RangeCandidates
    ensures summary.additionalQuery == rep.filters
  {
    var ranges := ReporterRanges(build, startDate, endDate);
    var workers;
    data, workers := ProcessDateRanges(rep, server, bench, ranges);
    var output := ExportFilename(ProcessorOf(rep), data, startDate, endDate, rep.outputPrefix, rep.filters, now);
    summary := Summary(|data|, |ranges|, output, workers, rep.filters);
  }

  /** The non-empty stripped pieces, in order. */
  function Cleaned(pieces: seq<string>): (r: seq<string>)
    ensures |r| <= |pieces|
    ensures forall k :: 0 <= k < |r| ==> r[k] != "" && Strip(r[k]) == r[k]
    decreases |pieces|
  {
    if |pieces| == 0 then []
    else
      var rest := Cleaned(pieces[1..]);
      StripIdempotent(pieces[0]);
      if Strip(pieces[0]) != "" then [Strip(pieces[0])] + rest else rest
  }

  /** Pieces already stripped and non-empty are kept as they are. */
  lemma {:induction false} CleanedKeepsClean(fields: seq<string>)
    requires forall k :: 0 <= k < |fields| ==> fields[k] != "" && Strip(fields[k]) == fields[k]
    ensures Cleaned(fields) == fields
    decreases |fields|
  {
    if |fields| > 0 {
      var rest := fields[1..];
      assert forall k :: 0 <= k < |rest| ==> rest[k] == fields[k + 1];
      CleanedKeepsClean(rest);
      assert Cleaned(fields) == [fields[0]] + Cleaned(rest);
      assert [fields[0]] + rest == fields;
    }
  }

  /** `--q-extra-fields`: split on commas, strip every piece, drop the empty ones; nothing for an empty argument. */
  function ParseExtraFields(arg: string): (r: seq<string>)
    ensures arg == "" ==> r == []
    ensures forall k :: 0 <= k < |r| ==> r[k] != "" && Strip(r[k]) == r[k]
  {
    if arg == "" then [] else Cleaned(Text.Split(arg, ','))
  }

  /**
   Joining comma-free pieces with commas and parsing them back gives their
   non-empty stripped forms; in particular fields already clean come back
   unchanged.
   */
  lemma ParseExtraFieldsJoin(pieces: seq<string>)
    requires |pieces| > 0
    requires forall k :: 0 <= k < |pieces| ==> ',' !in pieces[k]
    ensures ParseExtraFields(Join(pieces, [','])) == Cleaned(pieces)
  {
    var joined := Join(pieces, [',']);
    SplitJoin(pieces, ',');
    assert Text.Split(joined, ',') == pieces;
    if joined == "" {
      assert pieces == [""];
      assert Cleaned(pieces) == [];
    } else {
      assert ParseExtraFields(joined) == Cleaned(Text.Split(joined, ','));
    }
  }

  /** Clean, comma-free field names survive joining with commas and parsing back, the empty list included. */
  lemma ParseExtraFieldsRoundTrip(fields: seq<string>)
    requires forall k :: 0 <= k < |fields| ==> fields[k] != "" && Strip(fields[k]) == fields[k] && ',' !in fields[k]
    ensures ParseExtraFields(Join(fields, [','])) == fields
  {
    if |fields| > 0 {
      ParseExtraFieldsJoin(fields);
      CleanedKeepsClean(fields);
    }
  }

  /**
   `main`: the extra fields come from the comma-separated option, and the
   reporter is built without passing `--auto-optimize-workers`, so pool
   optimisation stays on whatever the flag says.
   */
  function MainReporter(org: string, environment: string, website: string, filters: string, extraFieldsArg: string,
                        maxWorkers: int, outputPrefix: string, autoOptimizeFlag: bool): (rep: Reporter)
    ensures rep.autoOptimize
    ensures rep.extraFields == ParseExtraFields(extraFieldsArg)
    ensures extraFieldsArg == "" ==> rep.extraFields == []
    ensures rep.maxWorkers == maxWorkers && rep.filters == filters
  {
    NewReporter(org, environment, website, filters, outputPrefix, maxWorkers, true, Some(ParseExtraFields(extraFieldsArg)))
  }
}

=== FILE: worker_tuning.dfy ===
/**
 The `optimize_worker_count` functions of the processors: each benchmarks
 a fixed list of pool sizes on a small sample and keeps the size with the
 strictly highest throughput, falling back to a default.

 A benchmark is the oracle `bench(workers, sample)`, the items per second
 measured with that many workers on that sample (0 when nothing was
 processed); the clock behind it is not modelled.
 */
module WorkerTuning {
  import opened Wrappers
  import opened FanOut

  /** The pool sizes tried by the photo, redirect-deletion and story-deletion processors. */
  const ItemCandidates: seq<nat> := [1, 2, 4, 8, 12, 16]

  /** Their default, kept when no benchmark reports any throughput. */
  const ItemDefault: nat := 8

  /** The pool sizes tried by the range processors of the two reporters. */
  const RangeCandidates: seq<nat> := [1, 3, 5, 8, 10]

  /** Their default. */
  const RangeDefault: nat := 5

  /** At most one candidate is the first best one: the choice is determined by the scores. */
  lemma FirstBestUnique(candidates: seq<nat>, score: nat -> real, i: nat, j: nat)
    requires FirstBest(candidates, score, i) && FirstBest(candidates, score, j)
    ensures i == j
  {
  }

  /** The sample of the item processors: the given test items, else the first 10 items. */
  function ItemSample<I>(items: seq<I>, testItems: Option<seq<I>>): (sample: seq<I>)
    ensures testItems.Some? ==> sample == testItems.value
    ensures testItems.None? ==> sample <= items && |sample| == if |items| < 10 then |items| else 10
  {
    match testItems
    case Some(t) => t
    case None => Take(items, 10)
  }

  /**
   The item processors' `optimize_worker_count`: one of 1, 2, 4, 8, 12, 16,
   chosen on the sample; 8 when no size reports a positive throughput;
   otherwise the earliest size whose throughput no other size exceeds.
   */
  method OptimizeItemWorkers<I>(bench: (nat, seq<I>) -> real, items: seq<I>, testItems: Option<seq<I>>) returns (best: nat)
    ensures best in ItemCandidates
    ensures (forall i :: 0 <= i < |ItemCandidates| ==> bench(ItemCandidates[i], ItemSample(items, testItems)) <= 0.0) ==>
              best == ItemDefault
    ensures (exists i :: 0 <= i < |ItemCandidates| && bench(ItemCandidates[i], ItemSample(items, testItems)) > 0.0) ==>
              exists i: nat :: FirstBest(ItemCandidates, (w: nat) => bench(w, ItemSample(items, testItems)), i)
                               && ItemCandidates[i] == best
  {
    var sample := ItemSample(items, testItems);
    best := ChooseWorkers(ItemCandidates, ItemDefault, (w: nat) => bench(w, sample));
  }

  /**
   The range processors' `optimize_worker_count`: one of 1, 3, 5, 8, 10,
   benchmarked on the first 3 ranges; 5 when none reports a positive
   throughput; otherwise the earliest best size.
   */
  method OptimizeRangeWorkers<I>(bench: (nat, seq<I>) -> real, ranges: seq<I>) returns (best: nat)
    ensures best in RangeCandidates
    ensures (forall i :: 0 <= i < |RangeCandidates| ==> bench(RangeCandidates[i], Take(ranges, 3)) <= 0.0) ==>
              best == RangeDefault
    ensures (exists i :: 0 <= i < |RangeCandidates| && bench(RangeCandidates[i], Take(ranges, 3)) > 0.0) ==>
              exists i: nat :: FirstBest(RangeCandidates, (w: nat) => bench(w, Take(ranges, 3)), i)
                               && RangeCandidates[i] == best
  {
    var sample := Take(ranges, 3);
    best := ChooseWorkers(RangeCandidates, RangeDefault, (w: nat) => bench(w, sample));
  }

  /** Equal throughput for 4 and 8 workers, and less for the rest: the earlier size, 4, wins. */
  method TieGoesToEarlierSize() returns (best: nat)
    ensures best == 4
  {
    var bench := (w: nat, sample: seq<int>) => if w == 4 || w == 8 then 10.0 else 1.0;
    best := OptimizeItemWorkers(bench, [1, 2, 3], None);
    var score := (w: nat) => bench(w, ItemSample([1, 2, 3], None));
    assert FirstBest(ItemCandidates, score, 2);
    assert bench(ItemCandidates[2], ItemSample([1, 2, 3], None)) > 0.0;
    ghost var i: nat :| FirstBest(ItemCandidates, score, i) && ItemCandidates[i] == best;
    FirstBestUnique(ItemCandidates, score, i, 2);
  }
}

=== FILE: wrappers.dfy ===
/** Failure-carrying datatypes shared by every module of the model. */
module Wrappers {

  /** Python's `None` versus a present value. */
  datatype Option<+T> = None | Some(value: T) {

    /** The encapsulated value, or `default` when absent (Python's `x if x is not None else default`). */
    function GetOr(default: T): T {
      match this
      case Some(v) => v
      case None => default
    }
  }

  /** A computation that either produced a value or raised; the message names the Python exception. */
  datatype Result<+T> = Ok(value: T) | Err(error: string)
}
